=== FILE: README.md ===
# Twitube controllers in Dafny

A model of the request handlers of Twitube, an Express/Mongoose backend for a
video-sharing site with a microblog ("tweets") on the side, and of its Cloudinary
helper. Each handler is a pure function from a store and the request's
parameters to a `Result` (a success value or an HTTP status) and, for the writing
handlers, the store afterwards.

- `outcomes.dfy` (`Outcomes`): `Option`, `Result` and the status codes the handlers use.
- `text.dfy` (`Text`): JavaScript truthiness of a request field, `trim()` over the whitespace
  and line terminators of ECMAScript (sections 12.2 and 12.3 of ECMA-262), and the
  case-insensitive substring test behind `$regex` with option "i".
- `seqs.dfy` (`Seqs`): generic sequence operations the pipelines are built from: filter,
  count, sum, page (`$skip`/`$limit`), `$addToSet`, `$pull`, a stable sort, and the
  "toggle" of a keyed record.
- `store.dfy` (`Db`): the collections (users, videos, comments, likes, tweets,
  subscriptions, playlists) as sequences in natural order, ids handed out by a counter,
  request parameters (`IdParam`, `NumParam`) and the `$skip`/`$limit` window.
- `likes.dfy`, `subscriptions.dfy`, `playlists.dfy`, `comments.dfy`, `tweets.dfy`,
  `dashboard.dfy`, `videos.dfy`: one module per controller.
- `cloudinary.dfy` (`Cloudinary`): the public id `cloudinaryDelete` derives from a URL,
  and what `uploadOnCloudinary` returns and does with the local file.

Errors: `asyncHandler` passes whatever a handler throws to Express's default error
handler, which answers with the thrown object's numeric `statusCode` when it has one
and with 500 otherwise. So an `ApiError` thrown with a status becomes that status,
and so does an `ApiResponse` thrown in its place (`updateTweet` throws
`new ApiResponse(400, …)` for blank content, which becomes 400). Any other exception
becomes 500, including a MongoDB error while a pipeline runs, a cast error and a
`TypeError`. Inside a `try` whose `catch` throws 500, every error becomes 500,
including the handler's own 404 or 409. Where a handler *returns* an error
object instead of throwing it, no response is sent at all. The model reports the
status that object carries.

## Model

| member | source | states |
|---|---|---|
| Text.ContainsFold | src/controllers/video.controller.js:18-30 | the regex test holds exactly when the query occurs in the text at some offset, letters compared without case |
| Text.BlankIffAllSpace | src/controllers/tweet.controller.js:11 | `s.trim() === ""` holds exactly when every character of `s` is ECMAScript whitespace or a line terminator; this is the test behind every `MissingOrBlank` guard (also playlist.controller.js:11-14, video.controller.js:84) |
| Db.PageWindow | src/controllers/video.controller.js:64-70 | the `$skip`/`$limit` pair is usable exactly when both parameters are numbers, the limit is at least 1 and the skip is not negative; it is then `(page-1)*limit` and `limit`, with defaults 1 and 10 |
| Seqs.Page | src/controllers/video.controller.js:64-70 | `$skip` then `$limit`: the elements from offset `skip` on, in order, at most `limit` of them and exactly `limit` when that many remain; nothing past the end (also comment.controller.js:66-71) |
| Seqs.SortByKey | src/controllers/video.controller.js:60-63 | `$sort` yields the same elements with the same multiplicities, in ascending order of the key |
| Seqs.AddToSet | src/controllers/playlist.controller.js:85-87 | `$addToSet` leaves an array holding the value unchanged and otherwise appends the value once (also video.controller.js:239-241) |
| Seqs.PullKeepsOthers | src/controllers/playlist.controller.js:121 | `$pull` removes every occurrence of the value and keeps the other elements in order, each with its multiplicity (also video.controller.js:329, 339) |
| Seqs.Toggle | src/controllers/like.controller.js:13-30 | find-and-delete-else-create on a key: when an element has the key, deletes exactly the first such element (the one `findOne` returns) and keeps every other element, including later ones with the same key, in order; otherwise appends the new element; the elements with other keys are unchanged (also subscription.controller.js:18-35) |
| Db.FirstProfile | src/controllers/like.controller.js:138-158 | the `$first` of a user lookup is absent exactly when no user has the id, and otherwise is the profile of the first user in natural order with that id |
| Db.UniqueVideoLookup | src/controllers/like.controller.js:131-135 | with unique video ids, a lookup by `_id` finds one video when it exists and none otherwise |
| Likes.ToggleLike | src/controllers/like.controller.js:7-40 | 400 exactly for a malformed id, success exactly for a well-formed one; the viewer's first like on the target is then deleted when one exists, the rest of the collection keeping its order, and created when none does; no other like changes; created likes take a fresh id |
| Likes.ToggleVideoLike | src/controllers/like.controller.js:7-40 | the toggle acts on a like by the viewer on that video; 400 exactly for a malformed id, success otherwise |
| Likes.ToggleCommentLike | src/controllers/like.controller.js:42-76 | the toggle acts on a like by the viewer on that comment; 400 exactly for a malformed id, success otherwise |
| Likes.ToggleTweetLike | src/controllers/like.controller.js:78-112 | the toggle acts on a like by the viewer on that tweet; 400 exactly for a malformed id, success otherwise |
| Likes.ToggleLikeKeepsOneLikePerKey | src/controllers/like.controller.js:13-30 | a toggle keeps at most one like per (liker, target) |
| Likes.ToggleLikeTwice | src/controllers/like.controller.js:13-30 | two toggles restore the like count of the key and leave other likes alone; from "not liked" they restore the likes exactly |
| Likes.UnwindLike | src/controllers/like.controller.js:130-181 | one liked-video row per video with the liked id, each carrying the like's id, liker and video, and as `likedVideo` the card of a stored video with that id: its files, title, views, duration and the owner's profile |
| Likes.UnwindAll | src/controllers/like.controller.js:114-192 | every row of the pipeline comes from one of the matched likes, carries that like's video, and its card is the card of a stored video with that id |
| Likes.GetLikedVideos | src/controllers/like.controller.js:114-192 | every row is a like by the viewer on a video, and its `likedVideo` is the card of that stored video (files, title, views, duration, owner profile) |
| Likes.UnwindAllLength | src/controllers/like.controller.js:173-175 | with unique video ids, `$unwind` leaves one row per like whose video exists |
| Likes.UnwindAllCovers | src/controllers/like.controller.js:173-175 | every like whose video exists yields a row |
| Likes.LikedVideosComplete | src/controllers/like.controller.js:114-192 | the liked-videos view drops exactly the likes on deleted videos |
| Subscriptions.ToggleSubscription | src/controllers/subscription.controller.js:9-47 | 400 for a malformed id and for the viewer's own channel; otherwise the first matching subscription is deleted when present, the rest keeping their order, and one is created when absent; nothing else changes |
| Subscriptions.ToggleSubscriptionInvariants | src/controllers/subscription.controller.js:14-42 | the toggle never creates a self-subscription and keeps (subscriber, channel) unique |
| Subscriptions.ToggleSubscriptionTwice | src/controllers/subscription.controller.js:18-42 | two toggles restore the pair's row count and every other row; from "not subscribed" they restore the rows exactly |
| Subscriptions.GetUserChannelSubscribers | src/controllers/subscription.controller.js:50-99 | 400 for a malformed id; one group whose count is the channel's subscription rows; a channel without subscribers ends in 500 (the 404 is caught) |
| Subscriptions.ToggleMovesSubscriberCount | src/controllers/subscription.controller.js:9-99 | a subscribing toggle raises the channel's subscriber count by one and makes the subscribers query succeed; an unsubscribing toggle lowers it by one, and the query then fails (its 404 caught as 500) exactly when that was the last subscriber |
| Subscriptions.ChannelEntries | src/controllers/subscription.controller.js:114-159 | each subscribed-channel entry carries its channel's subscriber count; rows whose channel is gone are dropped |
| Subscriptions.ChannelEntriesFromRows | src/controllers/subscription.controller.js:114-159 | every entry comes from one of the subscription rows: its channel is that row's channel and its details are the looked-up profile of that channel |
| Subscriptions.ChannelEntriesCount | src/controllers/subscription.controller.js:132-160 | there is one entry per subscription row whose channel user exists |
| Subscriptions.GetSubscribedChannels | src/controllers/subscription.controller.js:102-175 | 400 for a malformed id; one group whose total equals its number of entries; every entry is a channel the user subscribes to, with that channel's profile and subscriber count; none ends in 500 |
| Subscriptions.SubscribedChannelsTotal | src/controllers/subscription.controller.js:102-175 | the total counts the user's subscriptions whose channel exists, and the call succeeds exactly when there is one |
| Playlists.UpdateOwned | src/controllers/playlist.controller.js:79-95 | an owner-scoped `findOneAndUpdate` succeeds exactly when the viewer owns a playlist with the id, and then changes only that playlist |
| Playlists.CreatePlaylist | src/controllers/playlist.controller.js:9-31 | 400 exactly when the name or the description is missing or blank; otherwise one empty playlist owned by the caller is appended and nothing else changes |
| Playlists.GetUserPlaylists | src/controllers/playlist.controller.js:33-48 | 400 exactly for a malformed id and success otherwise; then exactly the user's playlists, in order |
| Playlists.CreatedPlaylistListed | src/controllers/playlist.controller.js:9-48 | a created playlist appears last in its owner's listing, and every other user's listing is unchanged |
| Playlists.GetPlaylistById | src/controllers/playlist.controller.js:50-65 | 400 for a malformed id; a stored playlist with the id when one exists, 404 otherwise |
| Playlists.CheckPlaylistAndVideo | src/controllers/playlist.controller.js:69-78 | the guards pass exactly when both ids are well formed and the video exists; 400 for a bad id, 404 for a missing video |
| Playlists.AddVideoToPlaylist | src/controllers/playlist.controller.js:67-101 | after the guards, succeeds exactly for the owner; the video is then in the playlist, appended once if it was absent; only that playlist changes |
| Playlists.RemoveVideoFromPlaylist | src/controllers/playlist.controller.js:103-136 | after the guards, succeeds exactly for the owner; the video is then absent and the other entries keep their order and multiplicity; only that playlist changes |
| Playlists.UpdatePlaylist | src/controllers/playlist.controller.js:160-193 | 400 for a malformed id, for no fields, and for a playlist the viewer does not own; otherwise only the supplied fields of that playlist change |
| Playlists.UpdatePlaylistIdempotent | src/controllers/playlist.controller.js:160-193 | repeating a successful update with the same fields succeeds and changes nothing further |
| Playlists.DeletePlaylistAsWritten | src/controllers/playlist.controller.js:138-158 | past the presence check every call fails with 500 and nothing is deleted |
| Playlists.DeletePlaylist | src/controllers/playlist.controller.js:138-158 | the intended delete: 400 without an id, 404 when the viewer owns no playlist with the id, otherwise exactly that playlist is removed |
| Playlists.DeletePlaylistAsWrittenNeverDeletes | src/controllers/playlist.controller.js:143 | an owner can never delete a playlist as written, though the intended handler lets them |
| Comments.CommentRowAsWritten | src/controllers/comment.controller.js:23-64 | as written a comment row never has the commenter profile or the like count |
| Comments.CommentRowOf | src/controllers/comment.controller.js:23-64 | the intended row has the comment's id and content, the number of likes on it, and the commenter's profile exactly when the commenter exists |
| Comments.CommentRowAsWrittenDropsCount | src/controllers/comment.controller.js:41-64 | a liked comment loses its non-zero like count in the written row |
| Comments.GetVideoComments | src/controllers/comment.controller.js:8-81 | the intended handler, projecting the looked-up commenter and like count: 400 exactly for a non-numeric or sub-1 limit; 500 exactly for a malformed id or an unusable page past that; otherwise the rows of the video's comments from offset `(page-1)*limit`, at most `limit` of them, a full page when enough remain |
| Comments.VideoCommentsBelongToVideo | src/controllers/comment.controller.js:17-72 | every returned row is the row of a stored comment on the requested video |
| Comments.GetVideoCommentsAsWritten | src/controllers/comment.controller.js:8-81 | the handler as written: the same status for every request as the intended one, and on success every row without a commenter and without a like count |
| Comments.GetVideoCommentsAsWrittenDiffers | src/controllers/comment.controller.js:28-64 | written and intended handlers give the same errors and pages of the same length, whose rows differ only in the commenter and the like count |
| Comments.AddCommentAsWritten | src/controllers/comment.controller.js:83-107 | as written no comment is ever created: a well-formed video id always gets 400, a malformed one fails with 500 once content is given |
| Comments.AddCommentAsWrittenNeverCreates | src/controllers/comment.controller.js:86-88 | real content on a well-formed video id is refused as written and accepted by the intended handler |
| Comments.AddComment | src/controllers/comment.controller.js:83-107 | the intended add: 400 exactly for a bad video id or empty content; otherwise one comment by the caller on that video is appended |
| Comments.AddCommentEmptyCreatesNothing | src/controllers/comment.controller.js:91-93 | missing or empty content never creates a comment |
| Comments.UpdateCommentAsWritten | src/controllers/comment.controller.js:109-137 | as written no update ever succeeds; a well-formed id always gets 400 |
| Comments.UpdateComment | src/controllers/comment.controller.js:109-137 | the intended update: 400 exactly for a bad id or empty content; past that, success exactly for the owner of an existing comment, changing only its content, and 500 for a missing comment or another caller |
| Comments.UpdateCommentAsWrittenRejectsOwner | src/controllers/comment.controller.js:112-114 | the owner of a comment is refused as written and accepted by the intended handler |
| Comments.NonOwnerCannotUpdate | src/controllers/comment.controller.js:124-126 | someone other than the owner never changes a comment |
| Comments.DeleteComment | src/controllers/comment.controller.js:139-159 | 400 exactly for a bad id; 500 for a missing comment; otherwise the comment and every like on it are removed and the other likes stay |
| Comments.AddThenDeleteComment | src/controllers/comment.controller.js:83-159 | adding a comment and deleting it again succeeds with the added comment and restores the store, apart from the spent id |
| Tweets.CreateTweet | src/controllers/tweet.controller.js:8-24 | 400 exactly for missing or blank content and success otherwise; one tweet by the caller with exactly that content is then appended |
| Tweets.GetUserTweets | src/controllers/tweet.controller.js:26-75 | 400 exactly for a malformed id and success otherwise; one row per tweet of the user, in order, with its like count |
| Tweets.UserTweetsExact | src/controllers/tweet.controller.js:33-65 | every row is a tweet of the user with its like count, and every tweet of the user has a row |
| Tweets.CreatedTweetListed | src/controllers/tweet.controller.js:8-75 | a new tweet appears last in its owner's listing and no other listing changes |
| Tweets.UpdateTweet | src/controllers/tweet.controller.js:77-104 | 400 exactly for a bad id or blank content, 500 exactly for a missing tweet; otherwise only that tweet's content changes, to exactly the new content |
| Tweets.UpdateTweetIdempotent | src/controllers/tweet.controller.js:87-97 | updating twice with the same content is updating once |
| Tweets.DeleteTweet | src/controllers/tweet.controller.js:106-120 | 400 exactly for a bad id, 500 for a missing tweet; otherwise the tweet and every like on it are removed and the other likes stay |
| Tweets.CreateThenDeleteTweet | src/controllers/tweet.controller.js:8-120 | creating a tweet and deleting it again restores the store, apart from the spent id |
| Dashboard.CountWhereChannel | src/controllers/dashboard.controller.js:45-47 | counting on `channel` gives the channel's subscribers |
| Dashboard.StatsWith | src/controllers/dashboard.controller.js:48-53 | the video total is the number of the channel's videos; no videos gives zeros |
| Dashboard.GetChannelStatsAsWritten | src/controllers/dashboard.controller.js:8-62 | as written the subscriber total is 0 for every channel; 409 exactly without a caller |
| Dashboard.GetChannelStats | src/controllers/dashboard.controller.js:8-62 | 409 exactly without a caller and success otherwise; views, video count and likes of the caller's videos, and the channel's subscribers; zeros for a channel without videos |
| Dashboard.StatsAsWrittenMissSubscriber | src/controllers/dashboard.controller.js:45-47 | a channel with one subscriber is reported with none as written, one as intended |
| Dashboard.LikeOnChannelCons | src/controllers/dashboard.controller.js:21-35 | with unique ids, a like on a channel's videos is on the first video or on one of the rest, never both |
| Dashboard.ChannelLikesCount | src/controllers/dashboard.controller.js:15-44 | the summed per-video like counts equal the number of likes on the channel's videos |
| Dashboard.StatsLikesAreChannelLikes | src/controllers/dashboard.controller.js:41 | `totalLikes` counts every like on the caller's videos exactly once |
| Dashboard.StatsAfterUpload | src/controllers/dashboard.controller.js:15-53 | one more video adds one to the video count, its views and its likes, and leaves subscribers alone |
| Dashboard.GetChannelVideos | src/controllers/dashboard.controller.js:64-116 | 409 exactly without a caller and success otherwise; one row per video of the caller, in order, with its like count |
| Dashboard.ChannelVideosExact | src/controllers/dashboard.controller.js:71-106 | the rows are exactly the caller's videos |
| Dashboard.ChannelVideosMatchStats | src/controllers/dashboard.controller.js:8-116 | the videos view has `totalVideos` rows whose like counts add up to `totalLikes` |
| Dashboard.RowLikesSum | src/controllers/dashboard.controller.js:71-106 | the rows' like counts add up to the per-video sum |
| Cloudinary.Split | src/utils/cloudinary.js:14 | `split` gives at least one piece and no piece contains the separator |
| Cloudinary.JoinSplit | src/utils/cloudinary.js:14 | joining the pieces of a split gives back the string |
| Cloudinary.SplitJoin | src/utils/cloudinary.js:14 | splitting a join of separator-free pieces gives back the pieces |
| Cloudinary.AfterLast | src/utils/cloudinary.js:14 | the separator-free suffix that is the whole string or follows a separator |
| Cloudinary.BeforeFirst | src/utils/cloudinary.js:14 | the separator-free prefix that is the whole string or precedes a separator |
| Cloudinary.SplitFirst | src/utils/cloudinary.js:14 | the first piece of a split is the text before the first separator |
| Cloudinary.SplitLast | src/utils/cloudinary.js:14 | the last piece of a split (what `pop` takes) is the text after the last separator |
| Cloudinary.PublicId | src/utils/cloudinary.js:14 | the public id has no '/' and no '.', is a prefix of the last path segment, all of it when the segment has no '.', and is followed there by a '.' otherwise |
| Cloudinary.PublicIdIsSplitPop | src/utils/cloudinary.js:14 | `url.split("/").pop().split(".")[0]` is exactly that public id |
| Cloudinary.UploadOnCloudinary | src/utils/cloudinary.js:36-58 | an empty path returns null without calling the service or touching the file; otherwise the local file is removed on every path, and the response is returned exactly when it has a `secure_url` |
| Videos.SearchResults | src/controllers/video.controller.js:18-63 | the matching videos' cards, each exactly once, sorted on the requested key and direction |
| Videos.PageSorted | src/controllers/video.controller.js:64-70 | a page of sorted results is sorted |
| Videos.GetAllVideos | src/controllers/video.controller.js:12-80 | 400 exactly for a missing query, 500 exactly for an unusable page window, 404 exactly for an empty page; otherwise a sorted page of at most `limit` matches |
| Videos.AllVideosMatchQuery | src/controllers/video.controller.js:18-30 | every result is the card of a stored video whose title or description contains the query |
| Videos.FirstPageHoldsAllMatches | src/controllers/video.controller.js:59-70 | a first page as large as the matches holds every match exactly once |
| Videos.PublishAVideo | src/controllers/video.controller.js:82-123 | 400 exactly for a missing title, description or file or a blank title; past that, 500 when an upload gives no response or no URL, success otherwise; one published video by the caller, with the uploaded URLs and duration and no views |
| Videos.PublishThenDeleteDestroysUploads | src/controllers/video.controller.js:82-353 | deleting a just-published video destroys at the service the public ids of the two URLs its uploads returned, thumbnail first, and restores the video collection (also utils/cloudinary.js:14, 36-58) |
| Videos.Watch | src/controllers/video.controller.js:227-244 | the view adds one to that video's views only; the caller's watch history gets the video id appended when it lacks it and is unchanged when it has it; every other user and every other collection is unchanged |
| Videos.WatchKeepsHistoryDistinct | src/controllers/video.controller.js:236-244 | a watch history without repeats keeps none after a view, and then holds the video |
| Videos.GetVideoByIdAsWritten | src/controllers/video.controller.js:125-253 | as written the comments are always empty and every owner card shows no subscriber |
| Videos.GetVideoById | src/controllers/video.controller.js:125-253 | 400 for a bad id, 404 for a missing video, success otherwise; the view has the video's files, title, description, duration and views before this request, its like count, whether the caller liked it, the owner's profile with the owner's subscriber count and whether the caller subscribes, and the video's comments; then the view is counted |
| Videos.OwnerSubscriptions | src/controllers/video.controller.js:165-183 | a subscriptions lookup keyed on the owner's `_id` finds exactly the owner's subscribers, and the viewer is among them exactly when a subscription of the viewer to the owner exists |
| Videos.OwnerCardsFacts | src/controllers/video.controller.js:158-199 | the intended owner card has the owner's subscriber count and whether the viewer subscribes; there is a card exactly when the owner exists |
| Videos.WatchAgain | src/controllers/video.controller.js:227-244 | a second view sees the count the first added; the watch history does not grow again |
| Videos.WatchTwiceKeepsUsers | src/controllers/video.controller.js:236-244 | `$addToSet` on the watch history is idempotent: a second view by the same caller leaves every user document as the first view left it |
| Videos.GetVideoByIdAsWrittenDiffers | src/controllers/video.controller.js:166-207 | written and intended handlers differ only in the owner subscription fields and the comments |
| Videos.GetVideoByIdAsWrittenMissesLookups | src/controllers/video.controller.js:166-207 | a video with a comment and a subscribed owner shows neither as written, both as intended |
| Videos.PublishedVideoWatchable | src/controllers/video.controller.js:82-253 | a just-published video can be watched at once, with no views |
| Videos.UpdateVideo | src/controllers/video.controller.js:255-302 | 400 bad id, 404 missing video, 400 failed upload, 500 failed destroy, 409 when nothing changes, success otherwise; only title, description and thumbnail change, each kept when not supplied (also the thumbnail when the upload reply has no URL), and the old thumbnail's public id is destroyed |
| Videos.UpdateVideoIdempotent | src/controllers/video.controller.js:278-292 | repeating a text-only update changes nothing further |
| Videos.PullFromHistories | src/controllers/video.controller.js:324-333 | every user keeps their place and all fields but the watch history; the history no longer holds the id, and the other entries keep their order and multiplicity |
| Videos.PullFromPlaylists | src/controllers/video.controller.js:334-343 | every playlist keeps its place and all fields but its videos; those no longer hold the id, and the other entries keep their order and multiplicity |
| Videos.DeleteVideoAsWritten | src/controllers/video.controller.js:304-353 | as written only the video is deleted, nothing is destroyed at the service, and the response is 500 |
| Videos.DeleteVideo | src/controllers/video.controller.js:304-353 | the intended cascade: video, its comments and likes deleted, the id pulled from histories and playlists, both files destroyed by public id; 500 if the service fails |
| Videos.DeleteVideoLeavesNoReference | src/controllers/video.controller.js:309-343 | after deletion no video, comment, like, watch history or playlist refers to the id |
| Videos.RemoveUniqueVideo | src/controllers/video.controller.js:309 | deleting by `_id` from a collection of unique ids leaves no video with it |
| Videos.DeleteVideoKeepsOtherComments | src/controllers/video.controller.js:314-318 | other videos' comments are untouched |
| Videos.DeleteVideoAsWrittenOrphans | src/controllers/video.controller.js:313-346 | as written the deleted video's comments, likes, history and playlist entries stay behind |
| Videos.TogglePublishStatus | src/controllers/video.controller.js:355-383 | 400 exactly for a bad id, 500 exactly for a missing video, success otherwise; only that video's published flag flips |
| Videos.TogglePublishTwice | src/controllers/video.controller.js:355-383 | toggling twice restores the store |

## Left out

- HTTP plumbing: routes, `req`/`res`, the response envelopes (`ApiResponse`) and messages are not modelled. Also out: the bodies `res.json(200, value, message)` sends in `deleteVideo` and `togglePublishStatus`. A handler's answer is its status and its data.
- Authentication: the caller is a given `Id` (or `Option<Id>` where the handler checks `req.user`). The auth middleware is not part of this model.
- `asyncHandler`, `ApiError` and `ApiResponse` are not part of this model. The error mapping used throughout is stated above.
- `isValidObjectId` and ObjectId casting are not interpreted: an id parameter is missing, malformed or valid (`IdParam`).
- `parseInt` and JavaScript number coercion are not modelled: a page or limit is absent, not a number, or an integer (`NumParam`).
- Network, file system and clock: the Cloudinary service's answers are parameters (`Attempt`, and a boolean for `destroy`). Deleting a local file is a flag. `createdAt` and `updatedAt` are not modelled, and neither is `coverImage`.
- Concurrency: `Promise.all` and concurrent requests are modelled as sequential writes. No unique index is assumed. `OneLikePerKey` and `UniqueBy` state the invariant such an index would enforce.
- Schemas: the Mongoose model files are not part of this model. A new video is assumed to start with 0 views and published, the defaults its schema is taken to set.
- Regular expressions: the search query is matched as literal text, case-insensitively for ASCII letters. Regex metacharacters are not modelled.
- Videos.SearchResults: the sort key is an abstract integer-valued function of a card. The tie order among equal keys is not stated, because MongoDB does not promise one.
- Videos.GetAllVideos: the handler reads `userId` but never uses it, and it does not filter on `isPublished`, so neither does the model.
- Videos.GetVideoById: unpublished videos are shown, as in the handler. Whether the watch-history write happens in the same request as the read is not distinguished.
- Videos.UpdateVideo: an upload response without a `url` is assumed to keep the old thumbnail, because Mongoose drops `undefined` values from `$set`. There is no ownership check, as in the handler.
- Videos.DeleteVideo: there is no ownership check, as in the handler. The service's two `destroy` calls are one boolean.
- Tweets.UpdateTweet and Tweets.DeleteTweet: there is no ownership check, as in the handler.
- Comments.DeleteComment: there is no ownership check, as in the handler. For a missing comment the handler returns an `ApiResponse` with 500 instead of sending it. The model gives that 500.
- Comments.AddCommentAsWritten: `req.user?._id` is destructured as `{ owner }`, which leaves the owner undefined. No path reaches `Comment.create` with a well-formed id, so this has no further effect on the as-written member.
- Comments.AddComment: the intended handler also corrects line 89 and takes the caller's id as the owner of the new comment. As written the comment would be created without an owner, which the model does not represent, since a `Comment` always has an owner id.
- Dashboard.GetChannelStatsAsWritten: assumes Mongoose's `strictQuery` is off, its default since version 7, so the unknown `channelId` filter matches nothing. With `strictQuery` on, the filter would be dropped and all subscriptions counted.
- Subscriptions.GetUserChannelSubscribers: the contract states the group's channel and count, but not which profiles the `$push` collects.
- Likes.GetLikedVideos: the contract states the origin and the contents of every row. Row order is not stated.
- Likes.ToggleLikeTwice: from the unliked state the likes come back exactly. From the liked state, the re-created like has a new id and sits at the end of the collection, so only the count for the key and the other likes are restored.
- Subscriptions.ToggleSubscriptionTwice: the same holds for subscriptions. Starting subscribed, the row comes back with a new id, at the end.
- Playlists.GetPlaylistById: the handler returns its 404 instead of throwing it, so the client gets no response. The model gives the status the returned object carries.

## Findings

| source | as written | input that shows it | evidently intended | confidence | as-written member | corrected member |
|---|---|---|---|---|---|---|
| src/controllers/comment.controller.js:112-114 | `if (!commentId \|\| isValidObjectId(commentId))` throws 400 | the owner updates their own comment by its valid id: 400 | reject only a missing or malformed id | not executed | Comments.UpdateCommentAsWritten (shown by Comments.UpdateCommentAsWrittenRejectsOwner) | Comments.UpdateComment |
| src/controllers/comment.controller.js:86-89 | `if (!videoId \|\| isValidObjectId(videoId))` returns a 400 error object; `const {owner} = req.user?._id` leaves the owner undefined | commenting with real content on an existing video: no comment is created | reject only a missing or malformed id, and take the caller's id as the comment's owner | not executed | Comments.AddCommentAsWritten (shown by Comments.AddCommentAsWrittenNeverCreates) | Comments.AddComment |
| src/controllers/comment.controller.js:28-64 | the lookups store `commeter` and `likeCounts`, the projection reads `commenter` and `likesCounts` | any comment with a like: the row has no count and no commenter | project the looked-up profile and like count | not executed | Comments.GetVideoCommentsAsWritten, built on Comments.CommentRowAsWritten (shown by Comments.CommentRowAsWrittenDropsCount and Comments.GetVideoCommentsAsWrittenDiffers) | Comments.GetVideoComments, built on Comments.CommentRowOf |
| src/controllers/playlist.controller.js:143 | `Playlist.findByOneAndDelete`, which Mongoose does not define | the owner deletes their playlist: 500, nothing deleted | `findOneAndDelete` on `{ _id, owner }` | not executed | Playlists.DeletePlaylistAsWritten (shown by Playlists.DeletePlaylistAsWrittenNeverDeletes) | Playlists.DeletePlaylist |
| src/controllers/dashboard.controller.js:45-47 | `countDocuments({ channelId })` on a schema whose field is `channel` | a channel with one subscriber reports `totalSubscribers` 0 | count on `channel` | not executed | Dashboard.GetChannelStatsAsWritten (shown by Dashboard.StatsAsWrittenMissSubscriber) | Dashboard.GetChannelStats |
| src/controllers/video.controller.js:166-207 | inner lookup `localField: "owner"` on a user document; comments lookup `localField: "video"`, `foreignField: "_id"` on a video | a video with one comment whose owner has one subscriber shows no comment and 0 subscribers | `localField: "_id"` / `foreignField: "channel"`, and `localField: "_id"` / `foreignField: "video"` | not executed | Videos.GetVideoByIdAsWritten (shown by Videos.GetVideoByIdAsWrittenMissesLookups) | Videos.GetVideoById |
| src/controllers/video.controller.js:334 | `Playlist` is used but never imported, so building the `Promise.all` array throws | deleting a video with comments: video gone, comments and likes kept, 500 | import the model and run the whole cascade | not executed | Videos.DeleteVideoAsWritten (shown by Videos.DeleteVideoAsWrittenOrphans) | Videos.DeleteVideo |

=== FILE: cloudinary.dfy ===
/** src/utils/cloudinary.js: the public id `cloudinaryDelete` derives from a
    delivery URL, and the local-file handling of `uploadOnCloudinary`. The
    service itself is outside the model: what an upload call answers is a
    parameter. */
module Cloudinary {
  import opened Outcomes
  import opened Text

  /** `s.split(sep)` for a one-character separator: the pieces between separators,
      in order, with an empty piece before a leading, after a trailing, and
      between two adjacent separators. */
  function Split(s: string, sep: char): (parts: seq<string>)
    ensures |parts| >= 1
    ensures forall k :: 0 <= k < |parts| ==> sep !in parts[k]
    decreases |s|
  {
    if s == [] then [""]
    else if s[0] == sep then [""] + Split(s[1..], sep)
    else
      var rest := Split(s[1..], sep);
      [[s[0]] + rest[0]] + rest[1..]
  }

  /** `parts.join(sep)`. */
  function Join(parts: seq<string>, sep: char): string
    requires |parts| >= 1
    decreases |parts|
  {
    if |parts| == 1 then parts[0] else parts[0] + [sep] + Join(parts[1..], sep)
  }

  /** Joining the pieces of a split gives back the string. */
  lemma {:induction false} JoinSplit(s: string, sep: char)
    ensures Join(Split(s, sep), sep) == s
    decreases |s|
  {
    if s != [] {
      JoinSplit(s[1..], sep);
      var rest := Split(s[1..], sep);
      if s[0] == sep {
        assert Split(s, sep)[1..] == rest;
      } else {
        JoinConsFirst(s[0], rest, sep);
      }
      assert s == [s[0]] + s[1..];
    }
  }

  /** Putting a character in front of the first piece puts it in front of the join. */
  lemma JoinConsFirst(c: char, parts: seq<string>, sep: char)
    requires |parts| >= 1
    ensures Join([[c] + parts[0]] + parts[1..], sep) == [c] + Join(parts, sep)
  {
    var parts' := [[c] + parts[0]] + parts[1..];
    assert parts'[0] == [c] + parts[0];
    assert parts'[1..] == parts[1..];
    if |parts| > 1 {
      assert Join(parts', sep) == ([c] + parts[0]) + [sep] + Join(parts[1..], sep);
    }
  }

  /** Splitting a join of separator-free pieces gives back the pieces. */
  lemma {:induction false} SplitJoin(parts: seq<string>, sep: char)
    requires |parts| >= 1
    requires forall k :: 0 <= k < |parts| ==> sep !in parts[k]
    ensures Split(Join(parts, sep), sep) == parts
    decreases |parts|, |parts[0]|
  {
    var p := parts[0];
    if p == [] {
      if |parts| > 1 {
        SplitJoin(parts[1..], sep);
        var s := Join(parts, sep);
        assert s == [sep] + Join(parts[1..], sep);
        assert s[1..] == Join(parts[1..], sep);
        assert parts == [""] + parts[1..];
      }
    } else {
      var parts' := [p[1..]] + parts[1..];
      assert forall k :: 0 <= k < |parts'| ==> sep !in parts'[k] by {
        forall k | 0 <= k < |parts'| ensures sep !in parts'[k] {
          if k == 0 {
            assert forall c :: c in p[1..] ==> c in p;
          } else {
            assert parts'[k] == parts[k];
          }
        }
      }
      SplitJoin(parts', sep);
      var s := Join(parts, sep);
      assert p[0] != sep by { assert p[0] in p; }
      if |parts| == 1 {
        assert s == p;
        assert s[1..] == Join(parts', sep);
      } else {
        assert parts'[1..] == parts[1..];
        assert s == [p[0]] + (p[1..] + [sep] + Join(parts[1..], sep));
        assert s[1..] == Join(parts', sep);
      }
      assert s[0] == p[0];
      var rest := Split(s[1..], sep);
      assert [p[0]] + rest[0] == p;
      assert rest[1..] == parts[1..];
      assert parts == [p] + parts[1..];
    }
  }

  /** The text after the last `sep`, or all of `s` when there is none. */
  function AfterLast(s: string, sep: char): (r: string)
    ensures sep !in r
    ensures |r| <= |s| && r == s[|s| - |r|..]
    ensures |r| < |s| ==> s[|s| - |r| - 1] == sep
    decreases |s|
  {
    if s == [] then []
    else if s[|s| - 1] == sep then []
    else
      var t := s[..|s| - 1];
      var init := AfterLast(t, sep);
      var r := init + [s[|s| - 1]];
      assert r == s[|s| - |r|..] by {
        assert t[|t| - |init|..] == s[|s| - |r|..|s| - 1];
        assert s[|s| - |r|..] == s[|s| - |r|..|s| - 1] + [s[|s| - 1]];
      }
      assert sep !in r by {
        assert forall c :: c in r ==> c in init || c == s[|s| - 1];
      }
      assert |r| < |s| ==> s[|s| - |r| - 1] == sep by {
        if |r| < |s| {
          assert s[|s| - |r| - 1] == t[|t| - |init| - 1];
        }
      }
      r
  }

  /** The text before the first `sep`, or all of `s` when there is none. */
  function BeforeFirst(s: string, sep: char): (r: string)
    ensures sep !in r
    ensures |r| <= |s| && r == s[..|r|]
    ensures |r| < |s| ==> s[|r|] == sep
    ensures sep !in s ==> r == s
    decreases |s|
  {
    if s == [] then []
    else if s[0] == sep then []
    else
      var rest := BeforeFirst(s[1..], sep);
      assert sep !in s ==> sep !in s[1..] by {
        assert forall c :: c in s[1..] ==> c in s;
      }
      assert s == [s[0]] + s[1..];
      [s[0]] + rest
  }

  /** A separator-free suffix of `s` that is all of `s` or follows a separator is
      the text after the last separator. */
  lemma AfterLastUnique(s: string, sep: char, r: string)
    requires sep !in r
    requires |r| <= |s| && r == s[|s| - |r|..]
    requires |r| < |s| ==> s[|s| - |r| - 1] == sep
    ensures r == AfterLast(s, sep)
  {
  }

  /** A separator-free prefix of `s` that is all of `s` or precedes a separator is
      the text before the first separator. */
  lemma BeforeFirstUnique(s: string, sep: char, r: string)
    requires sep !in r
    requires |r| <= |s| && r == s[..|r|]
    requires |r| < |s| ==> s[|r|] == sep
    ensures r == BeforeFirst(s, sep)
  {
  }

  /** The first piece of a split is the text before the first separator. */
  lemma {:induction false} SplitFirst(s: string, sep: char)
    ensures Split(s, sep)[0] == BeforeFirst(s, sep)
    decreases |s|
  {
    if s != [] && s[0] != sep {
      SplitFirst(s[1..], sep);
    }
  }

  /** The last piece of a split is the text after the last separator. */
  lemma SplitLast(s: string, sep: char)
    ensures Split(s, sep)[|Split(s, sep)| - 1] == AfterLast(s, sep)
  {
    var parts := Split(s, sep);
    LastPieceIsAfterLast(parts, sep);
    JoinSplit(s, sep);
  }

  /** The last of some separator-free pieces is the text after the last separator
      of their join. */
  lemma LastPieceIsAfterLast(parts: seq<string>, sep: char)
    requires |parts| >= 1
    requires forall k :: 0 <= k < |parts| ==> sep !in parts[k]
    ensures parts[|parts| - 1] == AfterLast(Join(parts, sep), sep)
  {
    var s := Join(parts, sep);
    var last := parts[|parts| - 1];
    JoinSuffix(parts, sep);
    if |parts| == 1 {
      assert s == last;
    }
    AfterLastUnique(s, sep, last);
  }

  /** The last piece of a join ends it, and follows a separator when there is more
      than one piece. */
  lemma {:induction false} JoinSuffix(parts: seq<string>, sep: char)
    requires |parts| >= 1
    ensures var s := Join(parts, sep);
            var last := parts[|parts| - 1];
            && |last| <= |s| && last == s[|s| - |last|..]
            && (|parts| > 1 ==> |last| < |s| && s[|s| - |last| - 1] == sep)
    decreases |parts|
  {
    if |parts| > 1 {
      JoinSuffix(parts[1..], sep);
      var tail := Join(parts[1..], sep);
      var s := Join(parts, sep);
      assert s == (parts[0] + [sep]) + tail;
      var last := parts[|parts| - 1];
      assert last == parts[1..][|parts[1..]| - 1];
      assert s[|s| - |tail|..] == tail;
      if |parts[1..]| == 1 {
        assert last == tail;
      }
    }
  }

  /** The public id `cloudinaryDelete` passes to `destroy`: the part before the
      first '.' of the last '/'-separated segment of the URL. It contains neither
      '/' nor '.'; it is a prefix of the last segment, all of it when the segment
      has no '.', and is otherwise followed there by a '.'. */
  function PublicId(url: string): (id: string)
    ensures '/' !in id && '.' !in id
    ensures var seg := AfterLast(url, '/');
            && |id| <= |seg| && id == seg[..|id|]
            && ('.' !in seg ==> id == seg)
            && (|id| < |seg| ==> seg[|id|] == '.')
  {
    var seg := AfterLast(url, '/');
    var id := BeforeFirst(seg, '.');
    assert forall c :: c in id ==> c in seg;
    id
  }

  /** `url.split("/").pop().split(".")[0]` computes exactly `PublicId(url)`. */
  lemma PublicIdIsSplitPop(url: string)
    ensures Split(Pop(Split(url, '/')), '.')[0] == PublicId(url)
  {
    SplitLast(url, '/');
    SplitFirst(AfterLast(url, '/'), '.');
    PublicIdUnfold(url);
  }

  /** `xs.pop()` on a non-empty array: its last element. */
  function Pop(xs: seq<string>): string
    requires |xs| >= 1
  {
    xs[|xs| - 1]
  }

  lemma PublicIdUnfold(url: string)
    ensures PublicId(url) == BeforeFirst(AfterLast(url, '/'), '.')
  {
  }

  /** What the upload service answers: a response whose `url` and `secure_url`
      may be missing or empty, or an exception. */
  datatype UploadReply = UploadReply(url: Option<string>, secureUrl: Option<string>, duration: int)
  datatype Attempt = Replied(reply: UploadReply) | Threw

  /** The outcome of `uploadOnCloudinary`: the response it returns (`None` for
      null), whether it called the service, and whether it removed the local file. */
  datatype Upload = Upload(result: Option<UploadReply>, called: bool, removed: bool)

  /** `uploadOnCloudinary(localFilePath)`: a missing or empty path returns null
      without calling the service or touching the file system. Otherwise the file is
      removed on each of the three paths (a response with a `secure_url`, a response
      without one, an exception), and the response is returned only when it carries
      a `secure_url`. */
  function UploadOnCloudinary(localPath: Option<string>, attempt: Attempt): (u: Upload)
    ensures !Truthy(localPath) ==> u == Upload(None, false, false)
    ensures Truthy(localPath) ==> u.called && u.removed
    ensures u.result.Some? <==> Truthy(localPath) && attempt.Replied? && Truthy(attempt.reply.secureUrl)
    ensures u.result.Some? ==> u.result.value == attempt.reply
  {
    if !Truthy(localPath) then Upload(None, false, false)
    else match attempt
      case Threw => Upload(None, true, true)
      case Replied(reply) =>
        if Truthy(reply.secureUrl) then Upload(Some(reply), true, true)
        else Upload(None, true, true)
  }
}

=== FILE: comments.dfy ===
/** src/controllers/comment.controller.js: the paginated comments of a video, and
    adding, updating and deleting a comment. */
module Comments {
  import opened Outcomes
  import opened Seqs
  import opened Text
  import opened Db

  /** One row of the comments view: the comment's id and content, the commenter's
      profile, and its like count. A field the projection does not produce is `None`. */
  datatype CommentRow = CommentRow(id: Id, content: string, commenter: Option<Profile>,
                                   likesCount: Option<nat>)

  /** A comment row as the pipeline is written: the lookup stores the profile under
      `commeter` and the count under `likeCounts`, but the projection reads
      `commenter` and `likesCounts`, so the row has neither. */
  function CommentRowAsWritten(c: Comment): (row: CommentRow)
    ensures row.commenter.None? && row.likesCount.None?
  {
    CommentRow(c.id, c.content, None, None)
  }

  /** A comment row as the projection intends: the commenter's profile and the
      number of likes on the comment. */
  function CommentRowOf(s: Store, c: Comment): (row: CommentRow)
    ensures row.id == c.id && row.content == c.content
    ensures row.likesCount == Some(Count(s.likes, (l: Like) => l.target == OnComment(c.id)))
    ensures row.commenter.Some? <==> exists k :: 0 <= k < |s.users| && s.users[k].id == c.owner
    ensures row.commenter.Some? ==> row.commenter.value.id == c.owner
  {
    CommentRow(c.id, c.content, FirstProfile(s.users, c.owner), Some(LikeCount(s.likes, OnComment(c.id))))
  }

  /** Whenever a comment has likes, the as-written row loses the count the intended
      row reports. */
  lemma CommentRowAsWrittenDropsCount(s: Store, c: Comment, l: Like)
    requires l in s.likes && l.target == OnComment(c.id)
    ensures CommentRowAsWritten(c).likesCount == None
    ensures CommentRowOf(s, c).likesCount.Some? && CommentRowOf(s, c).likesCount.value >= 1
  {
    var k :| 0 <= k < |s.likes| && s.likes[k] == l;
    FilterKeeps(s.likes, (x: Like) => x.target == OnComment(c.id), k);
  }

  /** The intended projection applied to each comment in turn: the `k`-th row is
      the row of the `k`-th comment. */
  function RowsOf(s: Store, cs: seq<Comment>): (rows: seq<CommentRow>)
    ensures |rows| == |cs|
    ensures forall k :: 0 <= k < |cs| ==> rows[k] == CommentRowOf(s, cs[k])
  {
    if cs == [] then []
    else
      var rest := RowsOf(s, cs[1..]);
      assert forall k :: 1 <= k < |cs| ==> cs[1..][k - 1] == cs[k];
      [CommentRowOf(s, cs[0])] + rest
  }

  /** The `$match` of the comments view. */
  function CommentOnVideo(video: Id): Comment -> bool
  {
    (c: Comment) => c.video == video
  }

  /** The comments of a video, in natural order. */
  function CommentsOf(s: Store, video: Id): seq<Comment>
  {
    Filter(s.comments, CommentOnVideo(video))
  }

  /** `getVideoComments`: a limit that is not a number or is below 1 is answered
      with 400 before the store is read. The pipeline then fails (500) for a
      malformed video id or an unusable page; otherwise it returns the video's
      comments from offset `(page-1)*limit`, at most `limit` of them. */
  function GetVideoComments(s: Store, videoId: IdParam, page: NumParam, limit: NumParam): (r: Result<seq<CommentRow>>)
    ensures NumberOr(limit, 10).None? || NumberOr(limit, 10).value < 1 <==> r == Err(BadRequest)
    ensures r == Err(InternalError) <==>
      && NumberOr(limit, 10).Some? && NumberOr(limit, 10).value >= 1
      && (!videoId.Valid? || PageWindow(page, limit).None?)
    ensures r.Err? ==> r.status == BadRequest || r.status == InternalError
    ensures r.Ok? <==> videoId.Valid? && PageWindow(page, limit).Some?
    ensures r.Ok? ==>
      var (skip, lim) := PageWindow(page, limit).value;
      var all := CommentsOf(s, videoId.id);
      && |r.value| <= lim
      && (forall k :: 0 <= k < |r.value| ==> skip + k < |all| && r.value[k] == CommentRowOf(s, all[skip + k]))
      && (skip < |all| ==> |r.value| == if skip + lim <= |all| then lim else |all| - skip)
  {
    var parsed := NumberOr(limit, 10);
    if parsed.None? || parsed.value < 1 then Err(BadRequest)
    else if !videoId.Valid? then Err(InternalError)
    else match PageWindow(page, limit)
      case None => Err(InternalError)
      case Some((skip, lim)) =>
        var all := CommentsOf(s, videoId.id);
        var pageOf := Page(all, skip, lim);
        Ok(RowsOf(s, pageOf))
  }

  /** `getVideoComments` as written: the same guards and the same page of comments,
      but every row is built by the written projection, so no row carries a
      commenter or a like count. */
  function GetVideoCommentsAsWritten(s: Store, videoId: IdParam, page: NumParam, limit: NumParam): (r: Result<seq<CommentRow>>)
    ensures NumberOr(limit, 10).None? || NumberOr(limit, 10).value < 1 <==> r == Err(BadRequest)
    ensures r == Err(InternalError) <==>
      && NumberOr(limit, 10).Some? && NumberOr(limit, 10).value >= 1
      && (!videoId.Valid? || PageWindow(page, limit).None?)
    ensures r.Ok? <==> videoId.Valid? && PageWindow(page, limit).Some?
    ensures r.Ok? ==> forall k :: 0 <= k < |r.value| ==> r.value[k].commenter.None? && r.value[k].likesCount.None?
  {
    var parsed := NumberOr(limit, 10);
    if parsed.None? || parsed.value < 1 then Err(BadRequest)
    else if !videoId.Valid? then Err(InternalError)
    else match PageWindow(page, limit)
      case None => Err(InternalError)
      case Some((skip, lim)) =>
        var pageOf := Page(CommentsOf(s, videoId.id), skip, lim);
        Ok(seq(|pageOf|, k requires 0 <= k < |pageOf| => CommentRowAsWritten(pageOf[k])))
  }

  /** The written and the intended handler fail alike and list the same comments;
      the written rows are the intended ones with the commenter and the count
      dropped. */
  lemma GetVideoCommentsAsWrittenDiffers(s: Store, videoId: IdParam, page: NumParam, limit: NumParam)
    ensures GetVideoCommentsAsWritten(s, videoId, page, limit).Err? ==>
              GetVideoCommentsAsWritten(s, videoId, page, limit) == GetVideoComments(s, videoId, page, limit)
    ensures GetVideoCommentsAsWritten(s, videoId, page, limit).Ok? ==>
              var mine := GetVideoCommentsAsWritten(s, videoId, page, limit).value;
              var intended := GetVideoComments(s, videoId, page, limit).value;
              && |mine| == |intended|
              && forall k :: 0 <= k < |mine| ==> mine[k] == intended[k].(commenter := None, likesCount := None)
  {
  }

  /** `row` is the row of a stored comment on `video`. */
  predicate RowOfCommentOn(s: Store, video: Id, row: CommentRow)
  {
    exists c :: c in s.comments && c.video == video && row == CommentRowOf(s, c)
  }

  /** Every returned row is the row of a comment of the requested video. */
  lemma VideoCommentsBelongToVideo(s: Store, videoId: IdParam, page: NumParam, limit: NumParam)
    requires GetVideoComments(s, videoId, page, limit).Ok?
    ensures var rows := GetVideoComments(s, videoId, page, limit).value;
            forall k :: 0 <= k < |rows| ==> RowOfCommentOn(s, videoId.id, rows[k])
  {
    var w := PageWindow(page, limit).value;
    var rows := GetVideoComments(s, videoId, page, limit).value;
    assert rows == RowsOf(s, Page(CommentsOf(s, videoId.id), w.0, w.1));
    PageRowsOn(s, videoId.id, w.0, w.1);
    assert forall k :: 0 <= k < |rows| ==> RowOfCommentOn(s, videoId.id, rows[k]);
  }

  /** Every row of a page of a video's comments is a row of a stored comment on it. */
  lemma PageRowsOn(s: Store, video: Id, skip: nat, lim: nat)
    ensures var rows := RowsOf(s, Page(CommentsOf(s, video), skip, lim));
            forall k :: 0 <= k < |rows| ==> RowOfCommentOn(s, video, rows[k])
  {
    var all := CommentsOf(s, video);
    var rows := RowsOf(s, Page(all, skip, lim));
    forall k | 0 <= k < |rows| ensures RowOfCommentOn(s, video, rows[k]) {
      var c := all[skip + k];
      FilterFrom(s.comments, CommentOnVideo(video), skip + k);
      assert CommentOnVideo(video)(c);
      assert c in s.comments && c.video == video && rows[k] == CommentRowOf(s, c);
    }
  }

  /** `addComment` as written: the guard `!videoId || isValidObjectId(videoId)`
      turns away every well-formed id (with a returned, not thrown, 400), and a
      malformed id that gets past it with content makes `Comment.create` fail its
      cast of the video id (500). No comment is ever created. */
  function AddCommentAsWritten(s: Store, viewer: Id, videoId: IdParam, content: Option<string>): (r: Result<(Store, Comment)>)
    ensures r.Err?
    ensures !videoId.Malformed? ==> r.status == BadRequest
    ensures videoId.Malformed? ==> (r.status == BadRequest <==> !Truthy(content))
  {
    if videoId.Missing? || IsValidObjectId(videoId) then Err(BadRequest)
    else if !Truthy(content) then Err(BadRequest)
    else Err(InternalError)
  }

  /** As written, commenting on an existing video with real content fails, though
      the intended handler adds the comment. */
  lemma AddCommentAsWrittenNeverCreates(s: Store, viewer: Id, video: Id, text: string)
    requires |text| > 0
    ensures AddCommentAsWritten(s, viewer, Valid(video), Some(text)) == Err(BadRequest)
    ensures AddComment(s, viewer, Valid(video), Some(text)).Ok?
  {
  }

  /** The intended `addComment`: 400 for a missing or malformed video id, 400 for
      missing or empty content; otherwise one comment owned by the caller, on that
      video, with that content, is appended and nothing else changes. */
  function AddComment(s: Store, viewer: Id, videoId: IdParam, content: Option<string>): (r: Result<(Store, Comment)>)
    ensures !IsValidObjectId(videoId) || !Truthy(content) <==> r == Err(BadRequest)
    ensures r.Ok? ==>
      var (s', c) := r.value;
      && c == Comment(s.nextId, videoId.id, viewer, content.value)
      && s' == s.(comments := s.comments + [c], nextId := s.nextId + 1)
  {
    if !IsValidObjectId(videoId) then Err(BadRequest)
    else if !Truthy(content) then Err(BadRequest)
    else
      var c := Comment(s.nextId, videoId.id, viewer, content.value);
      Ok((s.(comments := s.comments + [c], nextId := s.nextId + 1), c))
  }

  /** Empty content never creates a comment. */
  lemma AddCommentEmptyCreatesNothing(s: Store, viewer: Id, videoId: IdParam)
    ensures AddComment(s, viewer, videoId, Some("")).Err?
    ensures AddComment(s, viewer, videoId, None).Err?
  {
  }

  function CommentIndex(s: Store, id: Id): Option<nat>
  {
    FirstIndex(s.comments, (c: Comment) => c.id == id)
  }

  /** `updateComment` as written: the guard `!commentId || isValidObjectId(commentId)`
      rejects every well-formed id with 400, and a malformed id passes it only to
      make `findById` fail, which the `catch` reports as 500. */
  function UpdateCommentAsWritten(s: Store, viewer: Id, commentId: IdParam, newContent: Option<string>): (r: Result<(Store, Comment)>)
    ensures r.Err?
    ensures commentId.Valid? ==> r.status == BadRequest
  {
    if commentId.Missing? || IsValidObjectId(commentId) then Err(BadRequest)
    else if !Truthy(newContent) then Err(BadRequest)
    else Err(InternalError)
  }

  /** The intended `updateComment`: 400 for a missing or malformed id and for empty
      new content. A missing comment (404) and a caller who is not the owner (409)
      are raised inside the `try`, so both reach the client as 500 and change
      nothing. Otherwise only that comment's content changes, to exactly
      `newContent`. */
  function UpdateComment(s: Store, viewer: Id, commentId: IdParam, newContent: Option<string>): (r: Result<(Store, Comment)>)
    ensures !IsValidObjectId(commentId) || !Truthy(newContent) <==> r == Err(BadRequest)
    ensures r.Err? ==> r.status == BadRequest || r.status == InternalError
    ensures commentId.Valid? && Truthy(newContent) ==>
      (r.Ok? <==> CommentIndex(s, commentId.id).Some? && s.comments[CommentIndex(s, commentId.id).value].owner == viewer)
    ensures r.Ok? ==>
      var i := CommentIndex(s, commentId.id).value;
      && r.value.1 == s.comments[i].(content := newContent.value)
      && r.value.0 == s.(comments := s.comments[i := r.value.1])
  {
    if !IsValidObjectId(commentId) then Err(BadRequest)
    else if !Truthy(newContent) then Err(BadRequest)
    else match CommentIndex(s, commentId.id)
      case None => Err(InternalError)
      case Some(i) =>
        if s.comments[i].owner != viewer then Err(InternalError)
        else
          var c := s.comments[i].(content := newContent.value);
          Ok((s.(comments := s.comments[i := c]), c))
  }

  /** As written, updating one's own comment fails, though the intended handler
      succeeds. */
  lemma UpdateCommentAsWrittenRejectsOwner(s: Store, viewer: Id, i: nat, text: string)
    requires i < |s.comments| && s.comments[i].owner == viewer && |text| > 0
    requires forall j :: 0 <= j < i ==> s.comments[j].id != s.comments[i].id
    ensures UpdateCommentAsWritten(s, viewer, Valid(s.comments[i].id), Some(text)) == Err(BadRequest)
    ensures UpdateComment(s, viewer, Valid(s.comments[i].id), Some(text)).Ok?
  {
    assert CommentIndex(s, s.comments[i].id) == Some(i);
  }

  /** A caller who is not the owner cannot change a comment's content. */
  lemma NonOwnerCannotUpdate(s: Store, viewer: Id, commentId: IdParam, newContent: Option<string>)
    requires commentId.Valid? && CommentIndex(s, commentId.id).Some?
    requires s.comments[CommentIndex(s, commentId.id).value].owner != viewer
    ensures UpdateComment(s, viewer, commentId, newContent).Err?
  {
  }

  /** `deleteComment`: 400 for a missing or malformed id; a missing comment is an
      internal error (500) and changes nothing; otherwise the comment is removed and
      so is every like on it, while the other likes stay as they were. No ownership
      check is made. */
  function DeleteComment(s: Store, commentId: IdParam): (r: Result<(Store, Comment)>)
    ensures !IsValidObjectId(commentId) <==> r == Err(BadRequest)
    ensures commentId.Valid? ==> (r.Err? <==> CommentIndex(s, commentId.id).None?)
    ensures r.Err? ==> r.status == BadRequest || r.status == InternalError
    ensures r.Ok? ==>
      var (s', c) := r.value;
      var i := CommentIndex(s, commentId.id).value;
      && c == s.comments[i] && c.id == commentId.id
      && s'.comments == s.comments[..i] + s.comments[i+1..]
      && (forall k :: 0 <= k < |s'.likes| ==> s'.likes[k].target != OnComment(commentId.id))
      && s'.likes == Filter(s.likes, (l: Like) => l.target != OnComment(commentId.id))
      && s' == s.(comments := s'.comments, likes := s'.likes)
  {
    if !IsValidObjectId(commentId) then Err(BadRequest)
    else match CommentIndex(s, commentId.id)
      case None => Err(InternalError)
      case Some(i) =>
        var likes' := Filter(s.likes, (l: Like) => l.target != OnComment(commentId.id));
        Ok((s.(comments := RemoveAt(s.comments, i), likes := likes'), s.comments[i]))
  }

  /** Adding a comment and deleting it again leaves the store as it was, apart from
      the spent id, when the id was fresh. */
  lemma AddThenDeleteComment(s: Store, viewer: Id, videoId: IdParam, content: Option<string>)
    requires IdsFresh(s)
    requires forall k :: 0 <= k < |s.likes| ==> s.likes[k].target != OnComment(s.nextId)
    requires AddComment(s, viewer, videoId, content).Ok?
    ensures var (s', c) := AddComment(s, viewer, videoId, content).value;
            DeleteComment(s', Valid(c.id)) == Ok((s.(nextId := s.nextId + 1), c))
  {
    var (s', c) := AddComment(s, viewer, videoId, content).value;
    var p := (x: Comment) => x.id == c.id;
    forall j | 0 <= j < |s.comments| ensures !p(s'.comments[j]) {
      assert s'.comments[j] == s.comments[j];
    }
    FirstIndexAt(s'.comments, p, |s.comments|);
    assert s'.comments[..|s.comments|] + s'.comments[|s.comments| + 1..] == s.comments;
    FilterAll(s.likes, (l: Like) => l.target != OnComment(c.id));
  }
}

=== FILE: dashboard.dfy ===
/** src/controllers/dashboard.controller.js: the caller's channel statistics and the
    caller's own videos. */
module Dashboard {
  import opened Outcomes
  import opened Seqs
  import opened Db

  /** The `channelStats` object of the response. */
  datatype ChannelStats = ChannelStats(totalViews: int, totalVideos: nat, totalLikes: nat,
                                       totalSubscribers: nat)

  /** `$match: { owner: channel }` on videos. */
  function OwnedBy(channel: Id): Video -> bool
  {
    (v: Video) => v.owner == channel
  }

  /** The videos of a channel, in natural order. */
  function ChannelVideos(s: Store, channel: Id): seq<Video>
  {
    Filter(s.videos, OwnedBy(channel))
  }

  /** `views` of a video, the summand of `totalViews`. */
  function Views(v: Video): int
  {
    v.views
  }

  /** `$size` of the lookup from "likes" with `localField: "_id"`,
      `foreignField: "video"`. */
  function VideoLikes(likes: seq<Like>): Video -> int
  {
    (v: Video) => LikeCount(likes, OnVideo(v.id)) as int
  }

  /** A subscription field a `countDocuments` filter can name. A subscription
      document has only `subscriber` and `channel`; any other name (`Other`) is
      absent from every row. */
  datatype SubscriptionField = SubscriberField | ChannelField | Other(name: string)

  function FieldValue(x: Subscription, f: SubscriptionField): Option<Id>
  {
    match f
    case SubscriberField => Some(x.subscriber)
    case ChannelField => Some(x.channel)
    case Other(_) => None
  }

  /** `Subscription.countDocuments({ field: value })`: the rows whose `field` is
      present and equal to `value`. */
  function CountWhere(subs: seq<Subscription>, f: SubscriptionField, value: Id): nat
  {
    Count(subs, (x: Subscription) => FieldValue(x, f) == Some(value))
  }

  /** A filter on a field no subscription has matches nothing. */
  lemma CountWhereAbsentField(subs: seq<Subscription>, name: string, value: Id)
    ensures CountWhere(subs, Other(name), value) == 0
  {
    FilterNone(subs, (x: Subscription) => FieldValue(x, Other(name)) == Some(value));
  }

  /** A filter on `channel` counts exactly the subscribers of the channel. */
  lemma CountWhereChannel(subs: seq<Subscription>, channel: Id)
    ensures CountWhere(subs, ChannelField, channel) == |SubscribersOf(subs, channel)|
  {
    FilterCongruent(subs, (x: Subscription) => FieldValue(x, ChannelField) == Some(channel),
                    (x: Subscription) => x.channel == channel);
  }

  /** The statistics computed from the video aggregation and a subscriber count.
      With no video the group stage yields no document and every `videoStats[0]?.…
      || 0` falls back to 0, which is also what the sums of an empty collection are. */
  function StatsWith(s: Store, channel: Id, subscribers: nat): (st: ChannelStats)
    ensures st.totalVideos == |ChannelVideos(s, channel)|
    ensures st.totalSubscribers == subscribers
    ensures ChannelVideos(s, channel) == [] ==> st.totalViews == 0 && st.totalVideos == 0 && st.totalLikes == 0
  {
    var owned := ChannelVideos(s, channel);
    var likes := Sum(owned, VideoLikes(s.likes));
    assert likes >= 0 by { SumNonNegative(owned, VideoLikes(s.likes)); }
    ChannelStats(Sum(owned, Views), |owned|, likes, subscribers)
  }

  /** Like counts are never negative, so neither is their sum. */
  lemma {:induction false} SumNonNegative(vs: seq<Video>, f: Video -> int)
    requires forall k :: 0 <= k < |vs| ==> f(vs[k]) >= 0
    ensures Sum(vs, f) >= 0
  {
    if vs != [] {
      SumNonNegative(vs[1..], f);
    }
  }

  /** `getChannelStats` as written: the subscriber count filters on `channelId`,
      a field subscription rows do not have, so it is 0 for every channel. */
  function GetChannelStatsAsWritten(s: Store, viewer: Option<Id>): (r: Result<ChannelStats>)
    ensures viewer.None? <==> r == Err(Conflict)
    ensures viewer.Some? <==> r.Ok?
    ensures r.Ok? ==> r.value.totalSubscribers == 0
  {
    match viewer
    case None => Err(Conflict)
    case Some(channel) =>
      CountWhereAbsentField(s.subscriptions, "channelId", channel);
      Ok(StatsWith(s, channel, CountWhere(s.subscriptions, Other("channelId"), channel)))
  }

  /** The intended `getChannelStats`: 409 without a caller; otherwise the total
      views, number and total likes of the caller's videos, and the number of
      subscriptions to the caller's channel. A caller without videos gets zeros. */
  function GetChannelStats(s: Store, viewer: Option<Id>): (r: Result<ChannelStats>)
    ensures viewer.None? <==> r == Err(Conflict)
    ensures viewer.Some? <==> r.Ok?
    ensures r.Ok? ==>
      var owned := ChannelVideos(s, viewer.value);
      && r.value.totalVideos == |owned|
      && r.value.totalViews == Sum(owned, Views)
      && r.value.totalLikes == Sum(owned, VideoLikes(s.likes))
      && r.value.totalSubscribers == |SubscribersOf(s.subscriptions, viewer.value)|
    ensures r.Ok? && ChannelVideos(s, viewer.value) == [] ==>
      r.value.totalViews == 0 && r.value.totalVideos == 0 && r.value.totalLikes == 0
  {
    match viewer
    case None => Err(Conflict)
    case Some(channel) =>
      CountWhereChannel(s.subscriptions, channel);
      Ok(StatsWith(s, channel, CountWhere(s.subscriptions, ChannelField, channel)))
  }

  /** A channel with one subscriber: the written handler reports none. */
  lemma StatsAsWrittenMissSubscriber(channel: Id, fan: Id)
    ensures var s := Store([], [], [], [], [], [Subscription(0, fan, channel)], [], 1);
            && GetChannelStatsAsWritten(s, Some(channel)).value.totalSubscribers == 0
            && GetChannelStats(s, Some(channel)).value.totalSubscribers == 1
  {
    var subs := [Subscription(0, fan, channel)];
    FilterAll(subs, (x: Subscription) => x.channel == channel);
  }

  /** A like is on the channel when it targets a video of the channel. */
  predicate LikeOnChannel(vs: seq<Video>, channel: Id, l: Like)
  {
    l.target.OnVideo? &&
    exists k :: 0 <= k < |vs| && vs[k].id == l.target.video && vs[k].owner == channel
  }

  function OnChannel(vs: seq<Video>, channel: Id): Like -> bool
  {
    (l: Like) => LikeOnChannel(vs, channel, l)
  }

  /** Peeling off the first video: a like is on the channel when it is on that
      video (if the channel owns it) or on one of the others, never both. */
  lemma LikeOnChannelCons(vs: seq<Video>, channel: Id, l: Like)
    requires vs != [] && UniqueVideoIds(vs)
    ensures LikeOnChannel(vs, channel, l) <==>
              (vs[0].owner == channel && l.target == OnVideo(vs[0].id)) ||
              LikeOnChannel(vs[1..], channel, l)
    ensures !(l.target == OnVideo(vs[0].id) && LikeOnChannel(vs[1..], channel, l))
  {
    var rest := vs[1..];
    if LikeOnChannel(vs, channel, l) {
      var k :| 0 <= k < |vs| && vs[k].id == l.target.video && vs[k].owner == channel;
      if k > 0 {
        assert rest[k - 1] == vs[k];
      }
    }
    if LikeOnChannel(rest, channel, l) {
      var k :| 0 <= k < |rest| && rest[k].id == l.target.video && rest[k].owner == channel;
      assert vs[k + 1] == rest[k];
    }
  }

  /** `totalLikes` counts every like on one of the channel's videos exactly once:
      summing the per-video lookups is the same as counting the likes whose target
      is a video the channel owns (video ids being unique). */
  lemma {:induction false} ChannelLikesCount(vs: seq<Video>, likes: seq<Like>, channel: Id)
    requires UniqueVideoIds(vs)
    ensures Sum(Filter(vs, OwnedBy(channel)), VideoLikes(likes)) == Count(likes, OnChannel(vs, channel))
  {
    if vs == [] {
      FilterNone(likes, OnChannel(vs, channel));
    } else {
      var v := vs[0];
      var rest := vs[1..];
      assert UniqueVideoIds(rest) by {
        forall i, j | 0 <= i < j < |rest| ensures rest[i].id != rest[j].id {
          assert rest[i] == vs[i + 1] && rest[j] == vs[j + 1];
        }
      }
      ChannelLikesCount(rest, likes, channel);
      forall i | 0 <= i < |likes| {
        LikeOnChannelCons(vs, channel, likes[i]);
      }
      if v.owner == channel {
        assert Filter(vs, OwnedBy(channel)) == [v] + Filter(rest, OwnedBy(channel));
        assert ([v] + Filter(rest, OwnedBy(channel)))[1..] == Filter(rest, OwnedBy(channel));
        CountUnion(likes, (l: Like) => l.target == OnVideo(v.id), OnChannel(rest, channel),
                   OnChannel(vs, channel));
      } else {
        assert Filter(vs, OwnedBy(channel)) == Filter(rest, OwnedBy(channel));
        FilterCongruent(likes, OnChannel(vs, channel), OnChannel(rest, channel));
      }
    }
  }

  /** The stats' like total is the number of likes on the caller's videos. */
  lemma StatsLikesAreChannelLikes(s: Store, channel: Id)
    requires UniqueVideoIds(s.videos)
    ensures GetChannelStats(s, Some(channel)).value.totalLikes == Count(s.likes, OnChannel(s.videos, channel))
  {
    ChannelLikesCount(s.videos, s.likes, channel);
  }

  /** Uploading a video to the channel adds one video and its views to the stats,
      and leaves the subscriber count alone. */
  lemma StatsAfterUpload(s: Store, channel: Id, v: Video)
    requires v.owner == channel
    ensures var before := GetChannelStats(s, Some(channel)).value;
            var after := GetChannelStats(s.(videos := s.videos + [v]), Some(channel)).value;
            && after.totalVideos == before.totalVideos + 1
            && after.totalViews == before.totalViews + v.views
            && after.totalLikes == before.totalLikes + LikeCount(s.likes, OnVideo(v.id))
            && after.totalSubscribers == before.totalSubscribers
  {
    var owned := ChannelVideos(s, channel);
    FilterAppend(s.videos, [v], OwnedBy(channel));
    FilterAll([v], OwnedBy(channel));
    SumAppend(owned, [v], Views);
    SumAppend(owned, [v], VideoLikes(s.likes));
  }

  /** A row of the channel videos view (`$project`; the timestamps are not
      modelled). */
  datatype ChannelVideo = ChannelVideo(id: Id, videoFile: string, thumbnail: string,
                                       title: string, description: string, duration: int,
                                       views: int, isPublished: bool, totalLikes: nat)

  function ChannelVideoOf(likes: seq<Like>, v: Video): ChannelVideo
  {
    ChannelVideo(v.id, v.videoFile, v.thumbnail, v.title, v.description, v.duration,
                 v.views, v.isPublished, LikeCount(likes, OnVideo(v.id)))
  }

  /** `getChannelVideos`: 409 without a caller; otherwise one row per video of the
      caller, in natural order, each with its like count. No videos is a success. */
  function GetChannelVideos(s: Store, viewer: Option<Id>): (r: Result<seq<ChannelVideo>>)
    ensures viewer.None? <==> r == Err(Conflict)
    ensures viewer.Some? <==> r.Ok?
    ensures r.Ok? ==>
      var owned := ChannelVideos(s, viewer.value);
      && |r.value| == |owned|
      && forall k :: 0 <= k < |owned| ==> r.value[k] == ChannelVideoOf(s.likes, owned[k])
  {
    match viewer
    case None => Err(Conflict)
    case Some(channel) =>
      var owned := ChannelVideos(s, channel);
      Ok(seq(|owned|, k requires 0 <= k < |owned| => ChannelVideoOf(s.likes, owned[k])))
  }

  /** `row` is the row of a video `channel` owns. */
  predicate RowOfVideoBy(s: Store, channel: Id, row: ChannelVideo)
  {
    exists j :: 0 <= j < |s.videos| && s.videos[j].owner == channel && row == ChannelVideoOf(s.likes, s.videos[j])
  }

  /** The channel videos are exactly the caller's videos: every row is a video the
      caller owns, with that video's fields and like count, and every video the caller
      owns has a row. */
  lemma {:induction false} ChannelVideosExact(s: Store, channel: Id)
    ensures var rows := GetChannelVideos(s, Some(channel)).value;
            && (forall k :: 0 <= k < |rows| ==> RowOfVideoBy(s, channel, rows[k]))
            && (forall j :: 0 <= j < |s.videos| && s.videos[j].owner == channel ==>
                  ChannelVideoOf(s.likes, s.videos[j]) in rows)
  {
    var rows := GetChannelVideos(s, Some(channel)).value;
    var owned := ChannelVideos(s, channel);
    forall k | 0 <= k < |rows| ensures RowOfVideoBy(s, channel, rows[k]) {
      var v := owned[k];
      FilterFrom(s.videos, OwnedBy(channel), k);
      assert OwnedBy(channel)(v);
      var j :| 0 <= j < |s.videos| && s.videos[j] == v;
      assert s.videos[j].owner == channel && rows[k] == ChannelVideoOf(s.likes, s.videos[j]);
    }
    forall j | 0 <= j < |s.videos| && s.videos[j].owner == channel
      ensures ChannelVideoOf(s.likes, s.videos[j]) in rows
    {
      FilterKeeps(s.videos, OwnedBy(channel), j);
      var k :| 0 <= k < |owned| && owned[k] == s.videos[j];
      assert rows[k] == ChannelVideoOf(s.likes, s.videos[j]);
    }
  }

  /** The videos view agrees with the stats: as many rows as `totalVideos`, and
      their like counts add up to `totalLikes`. */
  lemma ChannelVideosMatchStats(s: Store, channel: Id)
    ensures var rows := GetChannelVideos(s, Some(channel)).value;
            var st := GetChannelStats(s, Some(channel)).value;
            && |rows| == st.totalVideos
            && Sum(rows, (row: ChannelVideo) => row.totalLikes as int) == st.totalLikes
  {
    var owned := ChannelVideos(s, channel);
    var rows := GetChannelVideos(s, Some(channel)).value;
    RowLikesSum(owned, s.likes, rows);
  }

  lemma {:induction false} RowLikesSum(vs: seq<Video>, likes: seq<Like>, rows: seq<ChannelVideo>)
    requires |rows| == |vs|
    requires forall k :: 0 <= k < |vs| ==> rows[k] == ChannelVideoOf(likes, vs[k])
    ensures Sum(rows, (row: ChannelVideo) => row.totalLikes as int) == Sum(vs, VideoLikes(likes))
  {
    if vs != [] {
      RowLikesSum(vs[1..], likes, rows[1..]);
    }
  }
}

=== FILE: likes.dfy ===
/** src/controllers/like.controller.js: the like toggles on videos, comments and
    tweets, and the liked-videos view. */
module Likes {
  import opened Outcomes
  import opened Seqs
  import opened Db

  /** Which of a like's three target fields a toggle works on. */
  datatype TargetKind = VideoField | CommentField | TweetField

  function TargetFor(kind: TargetKind, id: Id): (t: Target)
    ensures kind == VideoField <==> t == OnVideo(id)
    ensures kind == CommentField <==> t == OnComment(id)
    ensures kind == TweetField <==> t == OnTweet(id)
  {
    match kind
    case VideoField => OnVideo(id)
    case CommentField => OnComment(id)
    case TweetField => OnTweet(id)
  }

  /** The likes a toggle on (`viewer`, `target`) must not touch. */
  function OtherThan(viewer: Id, target: Target): Like -> bool
  {
    OtherKey(LikePair, (viewer, target))
  }

  /** The body `toggleVideoLike`, `toggleCommentLike` and `toggleTweetLike` share:
      a malformed id is rejected with 400 before the store is touched; otherwise the
      viewer's like on the target is deleted if there is one and created if not,
      and nothing else changes except the id counter when a like is created. */
  function ToggleLike(s: Store, viewer: Id, kind: TargetKind, param: IdParam): (r: Result<(Store, Flip<Like>)>)
    ensures !IsValidObjectId(param) <==> r == Err(BadRequest)
    ensures IsValidObjectId(param) <==> r.Ok?
    ensures r.Ok? ==>
      var (s', out) := r.value;
      var t := TargetFor(kind, param.id);
      && s' == s.(likes := s'.likes, nextId := s'.nextId)
      && Filter(s'.likes, OtherThan(viewer, t)) == Filter(s.likes, OtherThan(viewer, t))
      && out.item.likedBy == viewer && out.item.target == t
      && (out.Deleted? <==> Count(s.likes, LikeKey(viewer, t)) > 0)
      && (out.Deleted? ==> out.item in s.likes && s'.nextId == s.nextId &&
                           Count(s'.likes, LikeKey(viewer, t)) == Count(s.likes, LikeKey(viewer, t)) - 1)
      && (out.Deleted? ==> FirstIndex(s.likes, LikeKey(viewer, t)).Some? &&
                           var i := FirstIndex(s.likes, LikeKey(viewer, t)).value;
                           out.item == s.likes[i] && s'.likes == s.likes[..i] + s.likes[i+1..])
      && (out.Created? ==> s'.likes == s.likes + [out.item] && out.item.id == s.nextId &&
                           s'.nextId == s.nextId + 1 && Count(s'.likes, LikeKey(viewer, t)) == 1)
  {
    if !IsValidObjectId(param) then Err(BadRequest)
    else
      var t := TargetFor(kind, param.id);
      var (likes', out) := Toggle(s.likes, LikePair, (viewer, t), Like(s.nextId, viewer, t));
      Ok((s.(likes := likes', nextId := if out.Created? then s.nextId + 1 else s.nextId), out))
  }

  /** `toggleVideoLike`: the toggle on the `video` field. */
  function ToggleVideoLike(s: Store, viewer: Id, videoId: IdParam): (r: Result<(Store, Flip<Like>)>)
    ensures !IsValidObjectId(videoId) <==> r == Err(BadRequest)
    ensures IsValidObjectId(videoId) <==> r.Ok?
    ensures r.Ok? ==> r.value.1.item == Like(r.value.1.item.id, viewer, OnVideo(videoId.id))
  {
    ToggleLike(s, viewer, VideoField, videoId)
  }

  /** `toggleCommentLike`: the toggle on the `comment` field. */
  function ToggleCommentLike(s: Store, viewer: Id, commentId: IdParam): (r: Result<(Store, Flip<Like>)>)
    ensures !IsValidObjectId(commentId) <==> r == Err(BadRequest)
    ensures IsValidObjectId(commentId) <==> r.Ok?
    ensures r.Ok? ==> r.value.1.item == Like(r.value.1.item.id, viewer, OnComment(commentId.id))
  {
    ToggleLike(s, viewer, CommentField, commentId)
  }

  /** `toggleTweetLike`: the toggle on the `tweet` field. */
  function ToggleTweetLike(s: Store, viewer: Id, tweetId: IdParam): (r: Result<(Store, Flip<Like>)>)
    ensures !IsValidObjectId(tweetId) <==> r == Err(BadRequest)
    ensures IsValidObjectId(tweetId) <==> r.Ok?
    ensures r.Ok? ==> r.value.1.item == Like(r.value.1.item.id, viewer, OnTweet(tweetId.id))
  {
    ToggleLike(s, viewer, TweetField, tweetId)
  }

  /** Like rows are unique per (likedBy, target): the invariant a compound unique
      index would enforce. */
  predicate OneLikePerKey(likes: seq<Like>)
  {
    UniqueBy(likes, LikePair)
  }

  /** A toggle keeps likes unique per (likedBy, target). */
  lemma ToggleLikeKeepsOneLikePerKey(s: Store, viewer: Id, kind: TargetKind, param: IdParam)
    requires OneLikePerKey(s.likes)
    requires ToggleLike(s, viewer, kind, param).Ok?
    ensures OneLikePerKey(ToggleLike(s, viewer, kind, param).value.0.likes)
  {
    var t := TargetFor(kind, param.id);
    ToggleKeepsUnique(s.likes, LikePair, (viewer, t), Like(s.nextId, viewer, t));
  }

  /** With likes unique per key, two toggles of the same (viewer, target) leave every
      other record untouched and the number of likes on that key as it was; from the
      unliked state they give back exactly the original likes. */
  lemma ToggleLikeTwice(s: Store, viewer: Id, kind: TargetKind, param: IdParam)
    requires param.Valid?
    requires OneLikePerKey(s.likes)
    ensures ToggleLike(s, viewer, kind, param).Ok?
    ensures ToggleLike(ToggleLike(s, viewer, kind, param).value.0, viewer, kind, param).Ok?
    ensures var s2 := ToggleLike(ToggleLike(s, viewer, kind, param).value.0, viewer, kind, param).value.0;
            var t := TargetFor(kind, param.id);
            && s2 == s.(likes := s2.likes, nextId := s2.nextId)
            && Filter(s2.likes, OtherThan(viewer, t)) == Filter(s.likes, OtherThan(viewer, t))
            && Count(s2.likes, LikeKey(viewer, t)) == Count(s.likes, LikeKey(viewer, t))
            && (Count(s.likes, LikeKey(viewer, t)) == 0 ==> s2.likes == s.likes)
  {
    var t := TargetFor(kind, param.id);
    UniqueCount(s.likes, LikePair, (viewer, t));
    var s1 := ToggleLike(s, viewer, kind, param).value.0;
    if Count(s.likes, LikeKey(viewer, t)) == 0 {
      ToggleTwiceFromAbsent(s.likes, LikePair, (viewer, t), Like(s.nextId, viewer, t), Like(s1.nextId, viewer, t));
    }
  }

  /** A video card as the liked-videos lookup projects it, with the owner's profile
      (`$first` of the owner lookup, absent when the owner no longer exists). */
  datatype LikedVideoCard = LikedVideoCard(id: Id, videoFile: string, thumbnail: string,
                                           title: string, views: int, duration: int,
                                           owner: Option<Profile>)

  /** One output row of `getLikedVideos`: the like's `_id`, `likedBy`, `video`, and
      the single `likedVideo` left by `$unwind`. */
  datatype LikedVideoRow = LikedVideoRow(like: Id, likedBy: Id, video: Id, likedVideo: LikedVideoCard)

  function CardOf(v: Video, users: seq<User>): LikedVideoCard
  {
    LikedVideoCard(v.id, v.videoFile, v.thumbnail, v.title, v.views, v.duration,
                   FirstProfile(users, v.owner))
  }

  /** The `$match` stage: likes by `viewer` whose `video` field is set. */
  function ByViewerOnVideo(viewer: Id): Like -> bool
  {
    (l: Like) => l.likedBy == viewer && l.target.OnVideo?
  }

  /** `row` comes from one of `likes`: it carries that like's id, liker and video. */
  predicate RowOfLike(likes: seq<Like>, row: LikedVideoRow)
  {
    exists k :: 0 <= k < |likes| && row.like == likes[k].id && row.likedBy == likes[k].likedBy &&
                likes[k].target == OnVideo(row.video)
  }

  /** The row's `likedVideo` is the card of a stored video with the row's video id,
      owner profile included. */
  predicate CardOfStored(videos: seq<Video>, users: seq<User>, row: LikedVideoRow)
  {
    exists i :: 0 <= i < |videos| && videos[i].id == row.video && row.likedVideo == CardOf(videos[i], users)
  }

  /** `$lookup` of the liked video followed by `$unwind` for one like: one row per
      video with that id, so none when the video has been deleted. */
  function UnwindLike(l: Like, videos: seq<Video>, users: seq<User>): (rows: seq<LikedVideoRow>)
    requires l.target.OnVideo?
    ensures |rows| == Count(videos, (v: Video) => v.id == l.target.video)
    ensures forall k :: 0 <= k < |rows| ==>
      && rows[k].like == l.id && rows[k].likedBy == l.likedBy && rows[k].video == l.target.video
      && CardOfStored(videos, users, rows[k])
  {
    var p := (v: Video) => v.id == l.target.video;
    var found := Filter(videos, p);
    var rows := seq(|found|, k requires 0 <= k < |found| =>
      LikedVideoRow(l.id, l.likedBy, l.target.video, CardOf(found[k], users)));
    forall k | 0 <= k < |rows| ensures CardOfStored(videos, users, rows[k]) {
      FilterFrom(videos, p, k);
      assert p(found[k]);
      var i :| 0 <= i < |videos| && videos[i] == found[k];
    }
    rows
  }

  /** The rows the pipeline builds from a sequence of matched likes, in their order. */
  function UnwindAll(likes: seq<Like>, videos: seq<Video>, users: seq<User>): (rows: seq<LikedVideoRow>)
    requires forall k :: 0 <= k < |likes| ==> likes[k].target.OnVideo?
    ensures forall j :: 0 <= j < |rows| ==> RowOfLike(likes, rows[j]) && CardOfStored(videos, users, rows[j])
  {
    if likes == [] then []
    else
      var head := UnwindLike(likes[0], videos, users);
      var tail := UnwindAll(likes[1..], videos, users);
      forall j | 0 <= j < |tail| ensures RowOfLike(likes, tail[j]) {
        var k :| 0 <= k < |likes[1..]| && tail[j].like == likes[1..][k].id && tail[j].likedBy == likes[1..][k].likedBy &&
                 likes[1..][k].target == OnVideo(tail[j].video);
        assert likes[1..][k] == likes[k + 1];
      }
      forall j | 0 <= j < |head| ensures RowOfLike(likes, head[j]) {
        assert head[j].like == likes[0].id;
      }
      var rows := head + tail;
      forall j | 0 <= j < |rows| ensures RowOfLike(likes, rows[j]) && CardOfStored(videos, users, rows[j]) {
        if j >= |head| {
          assert rows[j] == tail[j - |head|];
        }
      }
      rows
  }

  /** `getLikedVideos`: every row comes from a like by the viewer on a video, and its
      `likedVideo` is the card of that stored video, with its owner's profile. */
  function GetLikedVideos(s: Store, viewer: Id): (r: Result<seq<LikedVideoRow>>)
    ensures r.Ok?
    ensures forall j :: 0 <= j < |r.value| ==>
      && r.value[j].likedBy == viewer
      && CardOfStored(s.videos, s.users, r.value[j])
      && exists k :: 0 <= k < |s.likes| && s.likes[k].id == r.value[j].like &&
                     s.likes[k].likedBy == viewer && s.likes[k].target == OnVideo(r.value[j].video)
  {
    var matched := Filter(s.likes, ByViewerOnVideo(viewer));
    var rows := UnwindAll(matched, s.videos, s.users);
    forall j | 0 <= j < |rows|
      ensures rows[j].likedBy == viewer
      ensures exists k :: 0 <= k < |s.likes| && s.likes[k].id == rows[j].like &&
                          s.likes[k].likedBy == viewer && s.likes[k].target == OnVideo(rows[j].video)
    {
      var m :| 0 <= m < |matched| && rows[j].like == matched[m].id && rows[j].likedBy == matched[m].likedBy &&
               matched[m].target == OnVideo(rows[j].video);
      assert ByViewerOnVideo(viewer)(matched[m]);
      FilterFrom(s.likes, ByViewerOnVideo(viewer), m);
      var k :| 0 <= k < |s.likes| && s.likes[k] == matched[m];
    }
    Ok(rows)
  }

  /** The likes whose video still exists. */
  function OnLiveVideo(videos: seq<Video>): Like -> bool
  {
    (l: Like) => l.target.OnVideo? && HasVideo(videos, l.target.video)
  }

  /** With unique video ids, `$unwind` leaves one row per like whose video exists
      and drops the others. */
  lemma {:induction false} UnwindAllLength(likes: seq<Like>, videos: seq<Video>, users: seq<User>)
    requires forall k :: 0 <= k < |likes| ==> likes[k].target.OnVideo?
    requires UniqueVideoIds(videos)
    ensures |UnwindAll(likes, videos, users)| == Count(likes, OnLiveVideo(videos))
  {
    if likes != [] {
      UnwindAllLength(likes[1..], videos, users);
      UniqueVideoLookup(videos, likes[0].target.video);
      assert likes == [likes[0]] + likes[1..];
      FilterAppend([likes[0]], likes[1..], OnLiveVideo(videos));
    }
  }

  /** Every like whose video exists gives at least one row. */
  lemma {:induction false} UnwindAllCovers(likes: seq<Like>, videos: seq<Video>, users: seq<User>, m: nat)
    requires forall k :: 0 <= k < |likes| ==> likes[k].target.OnVideo?
    requires m < |likes| && HasVideo(videos, likes[m].target.video)
    ensures exists j :: 0 <= j < |UnwindAll(likes, videos, users)| &&
                        UnwindAll(likes, videos, users)[j].like == likes[m].id
  {
    var head := UnwindLike(likes[0], videos, users);
    var tail := UnwindAll(likes[1..], videos, users);
    assert UnwindAll(likes, videos, users) == head + tail;
    if m == 0 {
      var k :| 0 <= k < |videos| && videos[k].id == likes[0].target.video;
      FilterKeeps(videos, (v: Video) => v.id == likes[0].target.video, k);
      assert |head| > 0;
      assert (head + tail)[0] == head[0];
    } else {
      UnwindAllCovers(likes[1..], videos, users, m - 1);
      var j :| 0 <= j < |tail| && tail[j].like == likes[m].id;
      assert (head + tail)[|head| + j] == tail[j];
    }
  }

  /** `getLikedVideos` drops exactly the likes whose video no longer exists: every
      like by the viewer on an existing video has a row, and with unique video ids
      there is one row per such like. */
  lemma LikedVideosComplete(s: Store, viewer: Id)
    ensures var rows := GetLikedVideos(s, viewer).value;
            forall k :: 0 <= k < |s.likes| && s.likes[k].likedBy == viewer && s.likes[k].target.OnVideo? &&
                        VideoExists(s, s.likes[k].target.video) ==>
              exists j :: 0 <= j < |rows| && rows[j].like == s.likes[k].id
    ensures UniqueVideoIds(s.videos) ==>
      |GetLikedVideos(s, viewer).value| == Count(Filter(s.likes, ByViewerOnVideo(viewer)), OnLiveVideo(s.videos))
  {
    var matched := Filter(s.likes, ByViewerOnVideo(viewer));
    assert GetLikedVideos(s, viewer).value == UnwindAll(matched, s.videos, s.users);
    forall k | 0 <= k < |s.likes| && s.likes[k].likedBy == viewer && s.likes[k].target.OnVideo? &&
               VideoExists(s, s.likes[k].target.video)
      ensures exists j :: 0 <= j < |GetLikedVideos(s, viewer).value| &&
                          GetLikedVideos(s, viewer).value[j].like == s.likes[k].id
    {
      FilterKeeps(s.likes, ByViewerOnVideo(viewer), k);
      var m :| 0 <= m < |matched| && matched[m] == s.likes[k];
      UnwindAllCovers(matched, s.videos, s.users, m);
    }
    if UniqueVideoIds(s.videos) {
      UnwindAllLength(matched, s.videos, s.users);
    }
  }
}

=== FILE: outcomes.dfy ===
/** Outcomes of a controller: the success value, or the HTTP status code of the
    error the handler raises. The response envelopes and messages are not modelled. */
module Outcomes {

  /** A value that may be absent: a missing request field, a lookup that found nothing. */
  datatype Option<+T> = None | Some(value: T)

  /** What a handler answers: `Ok` carries the payload (and, for writes, the new store);
      `Err` carries only the status code. */
  datatype Result<+T> = Ok(value: T) | Err(status: nat)

  const BadRequest: nat := 400
  const NotFound: nat := 404
  const Conflict: nat := 409
  const InternalError: nat := 500
}

=== FILE: playlists.dfy ===
/** src/controllers/playlist.controller.js: playlist creation, reads, and the
    owner-scoped updates (`$addToSet`, `$pull`, `$set`) and delete. */
module Playlists {
  import opened Outcomes
  import opened Seqs
  import opened Text
  import opened Db

  /** The filter `{ _id: playlistId, owner: req.user.id }` of the owner-scoped writes. */
  function OwnedBy(playlistId: Id, viewer: Id): Playlist -> bool
  {
    (p: Playlist) => p.id == playlistId && p.owner == viewer
  }

  /** The viewer owns a playlist with this id. */
  predicate OwnsPlaylist(s: Store, playlistId: Id, viewer: Id)
  {
    exists k :: 0 <= k < |s.playlists| && s.playlists[k].id == playlistId && s.playlists[k].owner == viewer
  }

  /** `s'` is `s` with only the playlist at `i` replaced, by one with the same id and owner. */
  predicate OnlyPlaylistChanged(s: Store, s': Store, i: nat)
  {
    && i < |s.playlists| == |s'.playlists|
    && s' == s.(playlists := s.playlists[i := s'.playlists[i]])
    && s'.playlists[i].id == s.playlists[i].id
    && s'.playlists[i].owner == s.playlists[i].owner
  }

  /** `findOneAndUpdate` on the owner-scoped filter: apply `f` to the first playlist
      with this id owned by the viewer, or fail with 400 when there is none (the
      source does not tell "not found" from "not the owner"). */
  function UpdateOwned(s: Store, viewer: Id, playlistId: Id, f: Playlist -> Playlist): (r: Result<(Store, Playlist)>)
    ensures r.Err? <==> !OwnsPlaylist(s, playlistId, viewer)
    ensures r.Err? ==> r.status == BadRequest
    ensures r.Ok? ==>
      exists i :: 0 <= i < |s.playlists| && s.playlists[i].id == playlistId && s.playlists[i].owner == viewer &&
                  r.value.0 == s.(playlists := s.playlists[i := f(s.playlists[i])]) &&
                  r.value.1 == f(s.playlists[i])
  {
    match FirstIndex(s.playlists, OwnedBy(playlistId, viewer))
    case None => Err(BadRequest)
    case Some(i) =>
      var p := f(s.playlists[i]);
      Ok((s.(playlists := s.playlists[i := p]), p))
  }

  /** `createPlaylist`: a missing or blank name, or a missing or blank description,
      is rejected with 400; otherwise a new empty playlist owned by the caller is
      appended and nothing else changes. */
  function CreatePlaylist(s: Store, viewer: Id, name: Option<string>, description: Option<string>): (r: Result<(Store, Playlist)>)
    ensures r.Err? <==> MissingOrBlank(name) || MissingOrBlank(description)
    ensures r.Err? ==> r.status == BadRequest
    ensures r.Ok? ==>
      var (s', p) := r.value;
      && p == Playlist(s.nextId, viewer, name.value, description.value, [])
      && s' == s.(playlists := s.playlists + [p], nextId := s.nextId + 1)
  {
    if MissingOrBlank(name) then Err(BadRequest)
    else if MissingOrBlank(description) then Err(BadRequest)
    else
      var p := Playlist(s.nextId, viewer, name.value, description.value, []);
      Ok((s.(playlists := s.playlists + [p], nextId := s.nextId + 1), p))
  }

  /** `getUserPlaylists`: a malformed user id is rejected with 400; otherwise the
      user's playlists, in order, and an empty list is a success. */
  function GetUserPlaylists(s: Store, userId: IdParam): (r: Result<seq<Playlist>>)
    ensures !IsValidObjectId(userId) <==> r == Err(BadRequest)
    ensures IsValidObjectId(userId) <==> r.Ok?
    ensures r.Ok? ==> (forall k :: 0 <= k < |r.value| ==> r.value[k].owner == userId.id) &&
                      Subsequence(r.value, s.playlists)
    ensures r.Ok? ==> forall k :: 0 <= k < |s.playlists| && s.playlists[k].owner == userId.id ==>
                        s.playlists[k] in r.value
  {
    if !IsValidObjectId(userId) then Err(BadRequest)
    else
      var p := PlaylistBy(userId.id);
      FilterIsSubsequence(s.playlists, p);
      forall k | 0 <= k < |s.playlists| && p(s.playlists[k]) ensures s.playlists[k] in Filter(s.playlists, p) {
        FilterKeeps(s.playlists, p, k);
      }
      Ok(Filter(s.playlists, p))
  }

  /** `$match: { owner: userId }` on playlists. */
  function PlaylistBy(user: Id): Playlist -> bool
  {
    (x: Playlist) => x.owner == user
  }

  /** A new playlist is listed last among its owner's playlists, after the ones
      listed before, and nobody else's listing changes. */
  lemma CreatedPlaylistListed(s: Store, viewer: Id, name: string, description: string, user: Id)
    requires CreatePlaylist(s, viewer, Some(name), Some(description)).Ok?
    ensures var (s', p) := CreatePlaylist(s, viewer, Some(name), Some(description)).value;
            var before := GetUserPlaylists(s, Valid(user)).value;
            GetUserPlaylists(s', Valid(user)).value == if user == viewer then before + [p] else before
  {
    var (s', p) := CreatePlaylist(s, viewer, Some(name), Some(description)).value;
    FilterAppend(s.playlists, [p], PlaylistBy(user));
    if user == viewer {
      FilterAll([p], PlaylistBy(user));
    } else {
      FilterNone([p], PlaylistBy(user));
    }
  }

  /** `getPlaylistById`: 400 for a malformed id, 404 when no playlist has it. */
  function GetPlaylistById(s: Store, playlistId: IdParam): (r: Result<Playlist>)
    ensures !IsValidObjectId(playlistId) ==> r == Err(BadRequest)
    ensures playlistId.Valid? ==>
      (r.Ok? <==> exists k :: 0 <= k < |s.playlists| && s.playlists[k].id == playlistId.id)
    ensures playlistId.Valid? && r.Err? ==> r.status == NotFound
    ensures r.Ok? ==> r.value in s.playlists && r.value.id == playlistId.id
  {
    if !IsValidObjectId(playlistId) then Err(BadRequest)
    else
      match FirstIndex(s.playlists, (p: Playlist) => p.id == playlistId.id)
      case None => Err(NotFound)
      case Some(i) => Ok(s.playlists[i])
  }

  /** The id and existence guards `addVideoToPlaylist` and `removeVideoFromPlaylist`
      share: 400 for a malformed playlist or video id, 404 for a video that does not
      exist. */
  function CheckPlaylistAndVideo(s: Store, playlistId: IdParam, videoId: IdParam): (r: Option<nat>)
    ensures r.None? <==> playlistId.Valid? && videoId.Valid? && VideoExists(s, videoId.id)
    ensures r.Some? && (!IsValidObjectId(playlistId) || !IsValidObjectId(videoId)) ==> r.value == BadRequest
    ensures r.Some? && playlistId.Valid? && videoId.Valid? ==> r.value == NotFound
  {
    if !IsValidObjectId(playlistId) then Some(BadRequest)
    else if !IsValidObjectId(videoId) then Some(BadRequest)
    else if !VideoExists(s, videoId.id) then Some(NotFound)
    else None
  }

  /** `addVideoToPlaylist`: after the guards, `$addToSet` on the owned playlist. The
      video is then in the list; a video already there leaves the list as it was;
      otherwise it is appended. A non-owner or missing playlist gets 400 and no
      playlist changes. */
  function AddVideoToPlaylist(s: Store, viewer: Id, playlistId: IdParam, videoId: IdParam): (r: Result<(Store, Playlist)>)
    ensures CheckPlaylistAndVideo(s, playlistId, videoId).Some? ==>
              r == Err(CheckPlaylistAndVideo(s, playlistId, videoId).value)
    ensures CheckPlaylistAndVideo(s, playlistId, videoId).None? ==>
              (r.Ok? <==> OwnsPlaylist(s, playlistId.id, viewer))
    ensures r.Ok? ==>
      var (s', p) := r.value;
      exists i :: 0 <= i < |s.playlists| && OnlyPlaylistChanged(s, s', i) && s'.playlists[i] == p &&
                  s.playlists[i].id == playlistId.id && s.playlists[i].owner == viewer &&
                  p == s.playlists[i].(videos := p.videos) &&
                  videoId.id in p.videos &&
                  (videoId.id in s.playlists[i].videos ==> p.videos == s.playlists[i].videos) &&
                  (videoId.id !in s.playlists[i].videos ==> p.videos == s.playlists[i].videos + [videoId.id])
  {
    match CheckPlaylistAndVideo(s, playlistId, videoId)
    case Some(code) => Err(code)
    case None =>
      UpdateOwned(s, viewer, playlistId.id, (p: Playlist) => p.(videos := AddToSet(p.videos, videoId.id)))
  }

  /** `removeVideoFromPlaylist`: after the guards, `$pull` on the owned playlist. The
      video is then absent, and the other entries keep their order and their
      multiplicity. A non-owner or missing playlist gets 400 and no playlist changes. */
  function RemoveVideoFromPlaylist(s: Store, viewer: Id, playlistId: IdParam, videoId: IdParam): (r: Result<(Store, Playlist)>)
    ensures CheckPlaylistAndVideo(s, playlistId, videoId).Some? ==>
              r == Err(CheckPlaylistAndVideo(s, playlistId, videoId).value)
    ensures CheckPlaylistAndVideo(s, playlistId, videoId).None? ==>
              (r.Ok? <==> OwnsPlaylist(s, playlistId.id, viewer))
    ensures r.Ok? ==>
      var (s', p) := r.value;
      exists i :: 0 <= i < |s.playlists| && OnlyPlaylistChanged(s, s', i) && s'.playlists[i] == p &&
                  s.playlists[i].id == playlistId.id && s.playlists[i].owner == viewer &&
                  p == s.playlists[i].(videos := p.videos) &&
                  videoId.id !in p.videos &&
                  Subsequence(p.videos, s.playlists[i].videos) &&
                  forall y :: y != videoId.id ==> multiset(p.videos)[y] == multiset(s.playlists[i].videos)[y]
  {
    match CheckPlaylistAndVideo(s, playlistId, videoId)
    case Some(code) => Err(code)
    case None =>
      var f := (p: Playlist) => p.(videos := Pull(p.videos, videoId.id));
      var r := UpdateOwned(s, viewer, playlistId.id, f);
      if r.Ok? then
        var i :| 0 <= i < |s.playlists| && s.playlists[i].id == playlistId.id && s.playlists[i].owner == viewer &&
                 r.value.0 == s.(playlists := s.playlists[i := f(s.playlists[i])]) && r.value.1 == f(s.playlists[i]);
        var q := r.value.1;
        PullKeepsOthers(s.playlists[i].videos, videoId.id);
        assert OnlyPlaylistChanged(s, r.value.0, i) && r.value.0.playlists[i] == q;
        assert videoId.id !in q.videos && Subsequence(q.videos, s.playlists[i].videos);
        r
      else r
  }

  /** The playlist fields `updatePlaylist` sets: only those supplied and truthy. */
  function MergePlaylist(p: Playlist, name: Option<string>, description: Option<string>): (q: Playlist)
    ensures q.id == p.id && q.owner == p.owner && q.videos == p.videos
    ensures q.name == if Truthy(name) then name.value else p.name
    ensures q.description == if Truthy(description) then description.value else p.description
  {
    p.(name := if Truthy(name) then name.value else p.name,
       description := if Truthy(description) then description.value else p.description)
  }

  /** `updatePlaylist`: 400 for a malformed id, 400 when neither a name nor a
      description is supplied, 400 for a missing or foreign playlist; otherwise the
      supplied fields are replaced and a field not supplied keeps its old value. */
  function UpdatePlaylist(s: Store, viewer: Id, playlistId: IdParam, name: Option<string>,
                          description: Option<string>): (r: Result<(Store, Playlist)>)
    ensures !IsValidObjectId(playlistId) ==> r == Err(BadRequest)
    ensures !Truthy(name) && !Truthy(description) ==> r == Err(BadRequest)
    ensures r.Err? ==> r.status == BadRequest
    ensures playlistId.Valid? && (Truthy(name) || Truthy(description)) ==>
              (r.Ok? <==> OwnsPlaylist(s, playlistId.id, viewer))
    ensures r.Ok? ==>
      var (s', p) := r.value;
      exists i :: 0 <= i < |s.playlists| && OnlyPlaylistChanged(s, s', i) && s'.playlists[i] == p &&
                  s.playlists[i].id == playlistId.id && s.playlists[i].owner == viewer &&
                  p.videos == s.playlists[i].videos &&
                  p.name == (if Truthy(name) then name.value else s.playlists[i].name) &&
                  p.description == (if Truthy(description) then description.value else s.playlists[i].description)
  {
    if !IsValidObjectId(playlistId) then Err(BadRequest)
    else if !Truthy(name) && !Truthy(description) then Err(BadRequest)
    else UpdateOwned(s, viewer, playlistId.id, (p: Playlist) => MergePlaylist(p, name, description))
  }

  /** Sending the same update twice is the same as sending it once: the second
      succeeds, returns the same playlist and changes nothing further. */
  lemma UpdatePlaylistIdempotent(s: Store, viewer: Id, playlistId: IdParam, name: Option<string>,
                                 description: Option<string>)
    requires UpdatePlaylist(s, viewer, playlistId, name, description).Ok?
    ensures var (s', p) := UpdatePlaylist(s, viewer, playlistId, name, description).value;
            UpdatePlaylist(s', viewer, playlistId, name, description) == Ok((s', p))
  {
    var (s', p) := UpdatePlaylist(s, viewer, playlistId, name, description).value;
    var owned := OwnedBy(playlistId.id, viewer);
    var i := FirstIndex(s.playlists, owned).value;
    assert p == MergePlaylist(s.playlists[i], name, description);
    FirstIndexUpdate(s.playlists, owned, i, p);
    assert s'.playlists == s.playlists[i := p];
    assert MergePlaylist(p, name, description) == p;
    assert s'.playlists[i := p] == s'.playlists;
  }

  /** `deletePlaylist` as written: past the presence check it calls
      `Playlist.findByOneAndDelete`, which Mongoose does not define, so every call
      fails with a TypeError (an internal error) and nothing is deleted. */
  function DeletePlaylistAsWritten(s: Store, viewer: Id, playlistId: IdParam): (r: Result<(Store, Playlist)>)
    ensures playlistId.Missing? ==> r == Err(BadRequest)
    ensures !playlistId.Missing? ==> r == Err(InternalError)
  {
    if playlistId.Missing? then Err(BadRequest) else Err(InternalError)
  }

  /** The intended `deletePlaylist`: 400 for a missing id, 500 for a malformed one
      (the cast of the filter fails), 404 when the viewer owns no playlist with the
      id; otherwise that playlist is removed and nothing else changes. */
  function DeletePlaylist(s: Store, viewer: Id, playlistId: IdParam): (r: Result<(Store, Playlist)>)
    ensures playlistId.Missing? ==> r == Err(BadRequest)
    ensures playlistId.Malformed? ==> r == Err(InternalError)
    ensures playlistId.Valid? ==> (r.Ok? <==> OwnsPlaylist(s, playlistId.id, viewer))
    ensures playlistId.Valid? && r.Err? ==> r.status == NotFound
    ensures r.Ok? ==>
      var (s', p) := r.value;
      exists i :: 0 <= i < |s.playlists| && s.playlists[i] == p &&
                  p.id == playlistId.id && p.owner == viewer &&
                  s' == s.(playlists := s.playlists[..i] + s.playlists[i+1..])
  {
    match playlistId
    case Missing => Err(BadRequest)
    case Malformed => Err(InternalError)
    case Valid(id) =>
      match FirstIndex(s.playlists, OwnedBy(id, viewer))
      case None => Err(NotFound)
      case Some(i) => Ok((s.(playlists := RemoveAt(s.playlists, i)), s.playlists[i]))
  }

  /** As written, no playlist can ever be deleted, though the intended handler
      deletes any playlist its owner names. */
  lemma DeletePlaylistAsWrittenNeverDeletes(s: Store, viewer: Id, id: Id)
    requires OwnsPlaylist(s, id, viewer)
    ensures DeletePlaylistAsWritten(s, viewer, Valid(id)).Err?
    ensures DeletePlaylist(s, viewer, Valid(id)).Ok?
  {
  }
}

=== FILE: seqs.dfy ===
/** The collection operations the aggregation pipelines and update operators are
    built from: `$match` (Filter), `$size` of a lookup (Count), `$sum`, `$skip`/`$limit`
    (Page), `$sort` (SortByKey), `$addToSet`, `$pull`, and the single-document
    `findOne…` family (FirstIndex / RemoveAt). */
module Seqs {
  import opened Outcomes

  /** `$match`: the elements satisfying `p`, in collection order. */
  function Filter<T>(xs: seq<T>, p: T -> bool): (r: seq<T>)
    ensures |r| <= |xs|
    ensures forall i :: 0 <= i < |r| ==> p(r[i])
  {
    if xs == [] then []
    else
      assert xs == [xs[0]] + xs[1..];
      (if p(xs[0]) then [xs[0]] else []) + Filter(xs[1..], p)
  }

  /** An element that passes is kept. */
  lemma {:induction false} FilterKeeps<T>(xs: seq<T>, p: T -> bool, i: nat)
    requires i < |xs| && p(xs[i])
    ensures xs[i] in Filter(xs, p)
  {
    if i > 0 {
      FilterKeeps(xs[1..], p, i - 1);
      assert xs[1..][i - 1] == xs[i];
    }
  }

  /** Every element kept comes from the input. */
  lemma {:induction false} FilterFrom<T>(xs: seq<T>, p: T -> bool, k: nat)
    requires k < |Filter(xs, p)|
    ensures Filter(xs, p)[k] in xs
  {
    if p(xs[0]) && k == 0 {
    } else {
      var k' := if p(xs[0]) then k - 1 else k;
      FilterFrom(xs[1..], p, k');
      assert Filter(xs, p)[k] == Filter(xs[1..], p)[k'];
    }
  }

  /** Filtering distributes over concatenation (the order of a collection is kept). */
  lemma {:induction false} FilterAppend<T>(a: seq<T>, b: seq<T>, p: T -> bool)
    ensures Filter(a + b, p) == Filter(a, p) + Filter(b, p)
  {
    if a == [] {
      assert a + b == b;
    } else {
      assert (a + b)[1..] == a[1..] + b;
      FilterAppend(a[1..], b, p);
    }
  }

  /** Filtering a sequence none of whose elements pass yields nothing. */
  lemma {:induction false} FilterNone<T>(xs: seq<T>, p: T -> bool)
    requires forall i :: 0 <= i < |xs| ==> !p(xs[i])
    ensures Filter(xs, p) == []
  {
    if xs != [] {
      FilterNone(xs[1..], p);
    }
  }

  /** Filtering a sequence all of whose elements pass yields the sequence. */
  lemma {:induction false} FilterAll<T>(xs: seq<T>, p: T -> bool)
    requires forall i :: 0 <= i < |xs| ==> p(xs[i])
    ensures Filter(xs, p) == xs
  {
    if xs != [] {
      FilterAll(xs[1..], p);
      assert xs == [xs[0]] + xs[1..];
    }
  }

  /** The number of elements satisfying `p`: `$size` of a lookup, `$sum: 1` of a group. */
  function Count<T>(xs: seq<T>, p: T -> bool): nat
  {
    |Filter(xs, p)|
  }

  /** A zero count means no element passes. */
  lemma CountZero<T>(xs: seq<T>, p: T -> bool)
    requires Count(xs, p) == 0
    ensures forall i :: 0 <= i < |xs| ==> !p(xs[i])
  {
    forall i | 0 <= i < |xs| ensures !p(xs[i]) {
      if p(xs[i]) { FilterKeeps(xs, p, i); }
    }
  }

  /** A property of the head and of every element of the tail holds of every
      element of the whole. */
  lemma AllCons<T>(x: T, xs: seq<T>, p: T -> bool)
    requires p(x) && forall k :: 0 <= k < |xs| ==> p(xs[k])
    ensures forall k :: 0 <= k < |[x] + xs| ==> p(([x] + xs)[k])
  {
    forall k | 0 <= k < |[x] + xs| ensures p(([x] + xs)[k]) {
      if k > 0 {
        assert ([x] + xs)[k] == xs[k - 1];
      }
    }
  }

  /** Two tests that agree on every element select the same elements. */
  lemma {:induction false} FilterCongruent<T>(xs: seq<T>, p: T -> bool, q: T -> bool)
    requires forall i :: 0 <= i < |xs| ==> p(xs[i]) == q(xs[i])
    ensures Filter(xs, p) == Filter(xs, q)
  {
    if xs != [] {
      FilterCongruent(xs[1..], p, q);
    }
  }

  /** When `r` holds exactly where one of two exclusive tests `p` and `q` holds, the
      count of `r` is the sum of their counts. */
  lemma {:induction false} CountUnion<T>(xs: seq<T>, p: T -> bool, q: T -> bool, r: T -> bool)
    requires forall i :: 0 <= i < |xs| ==> (r(xs[i]) <==> p(xs[i]) || q(xs[i]))
    requires forall i :: 0 <= i < |xs| ==> !(p(xs[i]) && q(xs[i]))
    ensures Count(xs, r) == Count(xs, p) + Count(xs, q)
  {
    if xs != [] {
      CountUnion(xs[1..], p, q, r);
    }
  }

  /** Filtering by a test that implies an earlier one ignores the earlier one. */
  lemma {:induction false} FilterNarrow<T>(xs: seq<T>, p: T -> bool, q: T -> bool)
    requires forall i :: 0 <= i < |xs| ==> q(xs[i]) ==> p(xs[i])
    ensures Filter(Filter(xs, p), q) == Filter(xs, q)
  {
    if xs != [] {
      FilterNarrow(xs[1..], p, q);
      var rest := Filter(xs[1..], p);
      if p(xs[0]) {
        assert Filter(xs, p) == [xs[0]] + rest;
        assert ([xs[0]] + rest)[1..] == rest;
      } else {
        assert !q(xs[0]);
        assert Filter(xs, p) == rest;
      }
    }
  }

  /** `$sum` of `f` over a collection; an empty collection sums to 0. */
  function Sum<T>(xs: seq<T>, f: T -> int): int
  {
    if xs == [] then 0 else f(xs[0]) + Sum(xs[1..], f)
  }

  /** Sums add up over concatenation. */
  lemma {:induction false} SumAppend<T>(a: seq<T>, b: seq<T>, f: T -> int)
    ensures Sum(a + b, f) == Sum(a, f) + Sum(b, f)
  {
    if a == [] {
      assert a + b == b;
    } else {
      assert (a + b)[1..] == a[1..] + b;
      SumAppend(a[1..], b, f);
    }
  }

  /** Position of the first element satisfying `p`: the document a `findOne…`
      call acts on, in natural order. */
  function FirstIndex<T>(xs: seq<T>, p: T -> bool): (r: Option<nat>)
    ensures r.Some? ==> r.value < |xs| && p(xs[r.value]) &&
                        forall j :: 0 <= j < r.value ==> !p(xs[j])
    ensures r.None? <==> forall j :: 0 <= j < |xs| ==> !p(xs[j])
  {
    if xs == [] then None
    else if p(xs[0]) then Some(0)
    else match FirstIndex(xs[1..], p)
      case None => None
      case Some(i) => Some(i + 1)
  }

  /** The first element satisfying `p` is at `i` when `xs[i]` does and no earlier one does. */
  lemma FirstIndexAt<T>(xs: seq<T>, p: T -> bool, i: nat)
    requires i < |xs| && p(xs[i])
    requires forall j :: 0 <= j < i ==> !p(xs[j])
    ensures FirstIndex(xs, p) == Some(i)
  {
  }

  /** Replacing the first element satisfying `p` by another that satisfies it keeps
      it first. */
  lemma FirstIndexUpdate<T>(xs: seq<T>, p: T -> bool, i: nat, x: T)
    requires FirstIndex(xs, p) == Some(i) && p(x)
    ensures FirstIndex(xs[i := x], p) == Some(i)
  {
    var ys := xs[i := x];
    forall j | 0 <= j < i ensures !p(ys[j]) {
      assert ys[j] == xs[j];
    }
    FirstIndexAt(ys, p, i);
  }

  /** The collection without the element at `i`. */
  function RemoveAt<T>(xs: seq<T>, i: nat): (r: seq<T>)
    requires i < |xs|
    ensures |r| == |xs| - 1
    ensures multiset(r) == multiset(xs) - multiset{xs[i]}
  {
    assert xs == xs[..i] + [xs[i]] + xs[i+1..];
    xs[..i] + xs[i+1..]
  }

  /** Removing an element that fails `q` leaves the elements passing `q` exactly
      as they were. */
  lemma RemoveAtFilterOthers<T>(xs: seq<T>, i: nat, q: T -> bool)
    requires i < |xs| && !q(xs[i])
    ensures Filter(RemoveAt(xs, i), q) == Filter(xs, q)
  {
    RemoveAtSplit(xs, i);
    FilterSkip(xs[..i], xs[i], xs[i+1..], q);
  }

  /** `xs` is the part before position `i`, the element there and the part after;
      removing position `i` joins the two parts. */
  lemma RemoveAtSplit<T>(xs: seq<T>, i: nat)
    requires i < |xs|
    ensures xs == xs[..i] + [xs[i]] + xs[i+1..]
    ensures RemoveAt(xs, i) == xs[..i] + xs[i+1..]
  {
  }

  /** An element failing `q` contributes nothing to the filter, wherever it stands. */
  lemma FilterSkip<T>(a: seq<T>, x: T, b: seq<T>, q: T -> bool)
    requires !q(x)
    ensures Filter(a + [x] + b, q) == Filter(a + b, q)
  {
    FilterAppend(a + [x], b, q);
    AppendFilterOthers(a, x, q);
    FilterAppend(a, b, q);
  }

  /** Removing an element that passes `p` lowers the count of `p` by exactly one. */
  lemma RemoveAtCount<T>(xs: seq<T>, i: nat, p: T -> bool)
    requires i < |xs| && p(xs[i])
    ensures Count(RemoveAt(xs, i), p) == Count(xs, p) - 1
  {
    RemoveAtSplit(xs, i);
    CountSkip(xs[..i], xs[i], xs[i+1..], p);
  }

  /** An element passing `p` contributes exactly one to the count, wherever it stands. */
  lemma CountSkip<T>(a: seq<T>, x: T, b: seq<T>, p: T -> bool)
    requires p(x)
    ensures Count(a + [x] + b, p) == Count(a + b, p) + 1
  {
    FilterAppend(a + [x], b, p);
    AppendCount(a, x, p);
    FilterAppend(a, b, p);
  }

  /** Appending one element passing `p` raises the count of `p` by one. */
  lemma AppendCount<T>(xs: seq<T>, x: T, p: T -> bool)
    requires p(x)
    ensures Count(xs + [x], p) == Count(xs, p) + 1
  {
    FilterAppend(xs, [x], p);
    FilterAll([x], p);
  }

  /** Appending one element failing `q` leaves the elements passing `q` as they were. */
  lemma AppendFilterOthers<T>(xs: seq<T>, x: T, q: T -> bool)
    requires !q(x)
    ensures Filter(xs + [x], q) == Filter(xs, q)
  {
    FilterAppend(xs, [x], q);
    FilterNone([x], q);
  }

  /** `$skip: skip` followed by `$limit: limit`. */
  function Page<T>(xs: seq<T>, skip: nat, limit: nat): (r: seq<T>)
    ensures |r| <= limit
    ensures skip >= |xs| ==> r == []
    ensures skip < |xs| ==> |r| == if skip + limit <= |xs| then limit else |xs| - skip
    ensures forall k :: 0 <= k < |r| ==> skip + k < |xs| && r[k] == xs[skip + k]
  {
    if skip >= |xs| then []
    else if skip + limit <= |xs| then xs[skip..skip + limit]
    else xs[skip..]
  }

  /** `$addToSet`: append `x` unless it is already present. */
  function AddToSet<T(==)>(xs: seq<T>, x: T): (r: seq<T>)
    ensures x in r
    ensures x in xs ==> r == xs
    ensures x !in xs ==> r == xs + [x]
  {
    if x in xs then xs else xs + [x]
  }

  /** `$pull`: remove every occurrence of `x`. */
  function Pull<T(==)>(xs: seq<T>, x: T): (r: seq<T>)
    ensures x !in r
  {
    Filter(xs, y => y != x)
  }

  /** `a` is `b` with some elements dropped, the rest in their relative order. */
  predicate Subsequence<T(==)>(a: seq<T>, b: seq<T>)
    decreases |b|
  {
    if a == [] then true
    else if b == [] then false
    else if a[0] == b[0] then Subsequence(a[1..], b[1..])
    else Subsequence(a, b[1..])
  }

  /** Every filter is a subsequence of its input: the kept elements keep their order. */
  lemma {:induction false} FilterIsSubsequence<T>(xs: seq<T>, p: T -> bool)
    ensures Subsequence(Filter(xs, p), xs)
  {
    if xs != [] {
      FilterIsSubsequence(xs[1..], p);
      if p(xs[0]) {
        assert Filter(xs, p) == [xs[0]] + Filter(xs[1..], p);
        assert Filter(xs, p)[1..] == Filter(xs[1..], p);
      } else {
        assert Filter(xs, p) == Filter(xs[1..], p);
      }
    }
  }

  /** Filter keeps each passing element as often as it occurs, and drops every failing one. */
  lemma {:induction false} FilterMultiplicity<T>(xs: seq<T>, p: T -> bool, y: T)
    ensures multiset(Filter(xs, p))[y] == if p(y) then multiset(xs)[y] else 0
  {
    if xs != [] {
      FilterMultiplicity(xs[1..], p, y);
      assert xs == [xs[0]] + xs[1..];
    }
  }

  /** `$pull` keeps the other elements in order and with their multiplicities. */
  lemma PullKeepsOthers<T>(xs: seq<T>, x: T)
    ensures Subsequence(Pull(xs, x), xs)
    ensures forall y :: multiset(Pull(xs, x))[y] == if y == x then 0 else multiset(xs)[y]
  {
    FilterIsSubsequence(xs, y => y != x);
    forall y ensures multiset(Pull(xs, x))[y] == if y == x then 0 else multiset(xs)[y] {
      FilterMultiplicity(xs, z => z != x, y);
    }
  }

  /** `xs` is in ascending order of `key`. */
  predicate SortedBy<T>(xs: seq<T>, key: T -> int)
  {
    forall i, j :: 0 <= i < j < |xs| ==> key(xs[i]) <= key(xs[j])
  }

  /** Insert `x` before the first element with a larger key. */
  function Insert<T>(x: T, xs: seq<T>, key: T -> int): (r: seq<T>)
    requires SortedBy(xs, key)
    ensures SortedBy(r, key)
    ensures multiset(r) == multiset(xs) + multiset{x}
    ensures |r| == |xs| + 1
  {
    if xs == [] then [x]
    else if key(x) <= key(xs[0]) then
      SortedHead(xs, key);
      SortedCons(x, xs, key);
      [x] + xs
    else
      SortedHead(xs, key);
      var rest := Insert(x, xs[1..], key);
      BoundedBelow(xs[1..], x, rest, key, key(xs[0]));
      SortedCons(xs[0], rest, key);
      assert multiset([xs[0]] + rest) == multiset{xs[0]} + multiset(rest);
      assert multiset(xs) == multiset{xs[0]} + multiset(xs[1..]) by {
        assert xs == [xs[0]] + xs[1..];
      }
      [xs[0]] + rest
  }

  /** The tail of a sorted sequence is sorted, and no element is below the head. */
  lemma SortedHead<T>(xs: seq<T>, key: T -> int)
    requires SortedBy(xs, key) && |xs| > 0
    ensures SortedBy(xs[1..], key)
    ensures forall k :: 0 <= k < |xs| ==> key(xs[0]) <= key(xs[k])
  {
    var tail := xs[1..];
    forall i, j | 0 <= i < j < |tail| ensures key(tail[i]) <= key(tail[j]) {
      assert tail[i] == xs[i + 1] && tail[j] == xs[j + 1];
    }
  }

  /** A head no larger than any element, before a sorted sequence, keeps it sorted. */
  lemma SortedCons<T>(h: T, xs: seq<T>, key: T -> int)
    requires SortedBy(xs, key)
    requires forall k :: 0 <= k < |xs| ==> key(h) <= key(xs[k])
    ensures SortedBy([h] + xs, key)
  {
    var r := [h] + xs;
    forall i, j | 0 <= i < j < |r| ensures key(r[i]) <= key(r[j]) {
      assert r[j] == xs[j - 1];
      if i > 0 {
        assert r[i] == xs[i - 1];
      }
    }
  }

  /** Every element of a permutation of `xs + [x]` is at least `lo` when every
      element of `xs`, and `x`, is. */
  lemma BoundedBelow<T>(xs: seq<T>, x: T, r: seq<T>, key: T -> int, lo: int)
    requires multiset(r) == multiset(xs) + multiset{x}
    requires lo <= key(x)
    requires forall k :: 0 <= k < |xs| ==> lo <= key(xs[k])
    ensures forall k :: 0 <= k < |r| ==> lo <= key(r[k])
  {
    forall k | 0 <= k < |r| ensures lo <= key(r[k]) {
      assert r[k] in multiset(r);
      if r[k] != x {
        assert r[k] in multiset(xs);
        var j :| 0 <= j < |xs| && xs[j] == r[k];
      }
    }
  }

  /** `$sort` on an abstract key: an ordered permutation of the input. */
  function SortByKey<T>(xs: seq<T>, key: T -> int): (r: seq<T>)
    ensures SortedBy(r, key)
    ensures multiset(r) == multiset(xs)
    ensures |r| == |xs|
  {
    if xs == [] then []
    else
      assert xs == [xs[0]] + xs[1..];
      Insert(xs[0], SortByKey(xs[1..], key), key)
  }

  /** The elements whose key is `kv`. */
  function HasKey<T, K(==)>(key: T -> K, kv: K): T -> bool
  {
    (x: T) => key(x) == kv
  }

  /** The elements whose key is not `kv`. */
  function OtherKey<T, K(==)>(key: T -> K, kv: K): T -> bool
  {
    (x: T) => key(x) != kv
  }

  /** No two elements share a key: what a unique index on `key` enforces. */
  predicate UniqueBy<T, K(==)>(xs: seq<T>, key: T -> K)
  {
    forall i, j :: 0 <= i < j < |xs| ==> key(xs[i]) != key(xs[j])
  }

  /** What a toggle did: deleted the element it found, or created a new one. */
  datatype Flip<T> = Deleted(item: T) | Created(item: T)

  /** Delete-if-present-else-create on key `kv`: `findOneAndDelete` on the first
      element with that key, or, when there is none, `create` of `created`
      (appended in natural order). */
  function Toggle<T, K(==)>(xs: seq<T>, key: T -> K, kv: K, created: T): (r: (seq<T>, Flip<T>))
    requires key(created) == kv
    ensures Filter(r.0, OtherKey(key, kv)) == Filter(xs, OtherKey(key, kv))
    ensures key(r.1.item) == kv
    ensures r.1.Deleted? <==> Count(xs, HasKey(key, kv)) > 0
    ensures r.1.Deleted? ==> r.1.item in xs &&
                             Count(r.0, HasKey(key, kv)) == Count(xs, HasKey(key, kv)) - 1
    ensures r.1.Deleted? ==> FirstIndex(xs, HasKey(key, kv)).Some? &&
                             var i := FirstIndex(xs, HasKey(key, kv)).value;
                             r.1.item == xs[i] && r.0 == xs[..i] + xs[i+1..]
    ensures r.1.Created? ==> r.0 == xs + [created] && r.1.item == created &&
                             Count(r.0, HasKey(key, kv)) == 1
  {
    match FirstIndex(xs, HasKey(key, kv))
    case Some(i) =>
      ToggleDeleteFacts(xs, key, kv, i);
      (RemoveAt(xs, i), Deleted(xs[i]))
    case None =>
      ToggleCreateFacts(xs, key, kv, created);
      (xs + [created], Created(created))
  }

  /** What deleting the first element with the key does to the sequence. */
  lemma ToggleDeleteFacts<T, K>(xs: seq<T>, key: T -> K, kv: K, i: nat)
    requires FirstIndex(xs, HasKey(key, kv)) == Some(i)
    ensures i < |xs| && key(xs[i]) == kv && xs[i] in xs
    ensures Filter(RemoveAt(xs, i), OtherKey(key, kv)) == Filter(xs, OtherKey(key, kv))
    ensures Count(RemoveAt(xs, i), HasKey(key, kv)) == Count(xs, HasKey(key, kv)) - 1
    ensures Count(xs, HasKey(key, kv)) > 0
    ensures RemoveAt(xs, i) == xs[..i] + xs[i+1..]
  {
    var has := HasKey(key, kv);
    RemoveAtFilterOthers(xs, i, OtherKey(key, kv));
    RemoveAtCount(xs, i, has);
    FilterKeeps(xs, has, i);
    RemoveAtSplit(xs, i);
  }

  /** What appending a new element does when no element has the key. */
  lemma ToggleCreateFacts<T, K>(xs: seq<T>, key: T -> K, kv: K, created: T)
    requires FirstIndex(xs, HasKey(key, kv)).None? && key(created) == kv
    ensures Count(xs, HasKey(key, kv)) == 0
    ensures Count(xs + [created], HasKey(key, kv)) == 1
    ensures Filter(xs + [created], OtherKey(key, kv)) == Filter(xs, OtherKey(key, kv))
  {
    var has := HasKey(key, kv);
    FilterNone(xs, has);
    AppendCount(xs, created, has);
    AppendFilterOthers(xs, created, OtherKey(key, kv));
  }

  /** From the absent state, two toggles give back exactly the original sequence. */
  lemma ToggleTwiceFromAbsent<T, K>(xs: seq<T>, key: T -> K, kv: K, c1: T, c2: T)
    requires key(c1) == kv && key(c2) == kv
    requires Count(xs, HasKey(key, kv)) == 0
    ensures Toggle(Toggle(xs, key, kv, c1).0, key, kv, c2).0 == xs
  {
    var has := HasKey(key, kv);
    var xs1 := Toggle(xs, key, kv, c1).0;
    assert xs1 == xs + [c1];
    CountZero(xs, has);
    assert FirstIndex(xs1, has) == Some(|xs|) by {
      assert has(xs1[|xs|]);
      assert forall j :: 0 <= j < |xs| ==> xs1[j] == xs[j];
    }
    assert RemoveAt(xs1, |xs|) == xs;
  }

  /** Under a unique key, a key holds at most one element. */
  lemma {:induction false} UniqueCount<T, K>(xs: seq<T>, key: T -> K, kv: K)
    requires UniqueBy(xs, key)
    ensures Count(xs, HasKey(key, kv)) <= 1
  {
    if xs != [] {
      var has := HasKey(key, kv);
      var tail := xs[1..];
      assert UniqueBy(tail, key) by {
        forall i, j | 0 <= i < j < |tail| ensures key(tail[i]) != key(tail[j]) {
          assert tail[i] == xs[i + 1] && tail[j] == xs[j + 1];
        }
      }
      UniqueCount(tail, key, kv);
      if has(xs[0]) {
        FilterNone(tail, has) by {
          forall j | 0 <= j < |tail| ensures !has(tail[j]) {
            assert tail[j] == xs[j + 1];
          }
        }
      }
    }
  }

  /** A toggle keeps the key unique. */
  lemma ToggleKeepsUnique<T, K>(xs: seq<T>, key: T -> K, kv: K, created: T)
    requires key(created) == kv
    requires UniqueBy(xs, key)
    ensures UniqueBy(Toggle(xs, key, kv, created).0, key)
  {
    match FirstIndex(xs, HasKey(key, kv))
    case Some(i) =>
      RemoveAtKeepsUnique(xs, key, i);
    case None =>
      assert forall j :: 0 <= j < |xs| ==> key(xs[j]) != kv by {
        assert forall j :: 0 <= j < |xs| ==> !HasKey(key, kv)(xs[j]);
      }
      AppendKeepsUnique(xs, key, created);
  }

  lemma RemoveAtKeepsUnique<T, K>(xs: seq<T>, key: T -> K, i: nat)
    requires i < |xs| && UniqueBy(xs, key)
    ensures UniqueBy(RemoveAt(xs, i), key)
  {
    var xs1 := RemoveAt(xs, i);
    forall a, b | 0 <= a < b < |xs1| ensures key(xs1[a]) != key(xs1[b]) {
      var a' := if a < i then a else a + 1;
      var b' := if b < i then b else b + 1;
      assert xs1[a] == xs[a'] && xs1[b] == xs[b'];
    }
  }

  lemma AppendKeepsUnique<T, K>(xs: seq<T>, key: T -> K, x: T)
    requires UniqueBy(xs, key)
    requires forall j :: 0 <= j < |xs| ==> key(xs[j]) != key(x)
    ensures UniqueBy(xs + [x], key)
  {
    var xs1 := xs + [x];
    forall a, b | 0 <= a < b < |xs1| ensures key(xs1[a]) != key(xs1[b]) {
      assert xs1[a] == xs[a];
      if b < |xs| { assert xs1[b] == xs[b]; }
    }
  }
}

=== FILE: store.dfy ===
/** The collections the controllers read and write, as one immutable value.
    Every collection is a sequence in natural (insertion) order, which is the order
    an aggregation without `$sort` returns documents in. */
module Db {
  import opened Outcomes
  import opened Seqs

  /** A document id (a MongoDB ObjectId). Ids are handed out by a counter. */
  type Id = nat

  /** An id taken from a request parameter. `isValidObjectId` is not interpreted:
      a parameter is either absent, malformed, or a well-formed id. */
  datatype IdParam = Missing | Malformed | Valid(id: Id)

  /** `isValidObjectId(param)`. */
  predicate IsValidObjectId(p: IdParam)
  {
    p.Valid?
  }

  /** A numeric query parameter (`page`, `limit`): absent (the handler's default
      applies), text that does not parse as a number, or a number. */
  datatype NumParam = Default | NotANumber | Number(n: int)

  /** The number a query parameter stands for, `None` for NaN. */
  function NumberOr(p: NumParam, default: int): Option<int>
  {
    match p
    case Default => Some(default)
    case NotANumber => None
    case Number(n) => Some(n)
  }

  /** The `$skip: (page - 1) * limit` and `$limit: limit` stages as MongoDB accepts
      them: a number for both, a skip that is not negative and a limit of at least 1.
      Anything else makes the pipeline fail. Pages default to 1, limits to 10. */
  function PageWindow(page: NumParam, limit: NumParam): (r: Option<(nat, nat)>)
    ensures r.Some? <==> NumberOr(page, 1).Some? && NumberOr(limit, 10).Some? &&
                         NumberOr(limit, 10).value >= 1 &&
                         (NumberOr(page, 1).value - 1) * NumberOr(limit, 10).value >= 0
    ensures r.Some? ==> r.value.1 == NumberOr(limit, 10).value &&
                        r.value.0 == (NumberOr(page, 1).value - 1) * NumberOr(limit, 10).value
  {
    match (NumberOr(page, 1), NumberOr(limit, 10))
    case (Some(pg), Some(lim)) =>
      if lim >= 1 && (pg - 1) * lim >= 0 then Some(((pg - 1) * lim, lim)) else None
    case _ => None
  }

  datatype User = User(id: Id, username: string, fullname: string, avatar: string,
                       watchHistory: seq<Id>)

  datatype Video = Video(id: Id, owner: Id, videoFile: string, thumbnail: string,
                         title: string, description: string, duration: int,
                         views: int, isPublished: bool)

  datatype Comment = Comment(id: Id, video: Id, owner: Id, content: string)

  /** The one entity a like points at: exactly one of the `video`, `comment` and
      `tweet` fields of a like document is set. */
  datatype Target = OnVideo(video: Id) | OnComment(comment: Id) | OnTweet(tweet: Id)

  datatype Like = Like(id: Id, likedBy: Id, target: Target)

  datatype Tweet = Tweet(id: Id, owner: Id, content: string)

  datatype Subscription = Subscription(id: Id, subscriber: Id, channel: Id)

  datatype Playlist = Playlist(id: Id, owner: Id, name: string, description: string,
                               videos: seq<Id>)

  datatype Store = Store(users: seq<User>, videos: seq<Video>, comments: seq<Comment>,
                         likes: seq<Like>, tweets: seq<Tweet>,
                         subscriptions: seq<Subscription>, playlists: seq<Playlist>,
                         nextId: Id)

  /** The public part of a user document that the lookups project:
      `avatar`, `username`, `fullname` (and `_id`). */
  datatype Profile = Profile(id: Id, username: string, fullname: string, avatar: string)

  function ProfileOf(u: User): Profile
  {
    Profile(u.id, u.username, u.fullname, u.avatar)
  }

  /** `$lookup` from "users" on `_id`: the projected profiles of every user with this id. */
  function ProfilesWithId(users: seq<User>, id: Id): (r: seq<Profile>)
    ensures forall k :: 0 <= k < |r| ==> r[k].id == id
  {
    var found := Filter(users, (u: User) => u.id == id);
    seq(|found|, k requires 0 <= k < |found| => ProfileOf(found[k]))
  }

  /** The first profile of the lookup (`$first` / `$arrayElemAt: [.., 0]`), if any:
      the profile of the first user, in natural order, with this id. */
  function FirstProfile(users: seq<User>, id: Id): (r: Option<Profile>)
    ensures r.None? <==> forall k :: 0 <= k < |users| ==> users[k].id != id
    ensures r.Some? ==> r.value.id == id
    ensures r.Some? ==>
      exists k :: 0 <= k < |users| && users[k].id == id && r.value == ProfileOf(users[k]) &&
                  forall j :: 0 <= j < k ==> users[j].id != id
  {
    match FirstIndex(users, (u: User) => u.id == id)
    case None => None
    case Some(k) => Some(ProfileOf(users[k]))
  }

  /** The pair a like is keyed on: who liked, and what. */
  function LikePair(l: Like): (Id, Target)
  {
    (l.likedBy, l.target)
  }

  /** A like made by `viewer` on `target`: the filter of `Like.findOneAndDelete`. */
  function LikeKey(viewer: Id, target: Target): Like -> bool
  {
    HasKey(LikePair, (viewer, target))
  }

  /** Every like on `target`: `$lookup` from "likes" with `foreignField` the target field. */
  function LikesOn(likes: seq<Like>, target: Target): seq<Like>
  {
    Filter(likes, (l: Like) => l.target == target)
  }

  /** `$size` of that lookup. */
  function LikeCount(likes: seq<Like>, target: Target): nat
  {
    |LikesOn(likes, target)|
  }

  /** `$in: [viewer, "$likes.likedBy"]`: the viewer is among the likers of `target`. */
  predicate LikedBy(likes: seq<Like>, target: Target, viewer: Id)
  {
    exists k :: 0 <= k < |likes| && likes[k].target == target && likes[k].likedBy == viewer
  }

  /** Every subscription row of `channel`: `$lookup` from "subscriptions" on `channel`. */
  function SubscribersOf(subs: seq<Subscription>, channel: Id): seq<Subscription>
  {
    Filter(subs, (x: Subscription) => x.channel == channel)
  }

  function VideoIndex(s: Store, id: Id): Option<nat>
  {
    FirstIndex(s.videos, (v: Video) => v.id == id)
  }

  /** Some video in the collection has this id. */
  predicate HasVideo(videos: seq<Video>, id: Id)
  {
    exists k :: 0 <= k < |videos| && videos[k].id == id
  }

  /** `Video.exists({ _id })`. */
  predicate VideoExists(s: Store, id: Id)
  {
    HasVideo(s.videos, id)
  }

  /** The MongoDB guarantee that `_id` is unique within a collection, and that the
      id counter is ahead of every id in use. */
  predicate IdsFresh(s: Store)
  {
    && (forall k :: 0 <= k < |s.users| ==> s.users[k].id < s.nextId)
    && (forall k :: 0 <= k < |s.videos| ==> s.videos[k].id < s.nextId)
    && (forall k :: 0 <= k < |s.comments| ==> s.comments[k].id < s.nextId)
    && (forall k :: 0 <= k < |s.likes| ==> s.likes[k].id < s.nextId)
    && (forall k :: 0 <= k < |s.tweets| ==> s.tweets[k].id < s.nextId)
    && (forall k :: 0 <= k < |s.subscriptions| ==> s.subscriptions[k].id < s.nextId)
    && (forall k :: 0 <= k < |s.playlists| ==> s.playlists[k].id < s.nextId)
  }

  predicate UniqueVideoIds(videos: seq<Video>)
  {
    forall i, j :: 0 <= i < j < |videos| ==> videos[i].id != videos[j].id
  }

  /** With unique ids, a lookup of a video by `_id` finds one document or none. */
  lemma {:induction false} UniqueVideoLookup(videos: seq<Video>, id: Id)
    requires UniqueVideoIds(videos)
    ensures Count(videos, (v: Video) => v.id == id) == if HasVideo(videos, id) then 1 else 0
  {
    var p := (v: Video) => v.id == id;
    if videos != [] {
      var tail := videos[1..];
      assert UniqueVideoIds(tail) by {
        forall i, j | 0 <= i < j < |tail| ensures tail[i].id != tail[j].id {
          assert tail[i] == videos[i + 1] && tail[j] == videos[j + 1];
        }
      }
      UniqueVideoLookup(tail, id);
      if p(videos[0]) {
        assert !HasVideo(tail, id) by {
          forall k | 0 <= k < |tail| ensures tail[k].id != id {
            assert tail[k] == videos[k + 1];
          }
        }
      } else {
        assert HasVideo(videos, id) <==> HasVideo(tail, id) by {
          if HasVideo(videos, id) {
            var k :| 0 <= k < |videos| && videos[k].id == id;
            assert tail[k - 1] == videos[k];
          }
          if HasVideo(tail, id) {
            var k :| 0 <= k < |tail| && tail[k].id == id;
            assert videos[k + 1] == tail[k];
          }
        }
      }
    }
  }
}

=== FILE: subscriptions.dfy ===
/** src/controllers/subscription.controller.js: the subscription toggle with its
    self-subscription guard, and the two grouped views over subscription rows. */
module Subscriptions {
  import opened Outcomes
  import opened Seqs
  import opened Db

  /** The pair a subscription is keyed on. */
  function SubPair(x: Subscription): (Id, Id)
  {
    (x.subscriber, x.channel)
  }

  /** `toggleSubscription`: a missing or malformed channel id is rejected with 400,
      and so is the viewer's own channel; otherwise the viewer's subscription to the
      channel is deleted if there is one and created if not. Only the subscription
      collection (and the id counter, on creation) changes. */
  function ToggleSubscription(s: Store, viewer: Id, channelId: IdParam): (r: Result<(Store, Flip<Subscription>)>)
    ensures !IsValidObjectId(channelId) ==> r == Err(BadRequest)
    ensures channelId == Valid(viewer) ==> r == Err(BadRequest)
    ensures r.Ok? <==> channelId.Valid? && channelId.id != viewer
    ensures r.Ok? ==>
      var (s', out) := r.value;
      var kv := (viewer, channelId.id);
      && s' == s.(subscriptions := s'.subscriptions, nextId := s'.nextId)
      && Filter(s'.subscriptions, OtherKey(SubPair, kv)) == Filter(s.subscriptions, OtherKey(SubPair, kv))
      && SubPair(out.item) == kv
      && (out.Deleted? <==> Count(s.subscriptions, HasKey(SubPair, kv)) > 0)
      && (out.Deleted? ==>
            && out.item in s.subscriptions && s'.nextId == s.nextId
            && Count(s'.subscriptions, HasKey(SubPair, kv)) == Count(s.subscriptions, HasKey(SubPair, kv)) - 1)
      && (out.Deleted? ==>
            && FirstIndex(s.subscriptions, HasKey(SubPair, kv)).Some?
            && var i := FirstIndex(s.subscriptions, HasKey(SubPair, kv)).value;
               out.item == s.subscriptions[i] && s'.subscriptions == s.subscriptions[..i] + s.subscriptions[i+1..])
      && (out.Created? ==>
            && s'.subscriptions == s.subscriptions + [out.item] && out.item.id == s.nextId
            && s'.nextId == s.nextId + 1 && Count(s'.subscriptions, HasKey(SubPair, kv)) == 1)
  {
    if !IsValidObjectId(channelId) then Err(BadRequest)
    else if channelId.id == viewer then Err(BadRequest)
    else
      var kv := (viewer, channelId.id);
      var (subs', out) := Toggle(s.subscriptions, SubPair, kv, Subscription(s.nextId, viewer, channelId.id));
      Ok((s.(subscriptions := subs', nextId := if out.Created? then s.nextId + 1 else s.nextId), out))
  }

  /** No subscription row is a self-subscription. */
  predicate NoSelfSubscription(subs: seq<Subscription>)
  {
    forall k :: 0 <= k < |subs| ==> subs[k].subscriber != subs[k].channel
  }

  /** Removing one row keeps every remaining row a subscription to another channel. */
  lemma NoSelfAfterRemove(subs: seq<Subscription>, i: nat)
    requires i < |subs| && NoSelfSubscription(subs)
    ensures NoSelfSubscription(subs[..i] + subs[i+1..])
  {
    var rest := subs[..i] + subs[i+1..];
    forall k | 0 <= k < |rest| ensures rest[k].subscriber != rest[k].channel {
      assert rest[k] == if k < i then subs[k] else subs[k + 1];
    }
  }

  /** Appending a row to another channel keeps the collection free of self-subscriptions. */
  lemma NoSelfAfterAppend(subs: seq<Subscription>, c: Subscription)
    requires NoSelfSubscription(subs) && c.subscriber != c.channel
    ensures NoSelfSubscription(subs + [c])
  {
    var all := subs + [c];
    forall k | 0 <= k < |all| ensures all[k].subscriber != all[k].channel {
      assert all[k] == if k < |subs| then subs[k] else c;
    }
  }

  /** The toggle never creates a self-subscription, and keeps (subscriber, channel)
      unique when it was. */
  lemma ToggleSubscriptionInvariants(s: Store, viewer: Id, channelId: IdParam)
    requires ToggleSubscription(s, viewer, channelId).Ok?
    ensures var subs' := ToggleSubscription(s, viewer, channelId).value.0.subscriptions;
            && (NoSelfSubscription(s.subscriptions) ==> NoSelfSubscription(subs'))
            && (UniqueBy(s.subscriptions, SubPair) ==> UniqueBy(subs', SubPair))
  {
    var kv := (viewer, channelId.id);
    var created := Subscription(s.nextId, viewer, channelId.id);
    var out := ToggleSubscription(s, viewer, channelId).value.1;
    if UniqueBy(s.subscriptions, SubPair) {
      ToggleKeepsUnique(s.subscriptions, SubPair, kv, created);
    }
    if NoSelfSubscription(s.subscriptions) {
      var subs' := ToggleSubscription(s, viewer, channelId).value.0.subscriptions;
      if out.Deleted? {
        var i := FirstIndex(s.subscriptions, HasKey(SubPair, kv)).value;
        NoSelfAfterRemove(s.subscriptions, i);
      } else {
        NoSelfAfterAppend(s.subscriptions, created);
      }
    }
  }

  /** With (subscriber, channel) unique, two toggles of the same channel leave every
      other row as it was and restore the number of rows for the pair; from the
      unsubscribed state they give back exactly the original rows. */
  lemma ToggleSubscriptionTwice(s: Store, viewer: Id, channelId: IdParam)
    requires channelId.Valid? && channelId.id != viewer
    requires UniqueBy(s.subscriptions, SubPair)
    ensures ToggleSubscription(s, viewer, channelId).Ok?
    ensures ToggleSubscription(ToggleSubscription(s, viewer, channelId).value.0, viewer, channelId).Ok?
    ensures var s2 := ToggleSubscription(ToggleSubscription(s, viewer, channelId).value.0, viewer, channelId).value.0;
            var kv := (viewer, channelId.id);
            && Filter(s2.subscriptions, OtherKey(SubPair, kv)) == Filter(s.subscriptions, OtherKey(SubPair, kv))
            && Count(s2.subscriptions, HasKey(SubPair, kv)) == Count(s.subscriptions, HasKey(SubPair, kv))
            && (Count(s.subscriptions, HasKey(SubPair, kv)) == 0 ==> s2.subscriptions == s.subscriptions)
  {
    var kv := (viewer, channelId.id);
    UniqueCount(s.subscriptions, SubPair, kv);
    var s1 := ToggleSubscription(s, viewer, channelId).value.0;
    if Count(s.subscriptions, HasKey(SubPair, kv)) == 0 {
      ToggleTwiceFromAbsent(s.subscriptions, SubPair, kv,
        Subscription(s.nextId, viewer, channelId.id), Subscription(s1.nextId, viewer, channelId.id));
    }
  }

  /** The single group `getUserChannelSubscribers` returns for a channel. */
  datatype SubscriberGroup = SubscriberGroup(channel: Id, subscribers: seq<Profile>, subscriberCount: nat)

  /** `$push` of the first looked-up profile of each row; rows whose subscriber
      no longer exists contribute nothing. */
  function SubscriberProfiles(rows: seq<Subscription>, users: seq<User>): seq<Profile>
  {
    if rows == [] then []
    else
      (match FirstProfile(users, rows[0].subscriber)
       case Some(p) => [p]
       case None => []) + SubscriberProfiles(rows[1..], users)
  }

  /** `getUserChannelSubscribers`: a malformed channel id is rejected with 400. The
      group's count is the number of subscription rows of the channel. A channel
      without rows raises 404 inside the `try`, which the `catch` turns into 500. */
  function GetUserChannelSubscribers(s: Store, channelId: IdParam): (r: Result<seq<SubscriberGroup>>)
    ensures !IsValidObjectId(channelId) ==> r == Err(BadRequest)
    ensures channelId.Valid? ==>
      (r.Ok? <==> Count(s.subscriptions, (x: Subscription) => x.channel == channelId.id) > 0)
    ensures channelId.Valid? && r.Err? ==> r.status == InternalError
    ensures r.Ok? ==> |r.value| == 1 && r.value[0].channel == channelId.id &&
                      r.value[0].subscriberCount == Count(s.subscriptions, (x: Subscription) => x.channel == channelId.id)
  {
    if !IsValidObjectId(channelId) then Err(BadRequest)
    else
      var rows := SubscribersOf(s.subscriptions, channelId.id);
      if |rows| == 0 then Err(InternalError)
      else Ok([SubscriberGroup(channelId.id, SubscriberProfiles(rows, s.users), |rows|)])
  }

  /** A subscribe adds one to the count `getUserChannelSubscribers` reports for the
      channel, and makes the call succeed; an unsubscribe takes one away, and the
      call then fails exactly when that was the last row. */
  lemma ToggleMovesSubscriberCount(s: Store, viewer: Id, channelId: IdParam)
    requires ToggleSubscription(s, viewer, channelId).Ok?
    ensures var (s', out) := ToggleSubscription(s, viewer, channelId).value;
            var before := |SubscribersOf(s.subscriptions, channelId.id)|;
            var after := GetUserChannelSubscribers(s', channelId);
            && (out.Created? ==> after.Ok? && after.value[0].subscriberCount == before + 1)
            && (out.Deleted? ==> (after.Ok? <==> before > 1))
            && (out.Deleted? && after.Ok? ==> after.value[0].subscriberCount == before - 1)
  {
    var (s', out) := ToggleSubscription(s, viewer, channelId).value;
    var c := channelId.id;
    var onChannel := (x: Subscription) => x.channel == c;
    var kv := (viewer, c);
    if out.Created? {
      FilterAppend(s.subscriptions, [out.item], onChannel);
      FilterAll([out.item], onChannel);
    } else {
      var i := FirstIndex(s.subscriptions, HasKey(SubPair, kv)).value;
      assert s'.subscriptions == RemoveAt(s.subscriptions, i);
      RemoveAtCount(s.subscriptions, i, onChannel);
    }
  }

  /** One entry of `subscribedChannels`. */
  datatype ChannelEntry = ChannelEntry(channelId: Id, channelDetails: Profile, subscriberCount: nat)

  /** The single group `getSubscribedChannels` returns for a subscriber. */
  datatype SubscribedGroup = SubscribedGroup(subscriber: Id, subscribedChannels: seq<ChannelEntry>,
                                             totalSubscribedChannels: nat)

  /** The channel lookup with `$unwind` and the subscriber-count lookup, per row:
      a row whose channel user no longer exists is dropped. */
  function ChannelEntries(rows: seq<Subscription>, s: Store): (r: seq<ChannelEntry>)
    ensures |r| <= |rows|
    ensures forall k :: 0 <= k < |r| ==>
      r[k].subscriberCount == |SubscribersOf(s.subscriptions, r[k].channelId)| &&
      r[k].channelDetails.id == r[k].channelId
  {
    if rows == [] then []
    else
      var rest := ChannelEntries(rows[1..], s);
      match FirstProfile(s.users, rows[0].channel)
      case Some(p) => [ChannelEntry(rows[0].channel, p, |SubscribersOf(s.subscriptions, rows[0].channel)|)] + rest
      case None => rest
  }

  /** Every entry comes from one of the rows: it names that row's channel and
      carries the profile of the channel's user. */
  lemma {:induction false} ChannelEntriesFromRows(rows: seq<Subscription>, s: Store)
    ensures forall k :: 0 <= k < |ChannelEntries(rows, s)| ==> EntryOfRow(rows, s, ChannelEntries(rows, s)[k])
    decreases |rows|
  {
    if rows != [] {
      var r := ChannelEntries(rows, s);
      var rest := ChannelEntries(rows[1..], s);
      ChannelEntriesFromRows(rows[1..], s);
      forall k | 0 <= k < |rest| ensures EntryOfRow(rows, s, rest[k]) {
        EntryOfTail(rows, s, rest[k]);
      }
      var fp := FirstProfile(s.users, rows[0].channel);
      if fp.Some? {
        var e := ChannelEntry(rows[0].channel, fp.value, |SubscribersOf(s.subscriptions, rows[0].channel)|);
        assert r == [e] + rest;
        assert EntryOfRow(rows, s, e) by {
          assert e.channelId == rows[0].channel && Some(e.channelDetails) == fp;
        }
        AllCons(e, rest, (x: ChannelEntry) => EntryOfRow(rows, s, x));
      }
    }
  }

  /** `e` is the entry of one of the rows: that row's channel, with the profile of
      the channel's user. */
  predicate EntryOfRow(rows: seq<Subscription>, s: Store, e: ChannelEntry)
  {
    exists j :: 0 <= j < |rows| && e.channelId == rows[j].channel &&
                Some(e.channelDetails) == FirstProfile(s.users, rows[j].channel)
  }

  lemma EntryOfTail(rows: seq<Subscription>, s: Store, e: ChannelEntry)
    requires |rows| > 0 && EntryOfRow(rows[1..], s, e)
    ensures EntryOfRow(rows, s, e)
  {
    var j :| 0 <= j < |rows[1..]| && e.channelId == rows[1..][j].channel &&
             Some(e.channelDetails) == FirstProfile(s.users, rows[1..][j].channel);
    assert rows[j + 1] == rows[1..][j];
  }

  /** A subscription row survives `$unwind` when its channel user exists. */
  function ChannelExists(users: seq<User>): Subscription -> bool
  {
    (x: Subscription) => exists k :: 0 <= k < |users| && users[k].id == x.channel
  }

  /** The entries are exactly one per row whose channel exists, so the group total
      counts only those rows. */
  lemma {:induction false} ChannelEntriesCount(rows: seq<Subscription>, s: Store)
    ensures |ChannelEntries(rows, s)| == Count(rows, ChannelExists(s.users))
  {
    if rows != [] {
      ChannelEntriesCount(rows[1..], s);
      assert rows == [rows[0]] + rows[1..];
      FilterAppend([rows[0]], rows[1..], ChannelExists(s.users));
    }
  }

  /** `getSubscribedChannels`: a missing or malformed subscriber id is rejected with
      400. Each entry carries its channel's subscriber count; the total counts the
      rows whose channel user exists. No such row raises 404 inside the `try`, which
      the `catch` turns into 500. */
  function GetSubscribedChannels(s: Store, subscriberId: IdParam): (r: Result<seq<SubscribedGroup>>)
    ensures !IsValidObjectId(subscriberId) ==> r == Err(BadRequest)
    ensures subscriberId.Valid? && r.Err? ==> r.status == InternalError
    ensures r.Ok? ==>
      && |r.value| == 1 && r.value[0].subscriber == subscriberId.id
      && r.value[0].totalSubscribedChannels == |r.value[0].subscribedChannels| > 0
      && (forall k :: 0 <= k < |r.value[0].subscribedChannels| ==>
           var e := r.value[0].subscribedChannels[k];
           e.subscriberCount == Count(s.subscriptions, (x: Subscription) => x.channel == e.channelId))
      && (forall k :: 0 <= k < |r.value[0].subscribedChannels| ==>
           SubscribedEntry(s, subscriberId.id, r.value[0].subscribedChannels[k]))
  {
    if !IsValidObjectId(subscriberId) then Err(BadRequest)
    else
      var p := (x: Subscription) => x.subscriber == subscriberId.id;
      var rows := Filter(s.subscriptions, p);
      var entries := ChannelEntries(rows, s);
      ChannelEntriesFromRows(rows, s);
      assert forall k :: 0 <= k < |entries| ==> SubscribedEntry(s, subscriberId.id, entries[k]) by {
        forall k | 0 <= k < |entries| ensures SubscribedEntry(s, subscriberId.id, entries[k]) {
          var e := entries[k];
          assert EntryOfRow(rows, s, e);
          var j :| 0 <= j < |rows| && e.channelId == rows[j].channel &&
                   Some(e.channelDetails) == FirstProfile(s.users, rows[j].channel);
          FilterFrom(s.subscriptions, p, j);
          var i :| 0 <= i < |s.subscriptions| && s.subscriptions[i] == rows[j];
          assert s.subscriptions[i].subscriber == subscriberId.id;
        }
      }
      if |entries| == 0 then Err(InternalError)
      else Ok([SubscribedGroup(subscriberId.id, entries, |entries|)])
  }

  /** `e` names a channel `subscriber` has a subscription row for, with the profile
      of that channel's user. */
  predicate SubscribedEntry(s: Store, subscriber: Id, e: ChannelEntry)
  {
    exists i :: 0 <= i < |s.subscriptions| && s.subscriptions[i].subscriber == subscriber &&
                s.subscriptions[i].channel == e.channelId &&
                Some(e.channelDetails) == FirstProfile(s.users, e.channelId)
  }

  /** The total of `getSubscribedChannels` is the number of the user's subscription
      rows whose channel user exists, and it fails exactly when there is none. */
  lemma SubscribedChannelsTotal(s: Store, subscriberId: IdParam)
    requires subscriberId.Valid?
    ensures var rows := Filter(s.subscriptions, (x: Subscription) => x.subscriber == subscriberId.id);
            var r := GetSubscribedChannels(s, subscriberId);
            && (r.Ok? <==> Count(rows, ChannelExists(s.users)) > 0)
            && (r.Ok? ==> r.value[0].totalSubscribedChannels == Count(rows, ChannelExists(s.users)))
  {
    ChannelEntriesCount(Filter(s.subscriptions, (x: Subscription) => x.subscriber == subscriberId.id), s);
  }
}

=== FILE: text.dfy ===
/** String predicates the controllers rely on: JavaScript truthiness of a request
    field, `trim() === ""`, and the case-insensitive substring test behind a
    `$regex` with option "i". */
module Text {
  import opened Outcomes

  /** ASCII lower-casing, the folding the "i" option applies to letters. */
  function Lower(c: char): char
  {
    if 'A' <= c <= 'Z' then (c as int + 32) as char else c
  }

  /** The code points `String.prototype.trim` strips: the WhiteSpace and
      LineTerminator productions of ECMA-262 (sections 12.2 and 12.3), that is tab,
      vertical tab, form feed, the byte order mark, the Unicode space separators
      (category Zs), line feed, carriage return and the line and paragraph
      separators. */
  predicate IsSpace(c: char)
  {
    || c == '\t' || c == '\U{000B}' || c == '\U{000C}' || c == '\U{FEFF}'
    || c == ' ' || c == '\U{00A0}' || c == '\U{1680}' || ('\U{2000}' <= c <= '\U{200A}')
    || c == '\U{202F}' || c == '\U{205F}' || c == '\U{3000}'
    || c == '\n' || c == '\r' || c == '\U{2028}' || c == '\U{2029}'
  }

  /** `s` with its leading whitespace removed. */
  function TrimStart(s: string): (r: string)
    decreases |s|
  {
    if s != [] && IsSpace(s[0]) then TrimStart(s[1..]) else s
  }

  /** `s` with its trailing whitespace removed. */
  function TrimEnd(s: string): (r: string)
    decreases |s|
  {
    if s != [] && IsSpace(s[|s| - 1]) then TrimEnd(s[..|s| - 1]) else s
  }

  /** `s.trim()`. */
  function Trim(s: string): string
  {
    TrimEnd(TrimStart(s))
  }

  /** `s.trim() === ""`. */
  predicate IsBlank(s: string)
  {
    Trim(s) == ""
  }

  /** Trimming leaves nothing exactly when every character is whitespace. */
  lemma BlankIffAllSpace(s: string)
    ensures IsBlank(s) <==> forall i :: 0 <= i < |s| ==> IsSpace(s[i])
  {
    TrimStartFacts(s);
    var t := TrimStart(s);
    if t != [] {
      TrimEndKeepsFirst(t);
    }
  }

  /** Leading trimming leaves nothing exactly when every character is whitespace,
      and otherwise stops at a character that is not. */
  lemma {:induction false} TrimStartFacts(s: string)
    ensures TrimStart(s) == [] <==> forall i :: 0 <= i < |s| ==> IsSpace(s[i])
    ensures TrimStart(s) != [] ==> !IsSpace(TrimStart(s)[0])
    decreases |s|
  {
    if s != [] && IsSpace(s[0]) {
      TrimStartFacts(s[1..]);
      assert forall i :: 1 <= i < |s| ==> s[i] == s[1..][i - 1];
      assert (forall i :: 0 <= i < |s[1..]| ==> IsSpace(s[1..][i])) ==>
             (forall i :: 0 <= i < |s| ==> IsSpace(s[i]));
    } else if s != [] {
      assert !IsSpace(s[0]);
    }
  }

  /** Trailing trimming never removes a first character that is not whitespace. */
  lemma {:induction false} TrimEndKeepsFirst(s: string)
    requires s != [] && !IsSpace(s[0])
    ensures TrimEnd(s) != []
    decreases |s|
  {
    if IsSpace(s[|s| - 1]) {
      assert |s| > 1;
      TrimEndKeepsFirst(s[..|s| - 1]);
    }
  }

  /** A request-body string is truthy when it is present and non-empty. */
  predicate Truthy(o: Option<string>)
  {
    o.Some? && |o.value| > 0
  }

  /** `!s || s.trim() === ""`: the guard every content field goes through. */
  predicate MissingOrBlank(o: Option<string>)
  {
    !Truthy(o) || IsBlank(o.value)
  }

  /** `needle` occurs in `hay` at offset `i`, letters compared without case. */
  ghost predicate MatchesAt(hay: string, needle: string, i: int)
  {
    0 <= i && i + |needle| <= |hay| &&
    forall k :: 0 <= k < |needle| ==> Lower(hay[i + k]) == Lower(needle[k])
  }

  /** Case-insensitive substring search, scanning `hay` from the left. */
  function ContainsFold(hay: string, needle: string): (r: bool)
    ensures r <==> exists i :: MatchesAt(hay, needle, i)
    decreases |hay|
  {
    if |needle| > |hay| then
      false
    else if forall k :: 0 <= k < |needle| ==> Lower(hay[k]) == Lower(needle[k]) then
      assert MatchesAt(hay, needle, 0);
      true
    else
      var rest := ContainsFold(hay[1..], needle);
      ShiftMatch(hay, needle);
      rest
  }

  /** A match in `hay[1..]` at `i` is a match in `hay` at `i + 1`, and conversely
      every match in `hay` other than at 0 comes from one in `hay[1..]`. */
  lemma ShiftMatch(hay: string, needle: string)
    requires |hay| > 0
    requires !MatchesAt(hay, needle, 0)
    ensures (exists i :: MatchesAt(hay[1..], needle, i)) <==> (exists i :: MatchesAt(hay, needle, i))
  {
    if i :| MatchesAt(hay[1..], needle, i) {
      assert forall k :: 0 <= k < |needle| ==> Lower(hay[1..][i + k]) == Lower(needle[k]);
      assert MatchesAt(hay, needle, i + 1);
    }
    if i :| MatchesAt(hay, needle, i) {
      assert i != 0;
      assert forall k :: 0 <= k < |needle| ==> Lower(hay[i + k]) == Lower(needle[k]);
      assert MatchesAt(hay[1..], needle, i - 1);
    }
  }
}

=== FILE: tweets.dfy ===
/** src/controllers/tweet.controller.js: creating, listing, updating and deleting
    tweets. */
module Tweets {
  import opened Outcomes
  import opened Seqs
  import opened Text
  import opened Db

  /** A row of the tweets view: `_id`, `content` and `likesCount` (the timestamps
      are not modelled). */
  datatype TweetRow = TweetRow(id: Id, content: string, likesCount: nat)

  function TweetRowOf(likes: seq<Like>, t: Tweet): TweetRow
  {
    TweetRow(t.id, t.content, LikeCount(likes, OnTweet(t.id)))
  }

  /** `$match: { owner: user }` on tweets. */
  function TweetBy(user: Id): Tweet -> bool
  {
    (t: Tweet) => t.owner == user
  }

  function TweetsOf(s: Store, user: Id): seq<Tweet>
  {
    Filter(s.tweets, TweetBy(user))
  }

  /** The document `findById…(tweetId)` acts on. */
  function TweetIndex(s: Store, id: Id): Option<nat>
  {
    FirstIndex(s.tweets, (t: Tweet) => t.id == id)
  }

  /** `createTweet`: missing, empty or blank content is rejected with 400 and nothing
      is written; otherwise one tweet owned by the caller, with exactly that
      content, is appended. */
  function CreateTweet(s: Store, viewer: Id, content: Option<string>): (r: Result<(Store, Tweet)>)
    ensures MissingOrBlank(content) <==> r == Err(BadRequest)
    ensures !MissingOrBlank(content) <==> r.Ok?
    ensures r.Ok? ==>
      var (s', t) := r.value;
      && t.owner == viewer && t.content == content.value && t.id == s.nextId
      && s' == s.(tweets := s.tweets + [t], nextId := s.nextId + 1)
  {
    if MissingOrBlank(content) then Err(BadRequest)
    else
      var t := Tweet(s.nextId, viewer, content.value);
      Ok((s.(tweets := s.tweets + [t], nextId := s.nextId + 1), t))
  }

  /** `getUserTweets`: 400 for a malformed user id; otherwise one row per tweet the
      user owns, in natural order, each with the number of likes on it. */
  function GetUserTweets(s: Store, userId: IdParam): (r: Result<seq<TweetRow>>)
    ensures !IsValidObjectId(userId) <==> r == Err(BadRequest)
    ensures IsValidObjectId(userId) <==> r.Ok?
    ensures r.Ok? ==>
      var owned := TweetsOf(s, userId.id);
      && |r.value| == |owned|
      && forall k :: 0 <= k < |owned| ==> r.value[k] == TweetRowOf(s.likes, owned[k])
  {
    if !IsValidObjectId(userId) then Err(BadRequest)
    else
      var owned := TweetsOf(s, userId.id);
      Ok(seq(|owned|, k requires 0 <= k < |owned| => TweetRowOf(s.likes, owned[k])))
  }

  /** `row` is the listing row of a tweet `user` owns. */
  predicate RowOfTweetBy(s: Store, user: Id, row: TweetRow)
  {
    exists j :: 0 <= j < |s.tweets| && s.tweets[j].owner == user && row == TweetRowOf(s.likes, s.tweets[j])
  }

  /** The listing holds exactly the user's tweets: every row is a tweet of the user
      with its like count, and every tweet of the user has a row. */
  lemma {:induction false} UserTweetsExact(s: Store, user: Id)
    ensures var rows := GetUserTweets(s, Valid(user)).value;
            && (forall k :: 0 <= k < |rows| ==> RowOfTweetBy(s, user, rows[k]))
            && (forall j :: 0 <= j < |s.tweets| && s.tweets[j].owner == user ==>
                  TweetRowOf(s.likes, s.tweets[j]) in rows)
  {
    var rows := GetUserTweets(s, Valid(user)).value;
    var owned := TweetsOf(s, user);
    forall k | 0 <= k < |rows| ensures RowOfTweetBy(s, user, rows[k]) {
      var t := owned[k];
      FilterFrom(s.tweets, TweetBy(user), k);
      assert TweetBy(user)(t);
      var j :| 0 <= j < |s.tweets| && s.tweets[j] == t;
      assert s.tweets[j].owner == user && rows[k] == TweetRowOf(s.likes, s.tweets[j]);
    }
    forall j | 0 <= j < |s.tweets| && s.tweets[j].owner == user
      ensures TweetRowOf(s.likes, s.tweets[j]) in rows
    {
      FilterKeeps(s.tweets, TweetBy(user), j);
      var k :| 0 <= k < |owned| && owned[k] == s.tweets[j];
      assert rows[k] == TweetRowOf(s.likes, s.tweets[j]);
    }
  }

  /** A new tweet is listed last among its owner's tweets, after the ones listed
      before, and nobody else's listing changes. */
  lemma CreatedTweetListed(s: Store, viewer: Id, content: string, user: Id)
    requires CreateTweet(s, viewer, Some(content)).Ok?
    ensures var (s', t) := CreateTweet(s, viewer, Some(content)).value;
            var before := GetUserTweets(s, Valid(user)).value;
            GetUserTweets(s', Valid(user)).value ==
              if user == viewer then before + [TweetRowOf(s.likes, t)] else before
  {
    var (s', t) := CreateTweet(s, viewer, Some(content)).value;
    FilterAppend(s.tweets, [t], TweetBy(user));
    if user == viewer {
      FilterAll([t], TweetBy(user));
    } else {
      FilterNone([t], TweetBy(user));
    }
  }

  /** `updateTweet`: 400 for a malformed id, 400 for missing or blank content, and
      500 when no tweet has the id; none of these writes. Otherwise the tweet's
      content, and nothing else in the store, becomes exactly `content`. No
      ownership check is made. */
  function UpdateTweet(s: Store, tweetId: IdParam, content: Option<string>): (r: Result<(Store, Tweet)>)
    ensures !IsValidObjectId(tweetId) || MissingOrBlank(content) <==> r == Err(BadRequest)
    ensures IsValidObjectId(tweetId) && !MissingOrBlank(content) ==>
      (r.Err? <==> TweetIndex(s, tweetId.id).None?)
    ensures r == Err(InternalError) <==>
      IsValidObjectId(tweetId) && !MissingOrBlank(content) && TweetIndex(s, tweetId.id).None?
    ensures r.Err? ==> r.status == BadRequest || r.status == InternalError
    ensures r.Ok? ==>
      var (s', t) := r.value;
      var i := TweetIndex(s, tweetId.id).value;
      && t.id == tweetId.id && t.owner == s.tweets[i].owner && t.content == content.value
      && s' == s.(tweets := s.tweets[i := t])
  {
    if !IsValidObjectId(tweetId) then Err(BadRequest)
    else if MissingOrBlank(content) then Err(BadRequest)
    else match TweetIndex(s, tweetId.id)
      case None => Err(InternalError)
      case Some(i) =>
        var t := s.tweets[i].(content := content.value);
        Ok((s.(tweets := s.tweets[i := t]), t))
  }

  /** Updating twice with the same content is the same as updating once. */
  lemma UpdateTweetIdempotent(s: Store, tweetId: IdParam, content: Option<string>)
    requires UpdateTweet(s, tweetId, content).Ok?
    ensures var (s', t) := UpdateTweet(s, tweetId, content).value;
            UpdateTweet(s', tweetId, content) == Ok((s', t))
  {
    var (s', t) := UpdateTweet(s, tweetId, content).value;
    var i := TweetIndex(s, tweetId.id).value;
    var p := (x: Tweet) => x.id == tweetId.id;
    forall j | 0 <= j < i ensures !p(s'.tweets[j]) {
      assert s'.tweets[j] == s.tweets[j];
    }
    FirstIndexAt(s'.tweets, p, i);
    assert s'.tweets[i] == t;
    assert s'.tweets[i := t] == s'.tweets;
  }

  /** `deleteTweet`: 400 for a malformed id; 500 when no tweet has the id, with the
      likes untouched. Otherwise the tweet is removed and so is every like on it;
      the other likes stay as they were. No ownership check is made. */
  function DeleteTweet(s: Store, tweetId: IdParam): (r: Result<(Store, Tweet)>)
    ensures !IsValidObjectId(tweetId) <==> r == Err(BadRequest)
    ensures IsValidObjectId(tweetId) ==> (r.Err? <==> TweetIndex(s, tweetId.id).None?)
    ensures r.Err? ==> r.status == BadRequest || r.status == InternalError
    ensures r.Ok? ==>
      var (s', t) := r.value;
      var i := TweetIndex(s, tweetId.id).value;
      && t == s.tweets[i] && t.id == tweetId.id
      && s'.tweets == s.tweets[..i] + s.tweets[i+1..]
      && (forall k :: 0 <= k < |s'.likes| ==> s'.likes[k].target != OnTweet(tweetId.id))
      && s'.likes == Filter(s.likes, NotOnTweet(tweetId.id))
      && s' == s.(tweets := s'.tweets, likes := s'.likes)
  {
    if !IsValidObjectId(tweetId) then Err(BadRequest)
    else match TweetIndex(s, tweetId.id)
      case None => Err(InternalError)
      case Some(i) =>
        Ok((s.(tweets := RemoveAt(s.tweets, i), likes := Filter(s.likes, NotOnTweet(tweetId.id))),
            s.tweets[i]))
  }

  /** The likes `Like.deleteMany({ tweet })` keeps. */
  function NotOnTweet(id: Id): Like -> bool
  {
    (l: Like) => l.target != OnTweet(id)
  }

  /** Creating a tweet and deleting it again leaves the store as it was, apart from
      the spent id, when the id was fresh. */
  lemma CreateThenDeleteTweet(s: Store, viewer: Id, content: string)
    requires IdsFresh(s)
    requires forall k :: 0 <= k < |s.likes| ==> s.likes[k].target != OnTweet(s.nextId)
    requires CreateTweet(s, viewer, Some(content)).Ok?
    ensures var (s', t) := CreateTweet(s, viewer, Some(content)).value;
            DeleteTweet(s', Valid(t.id)) == Ok((s.(nextId := s.nextId + 1), t))
  {
    var (s', t) := CreateTweet(s, viewer, Some(content)).value;
    var p := (x: Tweet) => x.id == t.id;
    forall j | 0 <= j < |s.tweets| ensures !p(s'.tweets[j]) {
      assert s'.tweets[j] == s.tweets[j];
    }
    FirstIndexAt(s'.tweets, p, |s.tweets|);
    assert s'.tweets[..|s.tweets|] + s'.tweets[|s.tweets| + 1..] == s.tweets;
    FilterAll(s.likes, NotOnTweet(t.id));
  }
}

=== FILE: videos.dfy ===
/** src/controllers/video.controller.js: searching, publishing, watching, updating,
    deleting and (un)publishing videos. */
module Videos {
  import opened Outcomes
  import opened Seqs
  import opened Text
  import opened Db
  import opened Cloudinary

  // ---------------------------------------------------------------- search

  /** A row of the search results (`$project`): the owner is the array the user
      lookup produced, and the description is not part of the row. */
  datatype VideoCard = VideoCard(id: Id, videoFile: string, thumbnail: string,
                                 owner: seq<Profile>, title: string, views: int,
                                 duration: int)

  function CardOf(s: Store, v: Video): VideoCard
  {
    VideoCard(v.id, v.videoFile, v.thumbnail, ProfilesWithId(s.users, v.owner), v.title,
              v.views, v.duration)
  }

  /** The `$or` of the two `$regex` conditions with option "i", the query read as
      literal text. */
  predicate MatchesQuery(v: Video, query: string)
  {
    ContainsFold(v.title, query) || ContainsFold(v.description, query)
  }

  function QueryMatch(query: string): Video -> bool
  {
    (v: Video) => MatchesQuery(v, query)
  }

  /** A video matches when its title or its description contains the query at some
      offset, letters compared without case. */
  lemma MatchesQueryIff(v: Video, query: string)
    ensures MatchesQuery(v, query) <==>
              (exists i :: MatchesAt(v.title, query, i)) || (exists i :: MatchesAt(v.description, query, i))
  {
  }

  /** The search view of each video, built one document at a time: the `k`-th card
      is the card of the `k`-th video. */
  function Cards(s: Store, vs: seq<Video>): (cards: seq<VideoCard>)
    ensures |cards| == |vs|
    ensures forall k :: 0 <= k < |vs| ==> cards[k] == CardOf(s, vs[k])
  {
    if vs == [] then []
    else
      var rest := Cards(s, vs[1..]);
      assert forall k :: 1 <= k < |vs| ==> vs[1..][k - 1] == vs[k];
      [CardOf(s, vs[0])] + rest
  }

  /** The `$sort` key: the field `sortBy` names, ascending when `sortType` is "asc"
      and descending otherwise. */
  function SortKey(key: VideoCard -> int, ascending: bool): VideoCard -> int
  {
    if ascending then key else (c: VideoCard) => -key(c)
  }

  /** The matching videos as cards, in the requested order. */
  function SearchResults(s: Store, query: string, key: VideoCard -> int, ascending: bool): (r: seq<VideoCard>)
    ensures SortedBy(r, SortKey(key, ascending))
    ensures multiset(r) == multiset(Cards(s, Filter(s.videos, QueryMatch(query))))
    ensures |r| == |Filter(s.videos, QueryMatch(query))|
  {
    SortByKey(Cards(s, Filter(s.videos, QueryMatch(query))), SortKey(key, ascending))
  }

  /** A window of a sorted sequence is sorted. */
  lemma PageSorted<T>(xs: seq<T>, skip: nat, lim: nat, key: T -> int)
    requires SortedBy(xs, key)
    ensures SortedBy(Page(xs, skip, lim), key)
  {
    var r := Page(xs, skip, lim);
    forall i, j | 0 <= i < j < |r| ensures key(r[i]) <= key(r[j]) {
      assert r[i] == xs[skip + i] && r[j] == xs[skip + j];
    }
  }

  /** `getAllVideos`: a missing or empty `query` is answered with 400 before the
      store is read. An unusable page window makes the pipeline fail (500). An empty
      result is 404. Otherwise the results are sorted on the requested key and
      direction and cut to the page. */
  function GetAllVideos(s: Store, query: Option<string>, page: NumParam, limit: NumParam,
                        key: VideoCard -> int, ascending: bool): (r: Result<seq<VideoCard>>)
    ensures !Truthy(query) <==> r == Err(BadRequest)
    ensures Truthy(query) ==> (r == Err(InternalError) <==> PageWindow(page, limit).None?)
    ensures r.Err? ==> r.status == BadRequest || r.status == NotFound || r.status == InternalError
    ensures r.Ok? ==>
      var (skip, lim) := PageWindow(page, limit).value;
      && 1 <= |r.value| <= lim
      && SortedBy(r.value, SortKey(key, ascending))
      && r.value == Page(SearchResults(s, query.value, key, ascending), skip, lim)
    ensures Truthy(query) && PageWindow(page, limit).Some? ==>
      (r == Err(NotFound) <==>
         Page(SearchResults(s, query.value, key, ascending), PageWindow(page, limit).value.0,
              PageWindow(page, limit).value.1) == [])
  {
    if !Truthy(query) then Err(BadRequest)
    else match PageWindow(page, limit)
      case None => Err(InternalError)
      case Some((skip, lim)) =>
        var sorted := SearchResults(s, query.value, key, ascending);
        var rows := Page(sorted, skip, lim);
        PageSorted(sorted, skip, lim, SortKey(key, ascending));
        if rows == [] then Err(NotFound) else Ok(rows)
  }

  /** `row` is the card of a stored video whose title or description contains the
      query. */
  ghost predicate CardOfMatch(s: Store, query: string, row: VideoCard)
  {
    exists v :: v in s.videos && MatchesQuery(v, query) && row == CardOf(s, v)
  }

  /** Every search result is the card of a stored video whose title or description
      contains the query. */
  lemma AllVideosMatchQuery(s: Store, query: Option<string>, page: NumParam, limit: NumParam,
                            key: VideoCard -> int, ascending: bool)
    ensures GetAllVideos(s, query, page, limit, key, ascending).Ok? ==>
            var rows := GetAllVideos(s, query, page, limit, key, ascending).value;
            forall k :: 0 <= k < |rows| ==> CardOfMatch(s, query.value, rows[k])
  {
    var r := GetAllVideos(s, query, page, limit, key, ascending);
    if r.Err? {
      return;
    }
    var skip := PageWindow(page, limit).value.0;
    var lim := PageWindow(page, limit).value.1;
    var sorted := SearchResults(s, query.value, key, ascending);
    assert r.value == Page(sorted, skip, lim);
    forall k | 0 <= k < |r.value| ensures CardOfMatch(s, query.value, r.value[k]) {
      SearchResultFromMatch(s, query.value, key, ascending, skip + k);
    }
  }

  /** Each search result is the card of a stored video matching the query. */
  lemma SearchResultFromMatch(s: Store, query: string, key: VideoCard -> int, ascending: bool, i: nat)
    requires i < |SearchResults(s, query, key, ascending)|
    ensures CardOfMatch(s, query, SearchResults(s, query, key, ascending)[i])
  {
    var sorted := SearchResults(s, query, key, ascending);
    var matching := Filter(s.videos, QueryMatch(query));
    var cards := Cards(s, matching);
    var row := sorted[i];
    assert row in multiset(sorted);
    assert row in multiset(cards);
    var j :| 0 <= j < |cards| && cards[j] == row;
    var v := matching[j];
    FilterFrom(s.videos, QueryMatch(query), j);
    assert QueryMatch(query)(v);
    assert v in s.videos && MatchesQuery(v, query) && row == CardOf(s, v);
  }

  /** The first page, when it is large enough, holds the card of every matching
      video exactly once. */
  lemma FirstPageHoldsAllMatches(s: Store, query: Option<string>, page: NumParam, limit: NumParam,
                                 key: VideoCard -> int, ascending: bool)
    requires GetAllVideos(s, query, page, limit, key, ascending).Ok?
    requires PageWindow(page, limit).value.0 == 0
    requires PageWindow(page, limit).value.1 >= |Filter(s.videos, QueryMatch(query.value))|
    ensures multiset(GetAllVideos(s, query, page, limit, key, ascending).value) ==
            multiset(Cards(s, Filter(s.videos, QueryMatch(query.value))))
  {
    var sorted := SearchResults(s, query.value, key, ascending);
    var rows := GetAllVideos(s, query, page, limit, key, ascending).value;
    var lim := PageWindow(page, limit).value.1;
    assert rows == Page(sorted, 0, lim);
    assert |rows| == |sorted|;
    assert forall k :: 0 <= k < |rows| ==> rows[k] == sorted[k];
    assert rows == sorted;
  }

  // ---------------------------------------------------------------- publish

  /** `publishAVideo`: 400 when the title or description is missing or empty or the
      title is blank, and 400 when either file (or its local path) is missing. Both
      files are then uploaded; when either upload returns null or a response
      without a `url` the request fails with 500 (for a null response by the
      `TypeError` of reading `.url`). Otherwise one video owned by the caller is
      appended, with the two URLs, the title, the description and the uploaded
      video's duration, no views, and published. */
  function PublishAVideo(s: Store, viewer: Id, title: Option<string>, description: Option<string>,
                         videoPath: Option<string>, thumbnailPath: Option<string>,
                         videoAttempt: Attempt, thumbnailAttempt: Attempt): (r: Result<(Store, Video)>)
    ensures !Truthy(title) || !Truthy(description) || IsBlank(title.value) ==> r == Err(BadRequest)
    ensures !Truthy(videoPath) || !Truthy(thumbnailPath) ==> r == Err(BadRequest)
    ensures r == Err(BadRequest) <==>
      !Truthy(title) || !Truthy(description) || IsBlank(title.value) || !Truthy(videoPath) || !Truthy(thumbnailPath)
    ensures r.Err? ==> r.status == BadRequest || r.status == InternalError
    ensures r.Ok? <==>
      && Truthy(title) && Truthy(description) && !IsBlank(title.value)
      && Truthy(videoPath) && Truthy(thumbnailPath)
      && UploadOnCloudinary(videoPath, videoAttempt).result.Some?
      && Truthy(videoAttempt.reply.url)
      && UploadOnCloudinary(thumbnailPath, thumbnailAttempt).result.Some?
      && Truthy(thumbnailAttempt.reply.url)
    ensures r.Ok? ==>
      var (s', v) := r.value;
      && v == Video(s.nextId, viewer, videoAttempt.reply.url.value, thumbnailAttempt.reply.url.value,
                    title.value, description.value, videoAttempt.reply.duration, 0, true)
      && s' == s.(videos := s.videos + [v], nextId := s.nextId + 1)
  {
    if !Truthy(title) || !Truthy(description) || IsBlank(title.value) then Err(BadRequest)
    else if !Truthy(videoPath) || !Truthy(thumbnailPath) then Err(BadRequest)
    else
      var videoFile := UploadOnCloudinary(videoPath, videoAttempt);
      var thumbnail := UploadOnCloudinary(thumbnailPath, thumbnailAttempt);
      if videoFile.result.None? || !Truthy(videoFile.result.value.url) then Err(InternalError)
      else if thumbnail.result.None? || !Truthy(thumbnail.result.value.url) then Err(InternalError)
      else
        var v := Video(s.nextId, viewer, videoFile.result.value.url.value,
                       thumbnail.result.value.url.value, title.value, description.value,
                       videoFile.result.value.duration, 0, true);
        Ok((s.(videos := s.videos + [v], nextId := s.nextId + 1), v))
  }

  // ---------------------------------------------------------------- watch

  /** One element of the `owner` array of the watch view. */
  datatype OwnerCard = OwnerCard(profile: Profile, subscribersCount: nat, isSubscribed: bool)

  /** The watch view (`$project`; `createdAt` is not modelled). */
  datatype VideoView = VideoView(id: Id, videoFile: string, thumbnail: string, title: string,
                                 description: string, duration: int, views: int,
                                 owner: seq<OwnerCard>, comments: seq<Comment>,
                                 likesCount: nat, isLiked: bool)

  /** `$lookup` from "subscriptions" with `foreignField: "channel"`, for a local
      value `key` (`None` when the local field is absent from the document, which
      matches no row since every subscription has a channel). */
  function SubscriptionsMatching(subs: seq<Subscription>, key: Option<Id>): seq<Subscription>
  {
    Filter(subs, (x: Subscription) => Some(x.channel) == key)
  }

  /** `$in: [viewer, "$subscribers.subscriber"]`. */
  predicate SubscribedIn(subs: seq<Subscription>, viewer: Id)
  {
    exists k :: 0 <= k < |subs| && subs[k].subscriber == viewer
  }

  /** `$lookup` from "users" on `_id`. */
  function UsersWithId(s: Store, id: Id): seq<User>
  {
    Filter(s.users, (u: User) => u.id == id)
  }

  function OwnerCardWith(s: Store, u: User, key: Option<Id>, viewer: Id): OwnerCard
  {
    var subs := SubscriptionsMatching(s.subscriptions, key);
    OwnerCard(ProfileOf(u), |subs|, SubscribedIn(subs, viewer))
  }

  /** The inner pipeline run on each looked-up user document in turn: the `k`-th
      card belongs to the `k`-th user. */
  function UserCards(s: Store, users: seq<User>, keyOf: User -> Option<Id>, viewer: Id): (cards: seq<OwnerCard>)
    ensures |cards| == |users|
    ensures forall k :: 0 <= k < |users| ==> cards[k] == OwnerCardWith(s, users[k], keyOf(users[k]), viewer)
  {
    if users == [] then []
    else
      var rest := UserCards(s, users[1..], keyOf, viewer);
      assert forall k :: 1 <= k < |users| ==> users[1..][k - 1] == users[k];
      [OwnerCardWith(s, users[0], keyOf(users[0]), viewer)] + rest
  }

  /** The users with the owner's id, each as a card whose subscription lookup uses
      the key `keyOf` picks from the user document; every card carries the owner's
      id, since the lookup matches on it. */
  function OwnerCardsWith(s: Store, owner: Id, keyOf: User -> Option<Id>, viewer: Id): (cards: seq<OwnerCard>)
    ensures |cards| == |UsersWithId(s, owner)|
    ensures forall k :: 0 <= k < |cards| ==>
              cards[k] == OwnerCardWith(s, UsersWithId(s, owner)[k], keyOf(UsersWithId(s, owner)[k]), viewer)
    ensures forall k :: 0 <= k < |cards| ==> cards[k].profile.id == owner
  {
    UserCards(s, UsersWithId(s, owner), keyOf, viewer)
  }

  /** As written, the inner lookup's `localField` is "owner", which a user document
      does not have. */
  function NoOwnerField(u: User): Option<Id>
  {
    None
  }

  /** Intended: the user's own `_id`. */
  function UserIdField(u: User): Option<Id>
  {
    Some(u.id)
  }

  /** `$lookup` from "comments" with `foreignField: "_id"` for a local value `key`,
      as written (`None`: the video has no `video` field). */
  function CommentsWithId(comments: seq<Comment>, key: Option<Id>): seq<Comment>
  {
    Filter(comments, (c: Comment) => Some(c.id) == key)
  }

  /** Intended: `localField: "_id"`, `foreignField: "video"`. */
  function CommentsOnVideo(comments: seq<Comment>, video: Id): seq<Comment>
  {
    Filter(comments, (c: Comment) => c.video == video)
  }

  function ViewOf(s: Store, v: Video, viewer: Id, owner: seq<OwnerCard>, comments: seq<Comment>): VideoView
  {
    VideoView(v.id, v.videoFile, v.thumbnail, v.title, v.description, v.duration, v.views,
              owner, comments, LikeCount(s.likes, OnVideo(v.id)), LikedBy(s.likes, OnVideo(v.id), viewer))
  }

  function UserIndex(s: Store, id: Id): Option<nat>
  {
    FirstIndex(s.users, (u: User) => u.id == id)
  }

  /** The two writes after a successful read: `$inc: { views: 1 }` on the video and
      `$addToSet: { watchHistory }` on the caller's user document, if there is one. */
  function Watch(s: Store, viewer: Id, i: nat): (s': Store)
    requires i < |s.videos|
    ensures s' == s.(videos := s'.videos, users := s'.users)
    ensures |s'.videos| == |s.videos| && |s'.users| == |s.users|
    ensures s'.videos[i] == s.videos[i].(views := s.videos[i].views + 1)
    ensures forall k :: 0 <= k < |s.videos| && k != i ==> s'.videos[k] == s.videos[k]
    ensures UserIndex(s, viewer).None? ==> s'.users == s.users
    ensures UserIndex(s, viewer).Some? ==>
              var j := UserIndex(s, viewer).value;
              var u := s.users[j];
              && (forall k :: 0 <= k < |s.users| && k != j ==> s'.users[k] == s.users[k])
              && (s.videos[i].id in u.watchHistory ==> s'.users[j] == u)
              && (s.videos[i].id !in u.watchHistory ==>
                    s'.users[j] == u.(watchHistory := u.watchHistory + [s.videos[i].id]))
  {
    var v := s.videos[i];
    var videos := s.videos[i := v.(views := v.views + 1)];
    match UserIndex(s, viewer)
    case None => s.(videos := videos)
    case Some(j) =>
      var u := s.users[j];
      s.(videos := videos, users := s.users[j := u.(watchHistory := AddToSet(u.watchHistory, v.id))])
  }

  /** No id occurs twice in a watch history. */
  predicate HistoryDistinct(h: seq<Id>)
  {
    forall a, b :: 0 <= a < b < |h| ==> h[a] != h[b]
  }

  /** Viewing a video never duplicates an entry of the viewer's watch history, and
      afterwards the video is in it. */
  lemma WatchKeepsHistoryDistinct(s: Store, viewer: Id, i: nat)
    requires i < |s.videos| && UserIndex(s, viewer).Some?
    requires HistoryDistinct(s.users[UserIndex(s, viewer).value].watchHistory)
    ensures var h := Watch(s, viewer, i).users[UserIndex(s, viewer).value].watchHistory;
            HistoryDistinct(h) && s.videos[i].id in h
  {
    var j := UserIndex(s, viewer).value;
    var h := s.users[j].watchHistory;
    var id := s.videos[i].id;
    if id !in h {
      var h' := h + [id];
      forall a, b | 0 <= a < b < |h'| ensures h'[a] != h'[b] {
        if b == |h| {
          assert h'[a] == h[a];
        } else {
          assert h'[a] == h[a] && h'[b] == h[b];
        }
      }
      assert h'[|h|] == id;
    }
  }

  /** A lookup whose local field is absent matches no subscription. */
  lemma NoSubscriptionMatchesAbsentKey(subs: seq<Subscription>)
    ensures SubscriptionsMatching(subs, None) == []
  {
    FilterNone(subs, (x: Subscription) => Some(x.channel) == None);
  }

  /** A lookup whose local field is absent matches no comment. */
  lemma NoCommentMatchesAbsentKey(comments: seq<Comment>)
    ensures CommentsWithId(comments, None) == []
  {
    FilterNone(comments, (c: Comment) => Some(c.id) == None);
  }

  /** `getVideoById` as written: both the subscriber lookup inside the owner lookup
      and the comments lookup name a local field the document does not have, so
      every owner card reports no subscriber and the comments are always empty. */
  function GetVideoByIdAsWritten(s: Store, viewer: Id, videoId: IdParam): (r: Result<(Store, VideoView)>)
    ensures !IsValidObjectId(videoId) <==> r == Err(BadRequest)
    ensures IsValidObjectId(videoId) ==> (r == Err(NotFound) <==> VideoIndex(s, videoId.id).None?)
    ensures r.Ok? <==> IsValidObjectId(videoId) && VideoIndex(s, videoId.id).Some?
    ensures r.Ok? ==> r.value.1.comments == []
    ensures r.Ok? ==> forall k :: 0 <= k < |r.value.1.owner| ==>
                        r.value.1.owner[k].subscribersCount == 0 && !r.value.1.owner[k].isSubscribed
  {
    if !IsValidObjectId(videoId) then Err(BadRequest)
    else match VideoIndex(s, videoId.id)
      case None => Err(NotFound)
      case Some(i) =>
        var v := s.videos[i];
        NoSubscriptionMatchesAbsentKey(s.subscriptions);
        NoCommentMatchesAbsentKey(s.comments);
        var owner := OwnerCardsWith(s, v.owner, NoOwnerField, viewer);
        Ok((Watch(s, viewer, i), ViewOf(s, v, viewer, owner, CommentsWithId(s.comments, None))))
  }

  /** The intended `getVideoById`: 400 for a malformed id and 404 for a missing
      video, neither of which writes. Otherwise the view shows the video as it was
      before this request (views not yet counted), its like count, whether the
      caller liked it, its owner with the owner's subscriber count and whether the
      caller subscribes, and the video's comments. The store then records the view
      and adds the video to the caller's watch history. */
  function GetVideoById(s: Store, viewer: Id, videoId: IdParam): (r: Result<(Store, VideoView)>)
    ensures !IsValidObjectId(videoId) <==> r == Err(BadRequest)
    ensures IsValidObjectId(videoId) ==> (r == Err(NotFound) <==> VideoIndex(s, videoId.id).None?)
    ensures r.Ok? <==> IsValidObjectId(videoId) && VideoIndex(s, videoId.id).Some?
    ensures r.Ok? ==>
      var i := VideoIndex(s, videoId.id).value;
      var v := s.videos[i];
      var (s', view) := r.value;
      && view.id == videoId.id && view.views == v.views
      && view.videoFile == v.videoFile && view.thumbnail == v.thumbnail
      && view.title == v.title && view.description == v.description && view.duration == v.duration
      && |view.owner| == |UsersWithId(s, v.owner)|
      && (forall k :: 0 <= k < |view.owner| ==> view.owner[k].profile == ProfileOf(UsersWithId(s, v.owner)[k]))
      && view.likesCount == LikeCount(s.likes, OnVideo(v.id))
      && (view.isLiked <==> LikedBy(s.likes, OnVideo(v.id), viewer))
      && (forall k :: 0 <= k < |view.owner| ==>
            && view.owner[k].profile.id == v.owner
            && view.owner[k].subscribersCount == |SubscribersOf(s.subscriptions, v.owner)|
            && (view.owner[k].isSubscribed <==>
                  exists j :: 0 <= j < |s.subscriptions| &&
                              s.subscriptions[j] == Subscription(s.subscriptions[j].id, viewer, v.owner)))
      && (|view.owner| > 0 <==> exists j :: 0 <= j < |s.users| && s.users[j].id == v.owner)
      && view.comments == CommentsOnVideo(s.comments, v.id)
      && s' == Watch(s, viewer, i)
  {
    if !IsValidObjectId(videoId) then Err(BadRequest)
    else match VideoIndex(s, videoId.id)
      case None => Err(NotFound)
      case Some(i) =>
        var v := s.videos[i];
        var owner := OwnerCardsWith(s, v.owner, UserIdField, viewer);
        OwnerCardsFacts(s, v.owner, viewer);
        Ok((Watch(s, viewer, i), ViewOf(s, v, viewer, owner, CommentsOnVideo(s.comments, v.id))))
  }

  /** What the intended owner cards say about the owner's subscribers. */
  lemma OwnerCardsFacts(s: Store, owner: Id, viewer: Id)
    ensures var cards := OwnerCardsWith(s, owner, UserIdField, viewer);
            && (forall k :: 0 <= k < |cards| ==>
                  && cards[k].subscribersCount == |SubscribersOf(s.subscriptions, owner)|
                  && (cards[k].isSubscribed <==>
                        exists j :: 0 <= j < |s.subscriptions| &&
                                    s.subscriptions[j] == Subscription(s.subscriptions[j].id, viewer, owner)))
            && (|cards| > 0 <==> exists j :: 0 <= j < |s.users| && s.users[j].id == owner)
  {
    var cards := OwnerCardsWith(s, owner, UserIdField, viewer);
    var found := UsersWithId(s, owner);
    OwnerSubscriptions(s, owner, viewer);
    forall k | 0 <= k < |cards|
      ensures cards[k] == OwnerCardWith(s, found[k], Some(owner), viewer)
    {
      assert found[k].id == owner;
      assert UserIdField(found[k]) == Some(owner);
    }
    if |cards| > 0 {
      FilterFrom(s.users, (u: User) => u.id == owner, 0);
      var u := found[0];
      assert u.id == owner;
      var j :| 0 <= j < |s.users| && s.users[j] == u;
    }
    if exists j :: 0 <= j < |s.users| && s.users[j].id == owner {
      var j :| 0 <= j < |s.users| && s.users[j].id == owner;
      FilterKeeps(s.users, (u: User) => u.id == owner, j);
    }
  }

  /** The subscriptions a lookup on the owner's `_id` finds are the owner's
      subscribers, and the viewer is among them exactly when the store holds a
      subscription of the viewer to the owner. */
  lemma OwnerSubscriptions(s: Store, owner: Id, viewer: Id)
    ensures SubscriptionsMatching(s.subscriptions, Some(owner)) == SubscribersOf(s.subscriptions, owner)
    ensures SubscribedIn(SubscriptionsMatching(s.subscriptions, Some(owner)), viewer) <==>
              exists j :: 0 <= j < |s.subscriptions| &&
                          s.subscriptions[j] == Subscription(s.subscriptions[j].id, viewer, owner)
  {
    var subs := SubscriptionsMatching(s.subscriptions, Some(owner));
    FilterCongruent(s.subscriptions, (x: Subscription) => Some(x.channel) == Some(owner),
                    (x: Subscription) => x.channel == owner);
    assert subs == SubscribersOf(s.subscriptions, owner);
    assert SubscribedIn(subs, viewer) <==>
           exists j :: 0 <= j < |s.subscriptions| &&
                       s.subscriptions[j] == Subscription(s.subscriptions[j].id, viewer, owner) by {
      if SubscribedIn(subs, viewer) {
        var k :| 0 <= k < |subs| && subs[k].subscriber == viewer;
        var x := subs[k];
        FilterFrom(s.subscriptions, (x: Subscription) => x.channel == owner, k);
        assert x.channel == owner;
        var j :| 0 <= j < |s.subscriptions| && s.subscriptions[j] == x;
        assert s.subscriptions[j] == Subscription(s.subscriptions[j].id, viewer, owner);
      }
      if exists j :: 0 <= j < |s.subscriptions| &&
                     s.subscriptions[j] == Subscription(s.subscriptions[j].id, viewer, owner) {
        var j :| 0 <= j < |s.subscriptions| &&
                 s.subscriptions[j] == Subscription(s.subscriptions[j].id, viewer, owner);
        FilterKeeps(s.subscriptions, (x: Subscription) => x.channel == owner, j);
        var k :| 0 <= k < |subs| && subs[k] == s.subscriptions[j];
        assert subs[k].subscriber == viewer;
      }
    }
  }

  /** Watching a video twice: the second view shows the count the first one added,
      and the caller's watch history does not change again. */
  lemma WatchAgain(s: Store, viewer: Id, videoId: IdParam)
    requires GetVideoById(s, viewer, videoId).Ok?
    ensures var (s1, view1) := GetVideoById(s, viewer, videoId).value;
            && GetVideoById(s1, viewer, videoId).Ok?
            && GetVideoById(s1, viewer, videoId).value.1.views == view1.views + 1
            && GetVideoById(s1, viewer, videoId).value.0.users == s1.users
  {
    var i := VideoIndex(s, videoId.id).value;
    var v := s.videos[i];
    var s1 := Watch(s, viewer, i);
    FirstIndexUpdate(s.videos, (x: Video) => x.id == videoId.id, i, v.(views := v.views + 1));
    assert VideoIndex(s1, videoId.id) == Some(i);
    WatchTwiceKeepsUsers(s, viewer, i);
  }

  /** A second view of the same video by the same viewer changes no user: the video
      is already in the viewer's watch history. */
  lemma WatchTwiceKeepsUsers(s: Store, viewer: Id, i: nat)
    requires i < |s.videos|
    ensures Watch(Watch(s, viewer, i), viewer, i).users == Watch(s, viewer, i).users
  {
    var v := s.videos[i];
    var s1 := Watch(s, viewer, i);
    match UserIndex(s, viewer)
    case None =>
      assert UserIndex(s1, viewer).None?;
    case Some(j) =>
      var u := s.users[j];
      var u1 := u.(watchHistory := AddToSet(u.watchHistory, v.id));
      FirstIndexUpdate(s.users, (x: User) => x.id == viewer, j, u1);
      assert UserIndex(s1, viewer) == Some(j);
      assert s1.users[j] == u1;
      assert AddToSet(u1.watchHistory, v.id) == u1.watchHistory;
      assert s1.users[j := u1] == s1.users;
  }

  /** The written handler differs from the intended one only in the two lookups:
      the store it leaves and every other field of the view are the same. */
  lemma GetVideoByIdAsWrittenDiffers(s: Store, viewer: Id, videoId: IdParam)
    ensures GetVideoByIdAsWritten(s, viewer, videoId).Ok? <==> GetVideoById(s, viewer, videoId).Ok?
    ensures GetVideoById(s, viewer, videoId).Ok? ==>
      var (s1, mine) := GetVideoByIdAsWritten(s, viewer, videoId).value;
      var (s2, intended) := GetVideoById(s, viewer, videoId).value;
      && s1 == s2
      && mine == intended.(comments := [], owner := mine.owner)
      && |mine.owner| == |intended.owner|
      && (forall k :: 0 <= k < |mine.owner| ==> mine.owner[k].profile == intended.owner[k].profile)
  {
  }

  /** A video with a comment, owned by a user with one subscriber: the written
      handler shows neither the comment nor the subscriber, the intended one both. */
  lemma GetVideoByIdAsWrittenMissesLookups(owner: Id, fan: Id)
    ensures var s := Store([User(0, "o", "O", "", [])],
                           [Video(1, 0, "f", "t", "title", "d", 5, 0, true)],
                           [Comment(2, 1, fan, "hi")], [],
                           [], [Subscription(3, fan, 0)], [], 4);
            var mine := GetVideoByIdAsWritten(s, fan, Valid(1)).value.1;
            var intended := GetVideoById(s, fan, Valid(1)).value.1;
            && mine.comments == [] && mine.owner[0].subscribersCount == 0 && !mine.owner[0].isSubscribed
            && intended.comments == [Comment(2, 1, fan, "hi")]
            && intended.owner[0].subscribersCount == 1 && intended.owner[0].isSubscribed
  {
    var s := Store([User(0, "o", "O", "", [])],
                   [Video(1, 0, "f", "t", "title", "d", 5, 0, true)],
                   [Comment(2, 1, fan, "hi")], [],
                   [], [Subscription(3, fan, 0)], [], 4);
    assert VideoIndex(s, 1) == Some(0);
    FilterAll(s.users, (u: User) => u.id == 0);
    FilterAll(s.comments, (c: Comment) => c.video == 1);
    FilterAll(s.subscriptions, (x: Subscription) => x.channel == 0);
    assert s.subscriptions[0] == Subscription(s.subscriptions[0].id, fan, 0);
  }

  /** A published video can be watched right away, with no views yet, and is
      found at the end of the collection. */
  lemma PublishedVideoWatchable(s: Store, viewer: Id, title: Option<string>, description: Option<string>,
                                videoPath: Option<string>, thumbnailPath: Option<string>,
                                videoAttempt: Attempt, thumbnailAttempt: Attempt, watcher: Id)
    requires IdsFresh(s)
    requires PublishAVideo(s, viewer, title, description, videoPath, thumbnailPath,
                           videoAttempt, thumbnailAttempt).Ok?
    ensures var (s', v) := PublishAVideo(s, viewer, title, description, videoPath, thumbnailPath,
                                         videoAttempt, thumbnailAttempt).value;
            && VideoIndex(s', v.id) == Some(|s.videos|)
            && GetVideoById(s', watcher, Valid(v.id)).Ok?
            && GetVideoById(s', watcher, Valid(v.id)).value.1.views == 0
  {
    var (s', v) := PublishAVideo(s, viewer, title, description, videoPath, thumbnailPath,
                                 videoAttempt, thumbnailAttempt).value;
    var p := (x: Video) => x.id == v.id;
    forall j | 0 <= j < |s.videos| ensures !p(s'.videos[j]) {
      assert s'.videos[j] == s.videos[j];
    }
    FirstIndexAt(s'.videos, p, |s.videos|);
  }

  /** Publishing and then deleting the video destroys at the service exactly the
      two files the publication uploaded, thumbnail first, by the public ids of the
      URLs the uploads returned; the video collection is back to what it was. */
  lemma PublishThenDeleteDestroysUploads(s: Store, viewer: Id, title: Option<string>,
                                         description: Option<string>, videoPath: Option<string>,
                                         thumbnailPath: Option<string>, videoAttempt: Attempt,
                                         thumbnailAttempt: Attempt, remoteDeleted: bool)
    requires IdsFresh(s)
    requires PublishAVideo(s, viewer, title, description, videoPath, thumbnailPath,
                           videoAttempt, thumbnailAttempt).Ok?
    ensures var (s', v) := PublishAVideo(s, viewer, title, description, videoPath, thumbnailPath,
                                         videoAttempt, thumbnailAttempt).value;
            var d := DeleteVideo(s', Valid(v.id), remoteDeleted);
            && d.destroyedIds == [PublicId(UploadOnCloudinary(thumbnailPath, thumbnailAttempt).result.value.url.value),
                                  PublicId(UploadOnCloudinary(videoPath, videoAttempt).result.value.url.value)]
            && d.response == (if remoteDeleted then Ok(v) else Err(InternalError))
            && d.store.videos == s.videos
  {
    var (s', v) := PublishAVideo(s, viewer, title, description, videoPath, thumbnailPath,
                                 videoAttempt, thumbnailAttempt).value;
    PublishedVideoWatchable(s, viewer, title, description, videoPath, thumbnailPath,
                            videoAttempt, thumbnailAttempt, viewer);
    assert s'.videos[|s.videos|] == v;
    assert RemoveAt(s'.videos, |s.videos|) == s.videos;
  }

  // ---------------------------------------------------------------- update

  /** `updateVideo`: 400 for a malformed id, 404 for a missing video. When a
      thumbnail file comes with the request it is uploaded; a null upload is 400,
      and a failure to destroy the old thumbnail at the service (by its public id)
      is 500. With no new title, no new description and the thumbnail unchanged
      the answer is 409. Otherwise only the video's title, description and
      thumbnail change: a missing or empty field keeps the old value. The result
      also names the public id sent to the service for destruction, if any. No
      ownership check is made. */
  function UpdateVideo(s: Store, videoId: IdParam, title: Option<string>, description: Option<string>,
                       thumbnailPath: Option<string>, attempt: Attempt, destroyed: bool)
    : (r: Result<(Store, Video, Option<string>)>)
    ensures !IsValidObjectId(videoId) ==> r == Err(BadRequest)
    ensures IsValidObjectId(videoId) ==> (r == Err(NotFound) <==> VideoIndex(s, videoId.id).None?)
    ensures r.Err? ==> r.status in {BadRequest, NotFound, Conflict, InternalError}
    ensures IsValidObjectId(videoId) && VideoIndex(s, videoId.id).Some? ==>
      var v := s.videos[VideoIndex(s, videoId.id).value];
      var up := UploadOnCloudinary(thumbnailPath, attempt);
      && (Truthy(thumbnailPath) && up.result.None? ==> r == Err(BadRequest))
      && (Truthy(thumbnailPath) && up.result.Some? && !destroyed ==> r == Err(InternalError))
      && (r == Err(Conflict) <==>
            && !Truthy(title) && !Truthy(description)
            && (!Truthy(thumbnailPath) || (up.result.Some? && destroyed && attempt.reply.url == Some(v.thumbnail))))
      && (r.Ok? <==>
            && (!Truthy(thumbnailPath) || (up.result.Some? && destroyed))
            && !(!Truthy(title) && !Truthy(description)
                 && (!Truthy(thumbnailPath) || attempt.reply.url == Some(v.thumbnail))))
    ensures r.Ok? ==>
      var i := VideoIndex(s, videoId.id).value;
      var v := s.videos[i];
      var (s', v', removed) := r.value;
      && v'.title == (if Truthy(title) then title.value else v.title)
      && v'.description == (if Truthy(description) then description.value else v.description)
      && (Truthy(thumbnailPath) && attempt.reply.url.Some? ==> v'.thumbnail == attempt.reply.url.value)
      && (Truthy(thumbnailPath) && attempt.reply.url.None? ==> v'.thumbnail == v.thumbnail)
      && (!Truthy(thumbnailPath) ==> v'.thumbnail == v.thumbnail)
      && v' == v.(title := v'.title, description := v'.description, thumbnail := v'.thumbnail)
      && s' == s.(videos := s.videos[i := v'])
      && removed == (if Truthy(thumbnailPath) then Some(PublicId(v.thumbnail)) else None)
  {
    if !IsValidObjectId(videoId) then Err(BadRequest)
    else match VideoIndex(s, videoId.id)
      case None => Err(NotFound)
      case Some(i) =>
        var v := s.videos[i];
        var up := UploadOnCloudinary(thumbnailPath, attempt);
        if Truthy(thumbnailPath) && up.result.None? then Err(BadRequest)
        else if Truthy(thumbnailPath) && !destroyed then Err(InternalError)
        else
          var newThumbnail := if Truthy(thumbnailPath) then up.result.value.url else Some(v.thumbnail);
          if !Truthy(title) && !Truthy(description) && newThumbnail == Some(v.thumbnail) then Err(Conflict)
          else
            var v' := v.(title := if Truthy(title) then title.value else v.title,
                         description := if Truthy(description) then description.value else v.description,
                         thumbnail := if newThumbnail.Some? then newThumbnail.value else v.thumbnail);
            Ok((s.(videos := s.videos[i := v']), v',
                if Truthy(thumbnailPath) then Some(PublicId(v.thumbnail)) else None))
  }

  /** Repeating a text-only update changes nothing further. */
  lemma UpdateVideoIdempotent(s: Store, videoId: IdParam, title: Option<string>, description: Option<string>,
                              attempt: Attempt, destroyed: bool)
    requires UpdateVideo(s, videoId, title, description, None, attempt, destroyed).Ok?
    ensures var (s', v', _) := UpdateVideo(s, videoId, title, description, None, attempt, destroyed).value;
            UpdateVideo(s', videoId, title, description, None, attempt, destroyed) == Ok((s', v', None))
  {
    var (s', v', _) := UpdateVideo(s, videoId, title, description, None, attempt, destroyed).value;
    var i := VideoIndex(s, videoId.id).value;
    FirstIndexUpdate(s.videos, (x: Video) => x.id == videoId.id, i, v');
    assert VideoIndex(s', videoId.id) == Some(i);
    assert s'.videos[i] == v';
    assert s'.videos[i := v'] == s'.videos;
  }

  // ---------------------------------------------------------------- delete

  /** `$pull` of the id from every user's watch history: no history holds the id
      any more, every other entry keeps its order and its number of occurrences,
      and no other field of a user changes. */
  function PullFromHistories(users: seq<User>, id: Id): (r: seq<User>)
    ensures |r| == |users|
    ensures forall k :: 0 <= k < |users| ==> r[k] == users[k].(watchHistory := r[k].watchHistory)
    ensures forall k :: 0 <= k < |users| ==> id !in r[k].watchHistory
    ensures forall k :: 0 <= k < |users| ==> Subsequence(r[k].watchHistory, users[k].watchHistory)
    ensures forall k, y :: 0 <= k < |users| && y != id ==>
              multiset(r[k].watchHistory)[y] == multiset(users[k].watchHistory)[y]
  {
    var r := seq(|users|, k requires 0 <= k < |users| => users[k].(watchHistory := Pull(users[k].watchHistory, id)));
    forall k | 0 <= k < |users|
      ensures Subsequence(r[k].watchHistory, users[k].watchHistory)
      ensures forall y :: y != id ==> multiset(r[k].watchHistory)[y] == multiset(users[k].watchHistory)[y]
    {
      PullKeepsOthers(users[k].watchHistory, id);
    }
    r
  }

  /** `$pull` of the id from every playlist: no playlist lists the id any more,
      every other entry keeps its order and its number of occurrences, and no
      other field of a playlist changes. */
  function PullFromPlaylists(playlists: seq<Playlist>, id: Id): (r: seq<Playlist>)
    ensures |r| == |playlists|
    ensures forall k :: 0 <= k < |playlists| ==> r[k] == playlists[k].(videos := r[k].videos)
    ensures forall k :: 0 <= k < |playlists| ==> id !in r[k].videos
    ensures forall k :: 0 <= k < |playlists| ==> Subsequence(r[k].videos, playlists[k].videos)
    ensures forall k, y :: 0 <= k < |playlists| && y != id ==>
              multiset(r[k].videos)[y] == multiset(playlists[k].videos)[y]
  {
    var r := seq(|playlists|, k requires 0 <= k < |playlists| => playlists[k].(videos := Pull(playlists[k].videos, id)));
    forall k | 0 <= k < |playlists|
      ensures Subsequence(r[k].videos, playlists[k].videos)
      ensures forall y :: y != id ==> multiset(r[k].videos)[y] == multiset(playlists[k].videos)[y]
    {
      PullKeepsOthers(playlists[k].videos, id);
    }
    r
  }

  function NotOnVideo(id: Id): Comment -> bool
  {
    (c: Comment) => c.video != id
  }

  function LikeNotOnVideo(id: Id): Like -> bool
  {
    (l: Like) => l.target != OnVideo(id)
  }

  /** A deletion's outcome: the store afterwards (written even when the response
      is an error), the response, and the public ids sent to the service for
      destruction. */
  datatype Deletion = Deletion(store: Store, response: Result<Video>, destroyedIds: seq<string>)

  /** `deleteVideo` as written: the video is deleted, then building the array
      for `Promise.all` evaluates `Playlist`, which the module never imports. The
      `ReferenceError` is thrown before any of the queries already built is
      executed (Mongoose queries run only when awaited), so no comment, like,
      watch-history entry or playlist entry is touched, nothing is destroyed at
      the service, and the response is 500. */
  function DeleteVideoAsWritten(s: Store, videoId: IdParam): (r: Deletion)
    ensures !IsValidObjectId(videoId) ==> r == Deletion(s, Err(BadRequest), [])
    ensures IsValidObjectId(videoId) && VideoIndex(s, videoId.id).None? ==> r == Deletion(s, Err(NotFound), [])
    ensures IsValidObjectId(videoId) && VideoIndex(s, videoId.id).Some? ==>
      && r.response == Err(InternalError) && r.destroyedIds == []
      && r.store == s.(videos := RemoveAt(s.videos, VideoIndex(s, videoId.id).value))
  {
    if !IsValidObjectId(videoId) then Deletion(s, Err(BadRequest), [])
    else match VideoIndex(s, videoId.id)
      case None => Deletion(s, Err(NotFound), [])
      case Some(i) => Deletion(s.(videos := RemoveAt(s.videos, i)), Err(InternalError), [])
  }

  /** The intended `deleteVideo`: 400 for a malformed id and 404 for a missing
      video, neither of which writes. Otherwise the video is deleted together with
      its comments and the likes on it, and its id is pulled from every watch
      history and every playlist; the thumbnail and the video file are destroyed
      at the service by their public ids, and if that fails the response is 500
      though the writes have happened. No ownership check is made. */
  function DeleteVideo(s: Store, videoId: IdParam, remoteDeleted: bool): (r: Deletion)
    ensures !IsValidObjectId(videoId) ==> r == Deletion(s, Err(BadRequest), [])
    ensures IsValidObjectId(videoId) && VideoIndex(s, videoId.id).None? ==> r == Deletion(s, Err(NotFound), [])
    ensures IsValidObjectId(videoId) && VideoIndex(s, videoId.id).Some? ==>
      var i := VideoIndex(s, videoId.id).value;
      var v := s.videos[i];
      var id := videoId.id;
      && r.response == (if remoteDeleted then Ok(v) else Err(InternalError))
      && r.destroyedIds == [PublicId(v.thumbnail), PublicId(v.videoFile)]
      && r.store.videos == RemoveAt(s.videos, i)
      && r.store.comments == Filter(s.comments, NotOnVideo(id))
      && r.store.likes == Filter(s.likes, LikeNotOnVideo(id))
      && r.store.users == PullFromHistories(s.users, id)
      && r.store.playlists == PullFromPlaylists(s.playlists, id)
      && r.store.tweets == s.tweets && r.store.subscriptions == s.subscriptions
      && r.store.nextId == s.nextId
  {
    if !IsValidObjectId(videoId) then Deletion(s, Err(BadRequest), [])
    else match VideoIndex(s, videoId.id)
      case None => Deletion(s, Err(NotFound), [])
      case Some(i) =>
        var v := s.videos[i];
        var id := videoId.id;
        var s' := s.(videos := RemoveAt(s.videos, i),
                     comments := Filter(s.comments, NotOnVideo(id)),
                     likes := Filter(s.likes, LikeNotOnVideo(id)),
                     users := PullFromHistories(s.users, id),
                     playlists := PullFromPlaylists(s.playlists, id));
        Deletion(s', if remoteDeleted then Ok(v) else Err(InternalError),
                 [PublicId(v.thumbnail), PublicId(v.videoFile)])
  }

  /** After the intended deletion nothing refers to the video any more: no comment,
      no like, no watch history, no playlist, and (ids being unique) no video. */
  lemma DeleteVideoLeavesNoReference(s: Store, videoId: IdParam, remoteDeleted: bool)
    requires UniqueVideoIds(s.videos)
    requires IsValidObjectId(videoId) && VideoIndex(s, videoId.id).Some?
    ensures var s' := DeleteVideo(s, videoId, remoteDeleted).store;
            var id := videoId.id;
            && !HasVideo(s'.videos, id)
            && (forall k :: 0 <= k < |s'.comments| ==> s'.comments[k].video != id)
            && (forall k :: 0 <= k < |s'.likes| ==> s'.likes[k].target != OnVideo(id))
            && (forall k :: 0 <= k < |s'.users| ==> id !in s'.users[k].watchHistory)
            && (forall k :: 0 <= k < |s'.playlists| ==> id !in s'.playlists[k].videos)
  {
    RemoveUniqueVideo(s.videos, VideoIndex(s, videoId.id).value);
  }

  /** Removing a video from a collection with unique ids leaves none with its id. */
  lemma RemoveUniqueVideo(videos: seq<Video>, i: nat)
    requires UniqueVideoIds(videos) && i < |videos|
    ensures !HasVideo(RemoveAt(videos, i), videos[i].id)
  {
    var r := RemoveAt(videos, i);
    assert r == videos[..i] + videos[i+1..];
    forall k | 0 <= k < |r| ensures r[k].id != videos[i].id {
      if k < i {
        assert r[k] == videos[k];
      } else {
        assert r[k] == videos[k + 1];
      }
    }
  }

  /** The intended deletion leaves every other video's comments exactly as they
      were. */
  lemma DeleteVideoKeepsOtherComments(s: Store, videoId: IdParam, remoteDeleted: bool, other: Id)
    requires IsValidObjectId(videoId) && VideoIndex(s, videoId.id).Some? && other != videoId.id
    ensures CommentsOnVideo(DeleteVideo(s, videoId, remoteDeleted).store.comments, other) ==
            CommentsOnVideo(s.comments, other)
  {
    FilterNarrow(s.comments, NotOnVideo(videoId.id), (c: Comment) => c.video == other);
  }

  /** As written, a deleted video's comments and likes stay behind, and the client
      is told the request failed. */
  lemma DeleteVideoAsWrittenOrphans(s: Store, videoId: IdParam, remoteDeleted: bool)
    requires IsValidObjectId(videoId) && VideoIndex(s, videoId.id).Some?
    ensures var mine := DeleteVideoAsWritten(s, videoId);
            var intended := DeleteVideo(s, videoId, remoteDeleted);
            && mine.response == Err(InternalError)
            && mine.store.comments == s.comments && mine.store.likes == s.likes
            && mine.store.users == s.users && mine.store.playlists == s.playlists
            && mine.store.videos == intended.store.videos
  {
  }

  // ---------------------------------------------------------------- publish status

  /** `togglePublishStatus`: 400 for a malformed id, 500 when no video has it;
      otherwise only that video's `isPublished` is negated. */
  function TogglePublishStatus(s: Store, videoId: IdParam): (r: Result<(Store, Video)>)
    ensures !IsValidObjectId(videoId) <==> r == Err(BadRequest)
    ensures IsValidObjectId(videoId) ==> (r == Err(InternalError) <==> VideoIndex(s, videoId.id).None?)
    ensures r.Ok? <==> IsValidObjectId(videoId) && VideoIndex(s, videoId.id).Some?
    ensures r.Ok? ==>
      var i := VideoIndex(s, videoId.id).value;
      var (s', v') := r.value;
      && v'.isPublished == !s.videos[i].isPublished
      && v' == s.videos[i].(isPublished := v'.isPublished)
      && s' == s.(videos := s.videos[i := v'])
  {
    if !IsValidObjectId(videoId) then Err(BadRequest)
    else match VideoIndex(s, videoId.id)
      case None => Err(InternalError)
      case Some(i) =>
        var v' := s.videos[i].(isPublished := !s.videos[i].isPublished);
        Ok((s.(videos := s.videos[i := v']), v'))
  }

  /** Toggling twice restores the store. */
  lemma TogglePublishTwice(s: Store, videoId: IdParam)
    requires TogglePublishStatus(s, videoId).Ok?
    ensures var s' := TogglePublishStatus(s, videoId).value.0;
            TogglePublishStatus(s', videoId).Ok? && TogglePublishStatus(s', videoId).value.0 == s
  {
    var (s', v') := TogglePublishStatus(s, videoId).value;
    var i := VideoIndex(s, videoId.id).value;
    FirstIndexUpdate(s.videos, (x: Video) => x.id == videoId.id, i, v');
    assert VideoIndex(s', videoId.id) == Some(i);
    assert s'.videos[i := s.videos[i]] == s.videos;
  }
}
